=== FILE: README.md ===
# SupportCandy core, modelled in Dafny

SupportCandy is a WordPress help-desk plugin. Under its hooks, AJAX handlers
and HTML output sit small decision and transform functions. This project
models them and proves what they promise:

- `WPSC_Functions` (`query_filters.dfy`, `paging.dfy`, `keyed_sort.dfy`,
  `durations.dfy`, `calendar_text.dfy`). It covers:
  - the SQL WHERE builder `parse_user_filters` and the key sanitizer, each
    both as written and corrected (see "## Findings"), with the walk proved
    for both programs;
  - `parse_order`, `parse_limit` and `parse_response`;
  - the keyed sort `array_sort`;
  - the conversions between DateInterval, ISO 8601 duration text (with
    designators, as in section 4.4.3.2 of ISO 8601:2004) and the "2d 3h 4m"
    form of the user interface;
  - day and month names, and `sanitize_time`.
- `WPSC_Ticket_Restrictions_Manager` (`restrictions.dfy`): the action filters
  of an individual ticket, keyed on whether the ticket is active.
- `WPSC_Archive_Ticket_List` (`archive_ticket_list.dfy`). It covers:
  - filter access and the fallback resolution of the list filters;
  - the pagination caption;
  - the bulk and filter action sets;
  - the two bulk handlers.

  The static state is a `TicketList` class; the ticket tables are a
  `TicketStore` class.
- `WPSC_Individual_Archive_Ticket` (`individual_archive_ticket.dfy`). It
  covers:
  - the three-way ticket capability check;
  - URL authentication and the choice of view profile;
  - the action bar;
  - the thread types fetched;
  - the print gates;
  - the order in which threads are printed.

  The static state is a `View` class.
- `WPSC_Cron` (`cron.dfy`). It covers:
  - the custom intervals;
  - `schedule_events` and `unschedule_events` over an abstract cron table;
  - the three lifecycle jobs: cutoff unit, batch processing and the one
    follow-up run.

  The cron table and the ticket tables form a `Site` class.
- `framework/scripts.js` (`client_scripts.dfy`). It covers:
  - the ticket-list pager;
  - the responsive breakpoints;
  - the expiry and clearing of reply drafts kept in the browser;
  - the condition-form reader;
  - the report batching;
  - `validateNumber`.

  The `supportcandy` object and `localStorage` become fields of classes.

`php_text.dfy` holds the PHP string semantics the models share:
- falsiness of `""` and `"0"`;
- `intval`, `strtolower` and `strtoupper`;
- `implode`;
- decimal printing.

`wrappers.dfy` holds `Option`.

Database queries, `esc_sql`/`esc_like`, the clock and WordPress options are
parameters:
- a query is a function argument (`find`);
- an escaper is an opaque function (`Escapers`);
- the current time is an integer argument (`now`);
- a setting is a value of a datatype (`MoreSettings`, `Advanced`).

Paths below are relative to the plugin repository.

## Model

| member | source | states |
|---|---|---|
| QueryFilters.SanitizeSqlKeyAsWritten | supportcandy/includes/class-wpsc-functions.php:808-820 | The key sanitizer as written, with PCRE's `$` matching before one final newline; whatever it lets through is the lower-cased key. |
| QueryFilters.SanitizeSqlKeyAcceptsNewline | supportcandy/includes/class-wpsc-functions.php:814 | The written pattern lets the key "id\n" through, newline included. |
| QueryFilters.SanitizeSqlKey | supportcandy/includes/class-wpsc-functions.php:808-820 | Corrected sanitizer. The result is non-empty exactly when the key is a string whose lower-cased form has the shape `([a-z]{1,2}\.)?[a-z0-9_]+`. In that case the result is that lower-cased form, made only of key characters and dots. |
| QueryFilters.SanitizeSqlKeyRejectsNewline | supportcandy/includes/class-wpsc-functions.php:814 | The corrected sanitizer refuses every key that ends in a newline. |
| QueryFilters.SanitizeSqlKeyIdempotent | supportcandy/includes/class-wpsc-functions.php:808-820 | Sanitizing a sanitized key gives it back unchanged. |
| QueryFilters.ClauseFragment | supportcandy/includes/class-wpsc-functions.php:165-240 | For either program (as written or corrected), a clause spoils its group exactly when its slug sanitises to a false value, its compare is false, or its val is `false`. The as-written program uses the sanitizer with PCRE's `$` and joins NOT IN tests with OR; the corrected one uses the strict sanitizer and AND. |
| QueryFilters.EntryOutcome | supportcandy/includes/class-wpsc-functions.php:155-171 | A group element is invalid exactly when one of these holds: it is not an array; it is an array without relation and without a usable slug; or it is a clause with an unusable slug, compare or val. |
| QueryFilters.FilterSql | supportcandy/includes/class-wpsc-functions.php:140-142 | In either program, anything but an array with a relation and at least one other element renders as '1=1'. |
| QueryFilters.InvalidEntryGivesTautology | supportcandy/includes/class-wpsc-functions.php:155-171 | In either program, one invalid element anywhere in a group makes the whole group render as '1=1'. |
| QueryFilters.NewlineKeySpoilsGroup | supportcandy/includes/class-wpsc-functions.php:165-170 | In the corrected program, a clause whose slug ends in a newline makes its whole group render as '1=1'. |
| QueryFilters.NullValAccepted | supportcandy/includes/class-wpsc-functions.php:167-170 | In either program, a missing or null val never makes a clause invalid. |
| QueryFilters.ValidGroupJoined | supportcandy/includes/class-wpsc-functions.php:244-246 | In either program, a group whose elements are all valid behaves as follows. A single fragment stands alone. Several fragments are joined by " RELATION " inside "( … )". A nested group contributes its own rendering. |
| QueryFilters.MultiValueClause | supportcandy/includes/class-wpsc-functions.php:181-227 | On a multi-valued column, a scalar comparison collapses to '1=1'. IN becomes an OR of RLIKE tests on the pipe-separated column, one per value, in order. NOT IN becomes the same tests negated, joined by OR in the program as written and by AND in the corrected one. |
| QueryFilters.NotInAsWrittenAdmitsExcludedRow | supportcandy/includes/class-wpsc-functions.php:213-222 | Through the whole as-written walk, the filter NOT IN ['1', '2'] on a multi-valued column renders as an OR of NOT RLIKE tests. A row whose column holds '1' is selected by it and refused by the corrected fragment. |
| QueryFilters.NewlineKeyReachesSql | supportcandy/includes/class-wpsc-functions.php:165-170 | Through the whole walk, the clause {slug: "id\n", compare: IS} renders as "id\n IS NULL" as written and makes the group '1=1' in the corrected program. |
| QueryFilters.NotInIsComplementOfIn | supportcandy/includes/class-wpsc-functions.php:197-222 | In the corrected program the IN and NOT IN clauses render the runs of RLIKE tests `MultiGroup(…, false, vals)` and `MultiGroup(…, true, vals)`. The NOT IN run selects a row exactly when the IN run does not, that is, when the row holds none of the values. |
| QueryFilters.NotInAsWrittenAdmitsHeldValue | supportcandy/includes/class-wpsc-functions.php:213-222 | As written, NOT IN on a multi-valued column selects every row that holds one listed value and lacks another; the corrected NOT IN refuses such a row. |
| QueryFilters.RlikeList | supportcandy/includes/class-wpsc-functions.php:200-204 | The `foreach` over the values collects one (NOT) RLIKE test per value, in order. |
| QueryFilters.RlikeRun | supportcandy/includes/class-wpsc-functions.php:197-222 | In either program, the collected tests are joined inside parentheses, by OR for IN and for the written NOT IN and by AND for the corrected NOT IN; the text is the rendering of `MultiGroup`, whose selected rows NotInIsComplementOfIn and NotInAsWrittenAdmitsHeldValue describe. |
| QueryFilters.RenderClause | supportcandy/includes/class-wpsc-functions.php:173-240 | In either program, the `switch` on compare yields the fragment that `ClauseFragment` specifies. |
| QueryFilters.ParseUserFilters | supportcandy/includes/class-wpsc-functions.php:135-247 | In either program, the walk over the elements, recursing into nested groups, returns the text that `FilterSql` specifies (and so every property above). With `AsWritten` it is the source's walk. |
| QueryFilters.OrderDirection | supportcandy/includes/class-wpsc-functions.php:264-265 | The direction is always ASC or DESC, and a given ASC or DESC is kept. |
| QueryFilters.ParseOrder | supportcandy/includes/class-wpsc-functions.php:255-277 | The result is empty exactly when orderby is missing or false. Otherwise it starts with "ORDER BY " and ends with the direction. It casts the orderby column to SIGNED exactly when orderby_slug names a number field; otherwise it starts with "ORDER BY " followed by the orderby column and a space. |
| Paging.ParseLimit | supportcandy/includes/class-wpsc-functions.php:285-300 | The result is empty exactly when items_per_page is missing or 0. Otherwise it is `LIMIT (page-1)*n, n`, with the page defaulting to 1. |
| Paging.FirstPageStartsAtZero | supportcandy/includes/class-wpsc-functions.php:294-299 | Without a page number the offset is 0. |
| Paging.PagesTileRows | supportcandy/includes/class-wpsc-functions.php:297 | With a positive page size, each page starts where the previous one ends. Row x is on page x / n + 1 and on no other page. |
| Paging.CeilDiv | supportcandy/includes/class-wpsc-functions.php:325 | `ceil(a / b)` is the least integer at least the rational quotient. |
| Paging.ParseResponse | supportcandy/includes/class-wpsc-functions.php:310-337 | Without a non-zero page size, only total_items and results are returned. Otherwise the page count is the ceiling of total / size, and there is a next page exactly when current < total_pages. |
| Paging.HasNextPageIffRowsRemain | supportcandy/includes/class-wpsc-functions.php:325-327 | There is a next page exactly when the rows up to the end of the current page do not exhaust the total. |
| Paging.NonEmptyHasAPage | supportcandy/includes/class-wpsc-functions.php:325 | With a positive page size, the page count is at least one. |
| KeyedSort.LastField | supportcandy/includes/class-wpsc-functions.php:438-442 | A record yields a sort value exactly when one of its fields is called `on`. |
| KeyedSort.FindField | supportcandy/includes/class-wpsc-functions.php:438-442 | The inner loop keeps the value of the last field called `on`. |
| KeyedSort.Selection | supportcandy/includes/class-wpsc-functions.php:436-446 | The rows collected for sorting are exactly the input rows that have a sort value. |
| KeyedSort.InsertSorted | supportcandy/includes/class-wpsc-functions.php:447-454 | Inserting into a sorted list keeps it sorted. |
| KeyedSort.SortRowsPermutes | supportcandy/includes/class-wpsc-functions.php:447-454 | Sorting neither loses nor duplicates a row. |
| KeyedSort.SortRowsSorted | supportcandy/includes/class-wpsc-functions.php:447-454 | The sorted rows are in the requested order. |
| KeyedSort.UnorderedKeepsOrder | supportcandy/includes/class-wpsc-functions.php:447-454 | With an order flag other than SORT_ASC or SORT_DESC, the rows keep their input order. |
| KeyedSort.InsertRow | supportcandy/includes/class-wpsc-functions.php:447-454 | One step of the sort puts the row in front of the first row it must precede. |
| KeyedSort.ArraySort | supportcandy/includes/class-wpsc-functions.php:432-462 | The method returns the rows that `ArraySortSpec` specifies. |
| KeyedSort.ArraySortIsSortedPermutation | supportcandy/includes/class-wpsc-functions.php:432-462 | `array_sort` returns a permutation of the rows that carry a sort value (a record without the field is dropped). They are ascending for SORT_ASC and descending for SORT_DESC. |
| Durations.DayCount | supportcandy/includes/class-wpsc-functions.php:582-590 | The day figure is absent exactly when both the total day count and the day field are zero. |
| Durations.IntervalToString | supportcandy/includes/class-wpsc-functions.php:578-604 | The ISO text always starts with "P". It contains "T" exactly when hours or minutes are non-zero or no day figure is shown. An empty interval gives "PT0M". |
| Durations.DateIntervalToString | supportcandy/includes/class-wpsc-functions.php:578-604 | Building the text piece by piece gives `IntervalToString`. |
| Durations.PartsShown | supportcandy/includes/class-wpsc-functions.php:617-651 | Every figure of the readable form is a number followed by its unit letter, with no space, and is never "0m". |
| Durations.IntervalToReadable | supportcandy/includes/class-wpsc-functions.php:612-652 | The readable form is never empty; PartsShown, ReadableZeroIff and ReadableRoundTrip state what it holds. |
| Durations.ReadableZeroIff | supportcandy/includes/class-wpsc-functions.php:612-654 | The readable form is "0m" exactly when there are no days, hours or minutes. |
| Durations.MatchReadable | supportcandy/includes/class-wpsc-functions.php:673 | Whole-string match of the readable pattern. Only the empty text (or a lone newline where `$` allows one) matches with three empty groups. |
| Durations.ReadableToIntervalAsWritten | supportcandy/includes/class-wpsc-functions.php:662-689 | The reader as written returns false only for a false text or a text that fails the written pattern. |
| Durations.ReadableAsWrittenThrows | supportcandy/includes/class-wpsc-functions.php:673-688 | As written, "d" builds "PD" and "\n" builds "P", both of which DateInterval rejects with an exception. |
| Durations.ReadableToInterval | supportcandy/includes/class-wpsc-functions.php:662-689 | The corrected reader never throws. It returns false exactly for a false text or a text that fails the strict pattern. Its ISO text starts with "P". |
| Durations.ReadableRefusesBareLetter | supportcandy/includes/class-wpsc-functions.php:673 | The corrected reader returns false for "d" and for "\n". |
| Durations.StrictMatchAccepted | supportcandy/includes/class-wpsc-functions.php:673-688 | Under the strict pattern, every match builds a text that DateInterval accepts. |
| Durations.ReadableToDateInterval | supportcandy/includes/class-wpsc-functions.php:662-689 | Building the ISO text piece by piece gives `ReadableToInterval`. |
| Durations.ReadableRoundTrip | supportcandy/includes/class-wpsc-functions.php:612-689 | Reading back the readable form of an interval builds the ISO text that `date_interval_to_string` gives for it. This holds for the written reader and the corrected one alike. |
| Durations.UnitsAllZero | supportcandy/includes/class-wpsc-functions.php:697-755 | Every unit figure is zero exactly when years, months, days, hours, minutes and seconds are all zero. |
| Durations.HighestUnitAgo | supportcandy/includes/class-wpsc-functions.php:697-755 | The result is "Just now" exactly when every unit is zero. Otherwise it names the largest unit with a non-zero figure, and that figure. |
| Durations.AgoText | supportcandy/includes/class-wpsc-functions.php:697-755 | The text is "Just now" exactly for `JustNow`; any other value's text ends in " ago". |
| Durations.AgoTextInjective | supportcandy/includes/class-wpsc-functions.php:697-755 | Different results give different texts: the figure and the unit's "… ago" phrase can be read back from the text. |
| Durations.AgoTextJustNowIff | supportcandy/includes/class-wpsc-functions.php:697-755 | The text for an interval is "Just now" exactly when every unit of the interval is zero. |
| CalendarText.DayName | supportcandy/includes/class-wpsc-functions.php:763-775 | A name exists exactly for days 1..7; 1 is Monday and 7 is Sunday. |
| CalendarText.MonthName | supportcandy/includes/class-wpsc-functions.php:783-800 | A name exists exactly for months 1..12; 1 is January and 12 is December. |
| CalendarText.NamesAreDistinct | supportcandy/includes/class-wpsc-functions.php:763-800 | Different days, and different months, get different names. |
| CalendarText.FirstClock | supportcandy/includes/class-wpsc-functions.php:876 | The leftmost position where `\d{2}:\d{2}` matches, with no match before it. |
| CalendarText.SanitizeTime | supportcandy/includes/class-wpsc-functions.php:870-881 | A false text is returned as it is. Any other text is returned whole exactly when its first "dd:dd" is an hour below 24 and a minute below 60, and becomes "" otherwise. |
| CalendarText.PlainClock | supportcandy/includes/class-wpsc-functions.php:870-881 | A plain "hh:mm" passes exactly when it is a time of day. |
| CalendarText.OnlyFirstClockCounts | supportcandy/includes/class-wpsc-functions.php:876-880 | Only the first match is checked: "99:99 12:30" is refused. |
| TicketRestrictions.IsRestricted | supportcandy/includes/admin/tickets/class-wpsc-ticket-restrictions-manager.php:29-40 | Every action is restricted on an inactive ticket, and none on an active one. |
| TicketRestrictions.DropKeys | supportcandy/includes/admin/tickets/class-wpsc-ticket-restrictions-manager.php:57 | `array_diff_key` keeps exactly the entries whose key is not restricted. |
| TicketRestrictions.IndividualTicketActions | supportcandy/includes/admin/tickets/class-wpsc-ticket-restrictions-manager.php:49-60 | An inactive ticket loses exactly refresh, close, duplicate, copy, archive and delete. An active ticket loses exactly restore and delete-permanently. |
| TicketRestrictions.SubmitActions | supportcandy/includes/admin/tickets/class-wpsc-ticket-restrictions-manager.php:69-80 | An inactive ticket loses exactly reply, private-note and reply-and-close. |
| TicketRestrictions.ThreadActions | supportcandy/includes/admin/tickets/class-wpsc-ticket-restrictions-manager.php:89-100 | An inactive ticket loses exactly edit and delete. |
| TicketRestrictions.ActiveTicketKeepsSubmitAndThreadActions | supportcandy/includes/admin/tickets/class-wpsc-ticket-restrictions-manager.php:69-100 | For an active ticket, the submit and thread action lists come back unchanged. |
| TicketRestrictions.DropKeysConcat | supportcandy/includes/admin/tickets/class-wpsc-ticket-restrictions-manager.php:57 | Dropping keys works entry by entry, so the surviving entries keep their relative order. |
| TicketRestrictions.DropKeysIdempotent | supportcandy/includes/admin/tickets/class-wpsc-ticket-restrictions-manager.php:57 | Dropping the same keys twice drops nothing more. |
| TicketRestrictions.FiltersAreIdempotentSubLists | supportcandy/includes/admin/tickets/class-wpsc-ticket-restrictions-manager.php:49-100 | Each filter returns a sub-list of its input with the values unchanged, and applying it twice equals applying it once. |
| ArchiveTicketList.SuffixId | supportcandy/includes/admin/tickets/class-wpsc-archive-ticket-list.php:439 | What `/prefix(\d*)$/` captures: the digits that end the slug (before one optional final newline), right after the prefix. |
| ArchiveTicketList.SuffixIdFinds | supportcandy/includes/admin/tickets/class-wpsc-archive-ticket-list.php:439-446 | Any slug that ends in prefix + digits yields those digits. |
| ArchiveTicketList.DefaultAndSavedExclusive | supportcandy/includes/admin/tickets/class-wpsc-archive-ticket-list.php:322-330 | No slug ends in both `default-N` and `saved-N`, so at most one of the two flags is set. |
| ArchiveTicketList.HasFilterAccess | supportcandy/includes/admin/tickets/class-wpsc-archive-ticket-list.php:425-454 | An empty or "0" slug is refused. Access is granted only when the slug is one of: a default filter's key; `default-N` with N a default filter; `saved-N` with N a saved filter; or "custom" with valid conditions. |
| ArchiveTicketList.FilterAccessGranted | supportcandy/includes/admin/tickets/class-wpsc-archive-ticket-list.php:425-454 | Each of the four shapes is granted access for every slug of that shape. |
| ArchiveTicketList.UnknownSavedFilterRefused | supportcandy/includes/admin/tickets/class-wpsc-archive-ticket-list.php:444-448 | A `saved-N` slug that names no saved filter is refused. |
| ArchiveTicketList.UnknownDefaultFilterRefused | supportcandy/includes/admin/tickets/class-wpsc-archive-ticket-list.php:439-442 | A `default-N` slug that names no default filter, and is not itself a default key, is refused. |
| ArchiveTicketList.GivenFilters | supportcandy/includes/admin/tickets/class-wpsc-archive-ticket-list.php:299-304 | POST filters win; the cookie's filters are used only when the POST filters are empty and the cookie is set. |
| ArchiveTicketList.AccessibleFilters | supportcandy/includes/admin/tickets/class-wpsc-archive-ticket-list.php:312-320 | Filters with access are kept. Otherwise the 'all' filter is used, without search or page, and with the view's default sort only when 'all' is a default filter. |
| ArchiveTicketList.ResolveSort | supportcandy/includes/admin/tickets/class-wpsc-archive-ticket-list.php:333-352 | An explicit orderby/order is never overwritten. Otherwise, in order: `default-N` takes that default's sort; `saved-N` takes the saved filter's sort; a plain default key takes the view's defaults. |
| ArchiveTicketList.ResolveFilters | supportcandy/includes/admin/tickets/class-wpsc-archive-ticket-list.php:299-358 | The slug stays as given when the filters are non-empty and accessible, and is 'all' otherwise. |
| ArchiveTicketList.NoFiltersListsAll | supportcandy/includes/admin/tickets/class-wpsc-archive-ticket-list.php:312-358 | Without filters, the list is 'all' on page 1 with no search, sorted by the view's defaults when 'all' is a default filter. |
| ArchiveTicketList.DeniedAccessFallsBack | supportcandy/includes/admin/tickets/class-wpsc-archive-ticket-list.php:312-358 | Whenever no filter is given or the given one is not accessible, the list falls back to 'all' on page 1 with an empty search, sorted by the view's defaults when 'all' is a default filter. |
| ArchiveTicketList.ExplicitValuesKept | supportcandy/includes/admin/tickets/class-wpsc-archive-ticket-list.php:333-358 | An accessible filter keeps its slug and every sort, search or page value it states. |
| ArchiveTicketList.NumberedDefaultTakesItsSort | supportcandy/includes/admin/tickets/class-wpsc-archive-ticket-list.php:335-349 | A `default-N` filter without its own sort takes the sort stored with default filter N. |
| ArchiveTicketList.PaginationCaption | supportcandy/includes/admin/tickets/class-wpsc-archive-ticket-list.php:749-771 | The caption is: nothing for 0 tickets; "1 Ticket" for one; "N Tickets" when everything fits on a page; otherwise from = per*(page-1)+1, with to = N on the last page and per*page before it. |
| ArchiveTicketList.CaptionRangeWithinTotal | supportcandy/includes/admin/tickets/class-wpsc-archive-ticket-list.php:764-767 | When the page count is the ceiling of N / per, every page shows 1 <= from <= to <= N, and each page starts right after the previous one. |
| ArchiveTicketList.HasTicketCap | supportcandy/includes/admin/tickets/class-wpsc-archive-ticket-list.php:807-820 | Holds exactly when the agent has cap-unassigned, cap-assigned-me or cap-assigned-others. |
| ArchiveTicketList.BulkActions | supportcandy/includes/admin/tickets/class-wpsc-archive-ticket-list.php:776-799 | 'delete' is offered exactly to an agent with at-delete-access, and 'restore' exactly to an agent with at-access. |
| ArchiveTicketList.FilterActionsFor | supportcandy/includes/admin/tickets/class-wpsc-archive-ticket-list.php:850-880 | 'reset' always comes first; 'edit' is offered exactly for a saved or custom filter. |
| ArchiveTicketList.FilterId | supportcandy/includes/admin/tickets/class-wpsc-archive-ticket-list.php:322-330 | The id is the N of a `saved-N` slug, else the N of a `default-N` slug; any other slug keeps the previous id. |
| ArchiveTicketList.FilterIdOfSlug | supportcandy/includes/admin/tickets/class-wpsc-archive-ticket-list.php:322-330 | Any slug ending in `saved-N`, and the slug `default-N`, give N as the filter id. |
| ArchiveTicketList.TicketList.constructor | supportcandy/includes/admin/tickets/class-wpsc-archive-ticket-list.php:43 | The class defaults. |
| ArchiveTicketList.TicketList.LoadTickets | supportcandy/includes/admin/tickets/class-wpsc-archive-ticket-list.php:283-417 | A non-customer is refused and nothing changes. Otherwise the state becomes the resolved filters, the flags and id taken from the slug, and the page the query returns. |
| ArchiveTicketList.TicketList.Apply | supportcandy/includes/admin/tickets/class-wpsc-archive-ticket-list.php:322-417 | Stores the resolved filters, the flags, the filter id and the page found for them. |
| ArchiveTicketList.TicketList.SetBulkActions | supportcandy/includes/admin/tickets/class-wpsc-archive-ticket-list.php:776-799 | The stored bulk actions are `BulkActions` of the user. |
| ArchiveTicketList.TicketList.Pagination | supportcandy/includes/admin/tickets/class-wpsc-archive-ticket-list.php:749-771 | The caption of the loaded page. |
| ArchiveTicketList.TicketList.FilterActions | supportcandy/includes/admin/tickets/class-wpsc-archive-ticket-list.php:850-880 | The filter actions of the loaded filter. |
| ArchiveTicketList.NonZero | supportcandy/includes/admin/tickets/class-wpsc-archive-ticket-list.php:1175 | `array_filter` keeps exactly the non-zero ids. |
| ArchiveTicketList.NonZeroCounts | supportcandy/includes/admin/tickets/class-wpsc-archive-ticket-list.php:1175 | Every non-zero id is kept as often as it occurs, only zeros are dropped, and the result is never longer than the input. |
| ArchiveTicketList.NonZeroConcat | supportcandy/includes/admin/tickets/class-wpsc-archive-ticket-list.php:1175 | Filtering keeps the order: the ids kept from a concatenation are those kept from the first part followed by those kept from the second. |
| ArchiveTicketList.TicketStore.constructor | supportcandy/includes/admin/tickets/class-wpsc-archive-ticket-list.php:1164-1226 | The two ticket tables as given. |
| ArchiveTicketList.TicketStore.BulkDeleteArchiveTickets | supportcandy/includes/admin/tickets/class-wpsc-archive-ticket-list.php:1164-1189 | A non-agent or an agent without at-delete-access is refused and nothing changes. Otherwise every listed archived ticket is deleted and unknown ids are skipped; when at least one non-zero id was given, the answer is Done. |
| ArchiveTicketList.TicketStore.BulkRestoreArchiveTickets | supportcandy/includes/admin/tickets/class-wpsc-archive-ticket-list.php:1196-1226 | For an agent with the 'at' capability, every listed archived ticket moves from the archive to the active tickets; when at least one non-zero id was given, the answer is Done. |
| IndividualArchiveTicket.HasTicketCap | supportcandy/includes/admin/tickets/class-wpsc-individual-archive-ticket.php:827-856 | Passing needs one of cap-unassigned, cap-assigned-me or cap-assigned-others; an assigned agent passes exactly with cap-assigned-me, and on an unassigned ticket exactly with cap-unassigned. |
| IndividualArchiveTicket.ThreadVisible | supportcandy/includes/admin/tickets/class-wpsc-individual-archive-ticket.php:474-483 | A log is shown exactly when the log gate passes; an active thread that is neither a log nor a note is always shown; a shown note implies the agent view. |
| IndividualArchiveTicket.PrintLogAllowed | supportcandy/includes/admin/tickets/class-wpsc-individual-archive-ticket.php:700-704 | Logs are shown only in the agent view; an agent assigned to the ticket passes exactly when holding vl-assigned-me. |
| IndividualArchiveTicket.CapCaseOf | supportcandy/includes/admin/tickets/class-wpsc-individual-archive-ticket.php:831-851 | A ticket is unassigned, assigned to the agent, or assigned only to others. Exactly one case holds, and each is characterised. |
| IndividualArchiveTicket.ExactlyOneCapCase | supportcandy/includes/admin/tickets/class-wpsc-individual-archive-ticket.php:827-856 | The check asks for the capability of the ticket's case alone: cap-unassigned, cap-assigned-me or cap-assigned-others. |
| IndividualArchiveTicket.ListCapIsSomeTicketCap | supportcandy/includes/admin/tickets/class-wpsc-individual-archive-ticket.php:827-856 | The list's `has_ticket_cap` holds exactly when this check passes for some ticket. |
| IndividualArchiveTicket.AuthCode | supportcandy/includes/admin/tickets/class-wpsc-individual-archive-ticket.php:194-197 | 'auth-code' is used when it is non-empty; otherwise 'auth_code' is used, or "". |
| IndividualArchiveTicket.IsTicketCustomer | supportcandy/includes/admin/tickets/class-wpsc-individual-archive-ticket.php:800-820 | Only customers pass. In public mode every customer who is not an agent passes; otherwise, or for an agent, exactly the ticket's own customer passes (the `wpsc_non_agent_ticket_customers_allowed` filter is taken as the identity). |
| IndividualArchiveTicket.ViewProfile | supportcandy/includes/admin/tickets/class-wpsc-individual-archive-ticket.php:203-210 | An agent with the 'at' capability on the ticket always gets the agent profile. Otherwise the profile is customer when `is_customer` holds (the ticket's own customer, or any non-agent customer in public mode) or for an authenticated guest, and stays as it was for anyone else. |
| IndividualArchiveTicket.AgentOverridesCustomer | supportcandy/includes/admin/tickets/class-wpsc-individual-archive-ticket.php:203-210 | A customer who is also an agent with 'at' ends up with the agent profile. |
| IndividualArchiveTicket.View.constructor | supportcandy/includes/admin/tickets/class-wpsc-individual-archive-ticket.php:22 | The class defaults: no ticket, no URL authentication, no profile. |
| IndividualArchiveTicket.View.LoadCurrentTicket | supportcandy/includes/admin/tickets/class-wpsc-individual-archive-ticket.php:178-223 | Id 0 fails with 001/401 and an unknown id fails with 002/400, with nothing changed in either case. Otherwise: URL authentication needs a non-empty matching code; the profile is `ViewProfile`; a request without a profile dies; any profile but agent fails with 003/401. |
| IndividualArchiveTicket.View.LoadActions | supportcandy/includes/admin/tickets/class-wpsc-individual-archive-ticket.php:230-270 | The action bar is `TicketActions`. The agent profile gets the 'info' thread action. |
| IndividualArchiveTicket.TicketActions | supportcandy/includes/admin/tickets/class-wpsc-individual-archive-ticket.php:234-256 | 'refresh' always comes first. 'restore-archived' is offered exactly to an agent with 'at' on the ticket, and 'delete-permanently' exactly to an agent with at-delete-access. |
| IndividualArchiveTicket.ThreadTypes | supportcandy/includes/admin/tickets/class-wpsc-individual-archive-ticket.php:384-395 | The types are always report and reply, plus note exactly for an agent with 'pn', plus log exactly for an agent with 'vl'. |
| IndividualArchiveTicket.ThreadSectionQuery | supportcandy/includes/admin/tickets/class-wpsc-individual-archive-ticket.php:371-397 | The first page selects exactly the ticket's threads of the allowed types. |
| IndividualArchiveTicket.OlderThreadsQuery | supportcandy/includes/admin/tickets/class-wpsc-individual-archive-ticket.php:868-905 | A missing or zero last_thread is refused. Otherwise only threads with a smaller id are selected. |
| IndividualArchiveTicket.FullAgentSeesEverything | supportcandy/includes/admin/tickets/class-wpsc-individual-archive-ticket.php:476-483 | An agent with both 'pn' and 'vl' sees every thread. |
| IndividualArchiveTicket.NonAgentSeesOnlyActiveConversation | supportcandy/includes/admin/tickets/class-wpsc-individual-archive-ticket.php:476-483 | Without the agent profile, exactly the active threads that are neither notes nor logs are printed. |
| IndividualArchiveTicket.VisibleMembers | supportcandy/includes/admin/tickets/class-wpsc-individual-archive-ticket.php:416-431 | The printed threads are exactly the fetched threads that pass the print gates. |
| IndividualArchiveTicket.VisibleReverse | supportcandy/includes/admin/tickets/class-wpsc-individual-archive-ticket.php:414-432 | Filtering commutes with reversal. |
| IndividualArchiveTicket.PrintForward | supportcandy/includes/admin/tickets/class-wpsc-individual-archive-ticket.php:416-423 | The `foreach` prints the visible threads in fetched order. |
| IndividualArchiveTicket.PrintBackward | supportcandy/includes/admin/tickets/class-wpsc-individual-archive-ticket.php:424-431 | The backwards `for` prints the visible threads of the reversed results. |
| IndividualArchiveTicket.PrintedThreads | supportcandy/includes/admin/tickets/class-wpsc-individual-archive-ticket.php:414-432 | With the reply form at the top, the visible threads are printed in fetched order; otherwise they are printed in exactly the reverse order. |
| Cron.CustomInterval | supportcandy/includes/class-wpsc-cron.php:39-52 | wpsc_1min (60 s) and wpsc_5min (300 s) are added, and every other schedule is left untouched. |
| Cron.NextScheduled | supportcandy/includes/class-wpsc-cron.php:64 | There is no next time exactly when the hook has no event. |
| Cron.NextScheduledEarliest | supportcandy/includes/class-wpsc-cron.php:64 | No event of the hook is booked before the reported time. |
| Cron.NextScheduledBooked | supportcandy/includes/class-wpsc-cron.php:64 | The reported time is the time of a booked event. |
| Cron.ScheduleIfAbsentCount | supportcandy/includes/class-wpsc-cron.php:64-70 | One guarded booking raises only its own hook's count, by one, and only when the hook was free. |
| Cron.ReadLifecycle | supportcandy/includes/class-wpsc-cron.php:164-165 | An unset time reads as 0, and an unset unit as 'days'. |
| Cron.ReadAdvanced | supportcandy/includes/class-wpsc-cron.php:162-165 | Each job's setting is read under that job's own keys. |
| Cron.BookingsWanted | supportcandy/includes/class-wpsc-cron.php:59-116 | There is one booking per hook. The hooks wanted are the five-minute, daily, license and collector hooks always, and each lifecycle hook exactly when its time is above 0. |
| Cron.BookAllCount | supportcandy/includes/class-wpsc-cron.php:59-116 | With one booking per hook, a hook gains one event exactly when it is wanted and free. |
| Cron.ScheduleAllCount | supportcandy/includes/class-wpsc-cron.php:59-116 | `schedule_events` books one event for each wanted hook that has none, and nothing else. |
| Cron.ScheduleAllIdempotent | supportcandy/includes/class-wpsc-cron.php:59-116 | A second `schedule_events`, at any time, adds nothing. |
| Cron.ScheduleAllTimed | supportcandy/includes/class-wpsc-cron.php:59-116 | Booking at non-zero times keeps every time in the table non-zero. |
| Cron.UnscheduleHookEffect | supportcandy/includes/class-wpsc-cron.php:126-135 | A hook that is not booked is not touched. A booked one loses at least one event. Other hooks keep their counts. |
| Cron.UnscheduleClears | supportcandy/includes/class-wpsc-cron.php:124-137 | With at most one five-minute and one daily event, both hooks end up empty and every other booking stays. |
| Cron.UnscheduleAfterSchedule | supportcandy/includes/class-wpsc-cron.php:59-137 | Unscheduling after scheduling on an empty table leaves no five-minute and no daily event. |
| Cron.CutoffPeriod | supportcandy/includes/class-wpsc-cron.php:171-184 | 'days' selects a shift of `time` days, 'month' one of `time` months and 'year' one of `time` years; any other unit leaves the cutoff at now. |
| Cron.BatchSize | supportcandy/includes/class-wpsc-cron.php:189 | Every job asks for a positive batch size. |
| Cron.FollowUpAt | supportcandy/includes/class-wpsc-cron.php:217-221 | The follow-up runs now when more tickets wait, and a day later otherwise. |
| Cron.OneFollowUp | supportcandy/includes/class-wpsc-cron.php:217-221 | A run books exactly one more event for its own hook and none for any other. |
| Cron.Site.constructor | supportcandy/includes/class-wpsc-cron.php:59 | The site's tables as given. |
| Cron.Site.ScheduleEvents | supportcandy/includes/class-wpsc-cron.php:59-116 | The cron table becomes `ScheduleAll` of the old one; the ticket tables are unchanged. |
| Cron.Site.Book | supportcandy/includes/class-wpsc-cron.php:64-70 | One guarded booking. |
| Cron.Site.UnscheduleEvents | supportcandy/includes/class-wpsc-cron.php:124-137 | The cron table becomes `UnscheduleAll` of the old one. |
| Cron.Site.RunJob | supportcandy/includes/class-wpsc-cron.php:158-222 | With a time of 0, nothing changes. Otherwise the batch found for the cutoff, queried with the job's batch size, is archived (auto-archive) or deleted for good (the two purges), and exactly one follow-up run is booked. |
| ClientScripts.ValidateNumber | supportcandy/framework/scripts.js:1312-1315 | True exactly when the text is non-empty and every character is a decimal digit. |
| ClientScripts.ValidateNumberExamples | supportcandy/framework/scripts.js:1312-1315 | Every number written in decimal passes. The same text with a trailing newline or a leading sign fails. |
| ClientScripts.TurnPage | supportcandy/framework/scripts.js:1335-1372 | A press is ignored exactly at its button's boundary. An unknown request reloads with the old page. |
| ClientScripts.TurnStaysInRange | supportcandy/framework/scripts.js:1335-1372 | On a consistent pagination, every move goes to another page within [1, total_pages]. |
| ClientScripts.TicketList.constructor | supportcandy/framework/scripts.js:1335 | The list state as given, with no reloads yet. |
| ClientScripts.TicketList.SetPage | supportcandy/framework/scripts.js:1335-1372 | An ignored press changes nothing. Any other press reloads once, with the page `TurnPage` chose. |
| ClientScripts.StyleFor | supportcandy/framework/scripts.js:39-48 | xs up to 768 px, sm up to 992 px, md up to 1200 px, lg above. |
| ClientScripts.StyleMonotone | supportcandy/framework/scripts.js:39-48 | A wider container never gets a smaller style. |
| ClientScripts.Layout.constructor | supportcandy/framework/scripts.js:27-30 | No width recorded, no style, no stylesheet. |
| ClientScripts.Layout.ResetResponsiveStyle | supportcandy/framework/scripts.js:27-64 | A resize with an unchanged width changes nothing. Otherwise the width is recorded, and the style and stylesheet follow it. |
| ClientScripts.Swept | supportcandy/framework/scripts.js:2686-2693 | A sweep keeps exactly the drafts updated within the last day, with their values unchanged. |
| ClientScripts.SweptIdempotent | supportcandy/framework/scripts.js:2686-2693 | Sweeping twice is sweeping once, and a later sweep keeps no more than an earlier one. |
| ClientScripts.ClearCommutesWithSweep | supportcandy/framework/scripts.js:2636-2693 | Clearing a draft and sweeping commute. |
| ClientScripts.Browser.constructor | supportcandy/framework/scripts.js:2677 | The browser state as given. |
| ClientScripts.Browser.DeleteAutoDraft | supportcandy/framework/scripts.js:2677-2696 | Within an hour of the last sweep, only a missing sweep time is filled in. Otherwise exactly the drafts older than a day are dropped, and the sweep time becomes now. |
| ClientScripts.Browser.SweepDrafts | supportcandy/framework/scripts.js:2686-2693 | The loop leaves `Swept` of the drafts. |
| ClientScripts.Browser.ClearSavedDraftReply | supportcandy/framework/scripts.js:2636-2649 | The editor is emptied. Only the given ticket's draft is removed, and nothing is removed for an empty id. |
| ClientScripts.KeptRowsSound | supportcandy/framework/scripts.js:1049-1071 | Every emitted condition has slug, operator and first operand. It has a second operand exactly for BETWEEN, and that operand is set. |
| ClientScripts.KeptRowsAllComplete | supportcandy/framework/scripts.js:1049-1071 | A form whose rows are all complete is emitted row for row. |
| ClientScripts.KeptRowsNoneComplete | supportcandy/framework/scripts.js:1049-1071 | An and-item without a complete row gives an empty list. |
| ClientScripts.AndCondition | supportcandy/framework/scripts.js:1046-1072 | The inner `.each` emits the complete rows, in order. |
| ClientScripts.ConditionJson | supportcandy/framework/scripts.js:1041-1078 | There is one inner list per and-item, in order, even when the list is empty. |
| ClientScripts.DiffDays | supportcandy/framework/scripts.js:2856-2857 | The day count is at least 1, and exactly 1 for equal timestamps. |
| ClientScripts.HourText | supportcandy/framework/scripts.js:2866-2867 | The hour text has at least two characters, all digits. |
| ClientScripts.HourTextRoundTrip | supportcandy/framework/scripts.js:2866-2867 | An hour below 100 is written with two digits that read back as the hour. |
| ClientScripts.HourTextInjective | supportcandy/framework/scripts.js:2866-2867 | Different hours get different texts. |
| ClientScripts.OneDayBatchData | supportcandy/framework/scripts.js:2862-2875 | The one-day branch gives 24 slots: hour hh from 00 to 23 in order, from hh:00:00 to hh:59:59. |
| ClientScripts.OneDaySlotsDistinct | supportcandy/framework/scripts.js:2862-2875 | The 24 slots name 24 different hours. |
| ClientScripts.ChunksConcat | supportcandy/framework/scripts.js:2984-2997 | Putting the batches back together gives the data. |
| ClientScripts.ChunksSizes | supportcandy/framework/scripts.js:2984-2997 | There are ceil(n / 5) batches. Each is non-empty with at most five items, and all but the last have exactly five. |
| ClientScripts.NextBatch | supportcandy/framework/scripts.js:2987-2995 | The do-while takes up to five items from position i and stops at the end of the data. |
| ClientScripts.Batches | supportcandy/framework/scripts.js:2984-2997 | The loop returns `Chunks` of the data. |

## Left out

- HTML output, AJAX plumbing, nonces and cookies: requests are parameters and answers are return values. Presentation only.
- WordPress hooks (`apply_filters`, `do_action`) are the identity. A plugin filtering the allowed customers, the ticket capability or the action lists is not modelled.
- Database reads and writes are abstract functions or sets of ticket ids: ticket queries, `restore_archive_ticket`, `destroy`.
- `esc_sql` and `esc_like` are opaque escaper functions. Their output is not analysed.
- QueryFilters.ClauseFragment: follows PHP 7, where `implode` of a non-array val (IN and NOT IN on a single-valued column, lines 209 and 225) warns and gives null, so the list renders as `( '' )`, and `esc_like` of an array val (line 238) is taken as `esc_like('')`. Under PHP 8 both throw a `TypeError`; that outcome is not modelled.
- QueryFilters.NotInIsComplementOfIn: reads each `RLIKE '(^|[|])v($|[|])'` test as "v is one of the pipe-separated parts of the column". Values holding regular-expression metacharacters, which `esc_sql` does not neutralise, are not modelled.
- Calendar arithmetic (the cutoff date, `get_midnight_timestamp`, the week/month/year branches of `wpsc_rp_get_baches`) depends on the clock, time zones and locale. The cutoff is a `Period` value, midnight is a parameter, and only the one-day report branch is modelled.
- Cron.Site.RunJob: reads the stored time as an integer. The source's strict `$time === 0` lets a stored string "0" through to the cutoff computation. A negative time would make `DateInterval` throw. Neither is modelled.
- Cron.ScheduleAll: the ten-minute duplicate check that WordPress applies to single events is not modelled.
- Cron.Site.RunJob: its follow-up run is a single event too, and the same ten-minute duplicate check is not modelled for it.
- Hooks outside the plugin's seven are one `OtherHook` value in the cron table.
- ArchiveTicketList.ResolveFilters: `sanitize_text_field` is not modelled, neither on the posted filters and the cookie text (line 299 and line 301) nor again on the search value (line 355). The posted and decoded values are taken to be already sanitised, and the search value is kept as given.
- ArchiveTicketList.TicketList.LoadTickets: the query is a parameter, so `$total_items` and `$total_pages` are whatever the query returns.
- IndividualArchiveTicket.View.LoadCurrentTicket: compares auth codes as strings. The source's loose `==` would also equal numeric strings such as "1e1" and "10".
- IndividualArchiveTicket.PrintedThreads: `last_id` of an empty result (a PHP warning) is not modelled.
- Archived threads' markup, attachments and logs inside a printed thread are not modelled: only which threads print, and in which order.
- ClientScripts.Layout.ResetResponsiveStyle: widths are integers. jQuery's `outerWidth()` of a missing container (`undefined`) and fractional widths are not modelled.
- ClientScripts.Browser.DeleteAutoDraft: reads the clock once per call. The source calls `new Date()` once per draft, within the same millisecond in practice.
- ClientScripts.Browser.DeleteAutoDraft: stored drafts are a map from ticket id to update time. An absent storage entry and `{}` are the same. `localStorage`'s conversion of numbers to strings and back is not modelled.
- ClientScripts.Browser.ClearSavedDraftReply: the ticket id is a string, and "" is its only false value (a numeric 0 is not modelled). The tinyMCE editor is not modelled, only the textarea.
- ClientScripts.ValidateNumber: only string arguments are modelled, not JavaScript's conversion of other values to text.
- KeyedSort.ArraySort: compares sort values as strings (`strcmp`). PHP's `asort` compares numeric strings numerically, and the source drops records that lack the `on` field rather than keeping every key.
- `new DateInterval('P')` is taken to throw, like any text without a designator.
- The translated formats `%dd`, `%dh` and `%dm` are taken in English.
- Day and month names are shown untranslated (`wpsc__`).

## Findings

| source | as written | input that shows it | evidently intended | confidence | as-written member | corrected member |
|---|---|---|---|---|---|---|
| supportcandy/includes/class-wpsc-functions.php:814 | The pattern `/^([a-z]{1,2}\.)?[a-z0-9_]+$/` has no `D` modifier, so `$` also matches before a final newline. | The key "id\n" comes back as "id\n" and reaches the SQL text. | Only keys made of key characters (with an optional table alias) pass. | medium, not executed | QueryFilters.NewlineKeyReachesSql | QueryFilters.NewlineKeySpoilsGroup |
| supportcandy/includes/class-wpsc-functions.php:213-222 | NOT IN on a multi-valued column joins its NOT RLIKE tests with OR. | A row whose column holds '1' passes NOT IN ['1', '2'], because it lacks '2'. | The tests are joined with AND, so NOT IN is the complement of IN. | high, not executed | QueryFilters.NotInAsWrittenAdmitsExcludedRow | QueryFilters.NotInIsComplementOfIn |
| supportcandy/includes/class-wpsc-functions.php:673-688 | `\d*` allows a unit letter without a number, and `$` allows a final newline. | "d" builds "PD", and "\n" builds "P". `new DateInterval` throws on both instead of the function returning false. | A number is required before each unit, and the text must end there, so malformed input returns false. | high, not executed | Durations.ReadableAsWrittenThrows | Durations.ReadableRefusesBareLetter |

=== FILE: archive_ticket_list.dfy ===
/**
 * WPSC_Archive_Ticket_List: the list of archived tickets. The model covers
 * the decisions taken around the database query: which filter a request
 * may use and how the missing sort, search and page values are filled in,
 * the pagination caption, the bulk actions an agent is offered, the filter
 * actions, and the effect of the two bulk handlers on the ticket store.
 *
 * Request data (POST and cookie) arrive as flat maps from keys to text.
 * An agent's capabilities are the set of capability names it holds.
 */
module ArchiveTicketList {
  import opened Wrappers
  import opened PhpText
  import Paging

  /** A request's filter array, reduced to its text-valued keys. */
  type Filters = map<string, string>

  /** The sort settings stored with a default or saved filter. */
  datatype SortSetting = SortSetting(sortBy: string, sortOrder: string)

  /** The current user's default filters (keyed by slug or id) and saved filters (keyed by id). */
  datatype UserFilters = UserFilters(defaults: map<string, SortSetting>, saved: map<string, SortSetting>)

  /** The list view settings (`wpsc-tl-ms-agent-view` or `wpsc-tl-ms-customer-view`). */
  datatype MoreSettings = MoreSettings(defaultSortBy: string, defaultSortOrder: string, numberOfTickets: int)

  /** `$filters['filterSlug']`, or "" when it is not set. */
  function SlugOf(f: Filters): string
  {
    if "filterSlug" in f then f["filterSlug"] else ""
  }

  /** The slug without one final newline, where PCRE's `$` also matches. */
  function SlugBody(slug: string): (r: string)
    ensures slug == r || slug == r + "\n"
  {
    if slug != [] && slug[|slug| - 1] == '\n' then slug[..|slug| - 1] else slug
  }

  /**
   * What `preg_match('/<prefix>(\d*)$/', $slug, $m)` captures in `$m[1]`: the
   * digits ending the slug, or ending it before one final newline, provided
   * `prefix` stands right before them.
   */
  function SuffixId(slug: string, prefix: string): (r: Option<string>)
    requires prefix != [] && !IsDigit(prefix[|prefix| - 1]) && prefix[|prefix| - 1] != '\n'
    ensures r.Some? ==> AllDigits(r.value) && EndsWith(SlugBody(slug), prefix + r.value)
  {
    var body := SlugBody(slug);
    var d := TrailingDigits(body);
    var rest := body[..|body| - |d|];
    assert body == rest + d;
    if EndsWith(rest, prefix) then
      EndsWithThen(rest, prefix, d);
      Some(d)
    else None
  }

  /** Any slug that ends in prefix + digits (with or without one final newline) yields those digits. */
  lemma SuffixIdFinds(x: string, prefix: string, d: string, newline: bool)
    requires prefix != [] && !IsDigit(prefix[|prefix| - 1]) && prefix[|prefix| - 1] != '\n'
    requires AllDigits(d)
    ensures SuffixId(x + prefix + d + (if newline then "\n" else ""), prefix) == Some(d)
  {
    var slug := x + prefix + d + (if newline then "\n" else "");
    var body := SlugBody(slug);
    assert body == (x + prefix) + d by {
      if !newline {
        assert slug == (x + prefix) + d;
        if d == [] {
          assert slug[|slug| - 1] == prefix[|prefix| - 1];
        } else {
          assert slug[|slug| - 1] == d[|d| - 1];
        }
      }
    }
    TrailingDigitsAfter(x + prefix, d);
    assert body[..|body| - |d|] == x + prefix;
  }

  /** A slug never ends in both `default-N` and `saved-N`, so at most one of the two flags is set. */
  lemma DefaultAndSavedExclusive(slug: string)
    ensures SuffixId(slug, "default-").None? || SuffixId(slug, "saved-").None?
  {
    var body := SlugBody(slug);
    var rest := body[..|body| - |TrailingDigits(body)|];
    if EndsWith(rest, "default-") {
      assert rest[|rest| - 8..][6] == 't';
      assert rest[|rest| - 2] == 't';
      assert !EndsWith(rest, "saved-");
    }
  }

  /**
   * `has_filter_access`: an empty (or "0") slug is refused; a default
   * filter's key, a `default-N` or `saved-N` slug naming an existing
   * default or saved filter, and "custom" with valid conditions are let
   * through. `customValid` is the verdict of the conditions validator.
   */
  function HasFilterAccess(f: Filters, uf: UserFilters, customValid: bool): (r: bool)
    ensures !Truthy(SlugOf(f)) ==> !r
    ensures r ==> || SlugOf(f) in uf.defaults
                  || (SuffixId(SlugOf(f), "default-").Some? && SuffixId(SlugOf(f), "default-").value in uf.defaults)
                  || (SuffixId(SlugOf(f), "saved-").Some? && SuffixId(SlugOf(f), "saved-").value in uf.saved)
                  || (SlugOf(f) == "custom" && customValid)
  {
    var slug := SlugOf(f);
    var def := SuffixId(slug, "default-");
    var sav := SuffixId(slug, "saved-");
    Truthy(slug) &&
    (slug in uf.defaults
     || (def.Some? && def.value in uf.defaults)
     || (sav.Some? && sav.value in uf.saved)
     || (slug == "custom" && customValid))
  }

  /** The four ways a slug gains access, each stated for any slug of that shape. */
  lemma FilterAccessGranted(f: Filters, uf: UserFilters, customValid: bool, x: string, n: string)
    requires "filterSlug" in f && AllDigits(n)
    ensures Truthy(f["filterSlug"]) && f["filterSlug"] in uf.defaults ==> HasFilterAccess(f, uf, customValid)
    ensures f["filterSlug"] == x + "default-" + n && n in uf.defaults ==> HasFilterAccess(f, uf, customValid)
    ensures f["filterSlug"] == x + "saved-" + n && n in uf.saved ==> HasFilterAccess(f, uf, customValid)
    ensures f["filterSlug"] == "custom" && customValid ==> HasFilterAccess(f, uf, customValid)
  {
    SuffixIdFinds(x, "default-", n, false);
    SuffixIdFinds(x, "saved-", n, false);
    assert x + "default-" + n + "" == x + "default-" + n;
    assert x + "saved-" + n + "" == x + "saved-" + n;
  }

  /** A `saved-N` slug naming no saved filter, not itself a default key, is refused. */
  lemma UnknownSavedFilterRefused(f: Filters, uf: UserFilters, customValid: bool, n: string)
    requires f == map["filterSlug" := "saved-" + n] && AllDigits(n)
    requires n !in uf.saved && "saved-" + n !in uf.defaults
    ensures !HasFilterAccess(f, uf, customValid)
  {
    SuffixIdFinds([], "saved-", n, false);
    assert [] + "saved-" + n + "" == "saved-" + n;
    DefaultAndSavedExclusive("saved-" + n);
  }

  /** A `default-N` slug naming no default filter, not itself a default key, is refused. */
  lemma UnknownDefaultFilterRefused(f: Filters, uf: UserFilters, customValid: bool, n: string)
    requires f == map["filterSlug" := "default-" + n] && AllDigits(n)
    requires n !in uf.defaults && "default-" + n !in uf.defaults
    ensures !HasFilterAccess(f, uf, customValid)
  {
    SuffixIdFinds([], "default-", n, false);
    assert [] + "default-" + n + "" == "default-" + n;
    DefaultAndSavedExclusive("default-" + n);
  }

  /** Which filters a request uses: POST filters, else (when they are empty) the cookie's, when the cookie is set. */
  function GivenFilters(post: Filters, cookieText: string, cookie: Filters): (r: Filters)
    ensures |post| != 0 ==> r == post
    ensures |post| == 0 && Truthy(cookieText) ==> r == cookie
  {
    if |post| == 0 && Truthy(cookieText) then cookie else post
  }

  /** Falls back to the 'all' filter (with the view's default sort when 'all' is a default filter) when there is no access. */
  function AccessibleFilters(f: Filters, uf: UserFilters, ms: MoreSettings, customValid: bool): (r: Filters)
    ensures |f| != 0 && HasFilterAccess(f, uf, customValid) ==> r == f
    ensures !(|f| != 0 && HasFilterAccess(f, uf, customValid)) ==> SlugOf(r) == "all" && "search" !in r && "page_no" !in r
    ensures !(|f| != 0 && HasFilterAccess(f, uf, customValid)) ==>
      ("orderby" in r <==> "all" in uf.defaults) && ("order" in r <==> "all" in uf.defaults)
  {
    if |f| == 0 || !HasFilterAccess(f, uf, customValid) then
      if "all" in uf.defaults then
        map["filterSlug" := "all", "orderby" := ms.defaultSortBy, "order" := ms.defaultSortOrder]
      else map["filterSlug" := "all"]
    else f
  }

  /** The two sort keys that `load_tickets` fills in. */
  datatype SortKey = OrderBy | Order

  function KeyName(k: SortKey): string
  {
    match k
    case OrderBy => "orderby"
    case Order => "order"
  }

  function Pick(s: SortSetting, k: SortKey): string
  {
    match k
    case OrderBy => s.sortBy
    case Order => s.sortOrder
  }

  function ViewDefault(ms: MoreSettings, k: SortKey): string
  {
    match k
    case OrderBy => ms.defaultSortBy
    case Order => ms.defaultSortOrder
  }

  /**
   * The value `load_tickets` ends with for `orderby` or `order` (None when
   * it stays unset or is set to null by a lookup of a missing filter).
   */
  function ResolveSort(f: Filters, k: SortKey, uf: UserFilters, ms: MoreSettings): (r: Option<string>)
    ensures KeyName(k) in f ==> r == Some(f[KeyName(k)])
    ensures KeyName(k) !in f ==> var slug := SlugOf(f);
      var def := SuffixId(slug, "default-");
      var sav := SuffixId(slug, "saved-");
      && (def.Some? && def.value in uf.defaults ==> r == Some(Pick(uf.defaults[def.value], k)))
      && (sav.Some? && sav.value in uf.saved && slug !in uf.defaults ==> r == Some(Pick(uf.saved[sav.value], k)))
      && (def.None? && sav.None? ==> r == if slug in uf.defaults then Some(ViewDefault(ms, k)) else None)
  {
    var slug := SlugOf(f);
    var def := SuffixId(slug, "default-");
    var sav := SuffixId(slug, "saved-");
    DefaultAndSavedExclusive(slug);
    if KeyName(k) in f then Some(f[KeyName(k)])
    else if def.None? && slug in uf.defaults then Some(ViewDefault(ms, k))
    else if def.Some? then (if def.value in uf.defaults then Some(Pick(uf.defaults[def.value], k)) else None)
    else if sav.Some? && sav.value in uf.saved then Some(Pick(uf.saved[sav.value], k))
    else None
  }

  /** The filter values that `load_tickets` settles on (and writes to the list cookie). */
  datatype Resolved = Resolved(filterSlug: string, orderby: Option<string>, order: Option<string>, search: string, pageNo: int)

  /** The filter resolution of `load_tickets`. */
  function ResolveFilters(post: Filters, cookieText: string, cookie: Filters, uf: UserFilters, ms: MoreSettings,
                          customValid: bool): (r: Resolved)
    ensures var g := GivenFilters(post, cookieText, cookie);
      r.filterSlug == if |g| != 0 && HasFilterAccess(g, uf, customValid) then SlugOf(g) else "all"
  {
    var f := AccessibleFilters(GivenFilters(post, cookieText, cookie), uf, ms, customValid);
    Resolved(SlugOf(f),
             ResolveSort(f, OrderBy, uf, ms),
             ResolveSort(f, Order, uf, ms),
             if "search" in f then f["search"] else "",
             if "page_no" in f then IntVal(f["page_no"]) else 1)
  }

  /**
   * A request without filters (and without a list cookie) lists 'all' on
   * page 1 with no search, sorted by the view's defaults when 'all' is a
   * default filter.
   */
  lemma NoFiltersListsAll(cookieText: string, cookie: Filters, uf: UserFilters, ms: MoreSettings, customValid: bool)
    requires !Truthy(cookieText)
    ensures var r := ResolveFilters(map[], cookieText, cookie, uf, ms, customValid);
      && r.filterSlug == "all" && r.search == "" && r.pageNo == 1
      && r.orderby == (if "all" in uf.defaults then Some(ms.defaultSortBy) else None)
      && r.order == (if "all" in uf.defaults then Some(ms.defaultSortOrder) else None)
  {
    DeniedAccessFallsBack(map[], cookieText, cookie, uf, ms, customValid);
  }

  /**
   * Whatever the request gives, filters that are empty or that the user may
   * not use are replaced by 'all' on page 1 with no search, sorted by the
   * view's defaults when 'all' is a default filter.
   */
  lemma DeniedAccessFallsBack(post: Filters, cookieText: string, cookie: Filters, uf: UserFilters, ms: MoreSettings,
                              customValid: bool)
    requires !(|GivenFilters(post, cookieText, cookie)| != 0 && HasFilterAccess(GivenFilters(post, cookieText, cookie), uf, customValid))
    ensures var r := ResolveFilters(post, cookieText, cookie, uf, ms, customValid);
      && r.filterSlug == "all" && r.search == "" && r.pageNo == 1
      && r.orderby == (if "all" in uf.defaults then Some(ms.defaultSortBy) else None)
      && r.order == (if "all" in uf.defaults then Some(ms.defaultSortOrder) else None)
  {
    var f := AccessibleFilters(GivenFilters(post, cookieText, cookie), uf, ms, customValid);
    assert "all" in uf.defaults ==> f == map["filterSlug" := "all", "orderby" := ms.defaultSortBy, "order" := ms.defaultSortOrder];
    assert "all" !in uf.defaults ==> f == map["filterSlug" := "all"];
    var body := "all";
    assert TrailingDigits(body) == [];
    assert SuffixId("all", "default-").None? && SuffixId("all", "saved-").None?;
  }

  /** An accessible filter keeps its slug and any sort, search or page value it states. */
  lemma ExplicitValuesKept(post: Filters, uf: UserFilters, ms: MoreSettings, customValid: bool, cookieText: string, cookie: Filters)
    requires |post| != 0 && HasFilterAccess(post, uf, customValid)
    ensures var r := ResolveFilters(post, cookieText, cookie, uf, ms, customValid);
      && r.filterSlug == post["filterSlug"]
      && ("orderby" in post ==> r.orderby == Some(post["orderby"]))
      && ("order" in post ==> r.order == Some(post["order"]))
      && ("search" in post ==> r.search == post["search"])
      && ("page_no" in post ==> r.pageNo == IntVal(post["page_no"]))
  {
  }

  /** A `default-N` filter without its own sort takes the sort stored with default filter N. */
  lemma NumberedDefaultTakesItsSort(x: string, n: string, uf: UserFilters, ms: MoreSettings, customValid: bool,
                                    cookieText: string, cookie: Filters)
    requires AllDigits(n) && n in uf.defaults
    ensures var r := ResolveFilters(map["filterSlug" := x + "default-" + n], cookieText, cookie, uf, ms, customValid);
      r.orderby == Some(uf.defaults[n].sortBy) && r.order == Some(uf.defaults[n].sortOrder)
  {
    var f := map["filterSlug" := x + "default-" + n];
    FilterAccessGranted(f, uf, customValid, x, n);
    SuffixIdFinds(x, "default-", n, false);
    assert x + "default-" + n + "" == x + "default-" + n;
    assert SlugOf(f) == x + "default-" + n;
    DefaultSortTaken(f, n, uf, ms, customValid, cookieText, cookie);
  }

  /** The step of the lemma above for any accessible filter array without sort keys. */
  lemma DefaultSortTaken(f: Filters, n: string, uf: UserFilters, ms: MoreSettings, customValid: bool,
                         cookieText: string, cookie: Filters)
    requires |f| != 0 && HasFilterAccess(f, uf, customValid) && "orderby" !in f && "order" !in f
    requires SuffixId(SlugOf(f), "default-") == Some(n) && n in uf.defaults
    ensures var r := ResolveFilters(f, cookieText, cookie, uf, ms, customValid);
      r.orderby == Some(uf.defaults[n].sortBy) && r.order == Some(uf.defaults[n].sortOrder)
  {
  }

  /** The caption above the list. */
  datatype Caption = NoCaption | OneTicket | Count(total: int) | Range(from: int, to: int, total: int)

  /**
   * `get_pagination_str`: nothing for an empty list, "1 Ticket", "N Tickets"
   * when everything fits on one page, else "from-to of N Tickets".
   */
  function PaginationCaption(totalItems: int, perPage: int, pageNo: int, totalPages: int): (c: Caption)
    ensures c.NoCaption? <==> totalItems < 1
    ensures c.OneTicket? <==> totalItems == 1
    ensures c.Count? <==> 1 < totalItems <= perPage
    ensures c.Count? ==> c.total == totalItems
    ensures c.Range? ==> c.total == totalItems && c.from == perPage * (pageNo - 1) + 1
    ensures c.Range? ==> c.to == if pageNo == totalPages then totalItems else perPage * pageNo
  {
    if totalItems < 1 then NoCaption
    else if totalItems == 1 then OneTicket
    else if totalItems <= perPage then Count(totalItems)
    else
      Range(perPage * (pageNo - 1) + 1, if pageNo == totalPages then totalItems else perPage * pageNo, totalItems)
  }

  /** The caption as text (translations shown in English). */
  function CaptionText(c: Caption): (r: string)
    ensures r == "" <==> c.NoCaption?
  {
    match c
    case NoCaption => ""
    case OneTicket => "1 Ticket"
    case Count(n) => IntToString(n) + " Tickets"
    case Range(from, to, n) => IntToString(from) + "-" + IntToString(to) + " of " + IntToString(n) + " Tickets"
  }

  /**
   * With the page count computed as the ceiling of N / per-page, every page
   * of a multi-page list shows a non-empty range of rows within 1..N, and
   * each page's range starts right after the previous page's.
   */
  lemma CaptionRangeWithinTotal(n: int, per: int, page: int)
    requires per >= 1 && n > per
    requires 1 <= page <= Paging.CeilDiv(n, per)
    ensures var c := PaginationCaption(n, per, page, Paging.CeilDiv(n, per));
      c.Range? && 1 <= c.from <= c.to <= n
    ensures var t := Paging.CeilDiv(n, per);
      page < t ==> PaginationCaption(n, per, page, t).to + 1 == PaginationCaption(n, per, page + 1, t).from
    ensures page == Paging.CeilDiv(n, per) ==> PaginationCaption(n, per, page, page).to == n
  {
    var t := Paging.CeilDiv(n, per);
    assert (t - 1) * per < n;
    Paging.ScaleMono(per, 0, page - 1);
    if page < t {
      Paging.ScaleMono(per, page, t - 1);
      assert per * page == per * (page - 1) + per;
    } else {
      assert per * (page - 1) == (t - 1) * per;
    }
  }

  /** `has_ticket_cap` of the list: the agent holds the capability for at least one kind of ticket. */
  function HasTicketCap(caps: set<string>, cap: string): (r: bool)
    ensures r <==> exists suffix :: suffix in {"-unassigned", "-assigned-me", "-assigned-others"} && cap + suffix in caps
  {
    assert cap + "-unassigned" in caps ==> "-unassigned" in {"-unassigned", "-assigned-me", "-assigned-others"};
    assert cap + "-assigned-me" in caps ==> "-assigned-me" in {"-unassigned", "-assigned-me", "-assigned-others"};
    assert cap + "-assigned-others" in caps ==> "-assigned-others" in {"-unassigned", "-assigned-me", "-assigned-others"};
    cap + "-unassigned" in caps || cap + "-assigned-me" in caps || cap + "-assigned-others" in caps
  }

  /** `set_bulk_actions`: delete for agents with at-delete-access, then restore for agents with at-access. */
  function BulkActions(isAgent: bool, caps: set<string>): (r: seq<string>)
    ensures "delete" in r <==> isAgent && "at-delete-access" in caps
    ensures "restore" in r <==> isAgent && "at-access" in caps
    ensures forall a :: a in r ==> a == "delete" || a == "restore"
    ensures |r| == 2 ==> r == ["delete", "restore"]
  {
    (if isAgent && "at-delete-access" in caps then ["delete"] else [])
    + (if isAgent && "at-access" in caps then ["restore"] else [])
  }

  /** `get_filter_actions`: reset always comes first; edit is offered for saved and custom filters. */
  function FilterActionsFor(savedFlag: bool, filterSlug: string): (r: seq<string>)
    ensures |r| >= 1 && r[0] == "reset"
    ensures "edit" in r <==> savedFlag || filterSlug == "custom"
    ensures forall a :: a in r ==> a == "reset" || a == "edit"
  {
    ["reset"] + if savedFlag || filterSlug == "custom" then ["edit"] else []
  }

  /**
   * The numeric id `load_tickets` keeps for the current filter: the N of a
   * `saved-N` or `default-N` slug; any other slug leaves the previous id.
   */
  function FilterId(slug: string, previous: string): (r: string)
    ensures SuffixId(slug, "default-").None? && SuffixId(slug, "saved-").None? ==> r == previous
    ensures SuffixId(slug, "saved-").Some? ==> r == SuffixId(slug, "saved-").value
    ensures SuffixId(slug, "saved-").None? && SuffixId(slug, "default-").Some? ==> r == SuffixId(slug, "default-").value
    ensures r != previous ==> AllDigits(r)
  {
    match SuffixId(slug, "saved-")
    case Some(n) => n
    case None =>
      match SuffixId(slug, "default-")
      case Some(n) => n
      case None => previous
  }

  /** What the ticket query returns for the resolved filters. */
  datatype FindResult = FindResult(results: seq<int>, totalItems: int, totalPages: int, hasNextPage: bool)

  /** The static state of the list class. */
  class TicketList {
    var moreSettings: MoreSettings
    var userFilters: UserFilters
    var defaultFlag: bool
    var savedFlag: bool
    var filterId: string
    var atFilters: Option<Resolved>
    /** The tickets found and the page facts of the query (`$tickets`, `$total_items`, `$total_pages`, `$has_next_page`). */
    var found: FindResult
    var bulkActions: seq<string>

    constructor (ms: MoreSettings)
      ensures moreSettings == ms && userFilters == UserFilters(map[], map[])
      ensures !defaultFlag && !savedFlag && filterId == "0" && atFilters.None?
      ensures found == FindResult([], 0, 0, false) && bulkActions == []
    {
      moreSettings := ms;
      userFilters := UserFilters(map[], map[]);
      defaultFlag, savedFlag, filterId := false, false, "0";
      atFilters := None;
      found := FindResult([], 0, 0, false);
      bulkActions := [];
    }

    /**
     * `load_tickets`: a non-customer is refused (error 001) and nothing
     * changes; otherwise the filters are resolved, the flags and filter id
     * taken from the slug, and the query's page stored.
     */
    method LoadTickets(isCustomer: bool, isAgent: bool, post: Filters, cookieText: string, cookie: Filters,
                       uf: UserFilters, agentView: MoreSettings, customerView: MoreSettings, customValid: bool,
                       find: (Resolved, int) -> FindResult)
      returns (ok: bool)
      modifies this
      ensures ok <==> isCustomer
      ensures !ok ==> unchanged(this)
      ensures ok ==> var ms := if isAgent then agentView else customerView;
        var r := ResolveFilters(post, cookieText, cookie, uf, ms, customValid);
        && moreSettings == ms && userFilters == uf && atFilters == Some(r)
        && defaultFlag == SuffixId(r.filterSlug, "default-").Some?
        && savedFlag == SuffixId(r.filterSlug, "saved-").Some?
        && filterId == FilterId(r.filterSlug, old(filterId))
        && found == find(r, ms.numberOfTickets)
      ensures bulkActions == old(bulkActions)
    {
      if !isCustomer {
        return false;
      }
      var ms := if isAgent then agentView else customerView;
      var r := ResolveFilters(post, cookieText, cookie, uf, ms, customValid);
      Apply(ms, uf, r, find(r, ms.numberOfTickets));
      return true;
    }

    /** The second half of `load_tickets`: stores the resolved filters and the page found for them. */
    method Apply(ms: MoreSettings, uf: UserFilters, r: Resolved, page: FindResult)
      modifies this
      ensures moreSettings == ms && userFilters == uf && atFilters == Some(r)
      ensures defaultFlag == SuffixId(r.filterSlug, "default-").Some?
      ensures savedFlag == SuffixId(r.filterSlug, "saved-").Some?
      ensures filterId == FilterId(r.filterSlug, old(filterId))
      ensures found == page && bulkActions == old(bulkActions)
    {
      moreSettings, userFilters, atFilters := ms, uf, Some(r);
      defaultFlag := SuffixId(r.filterSlug, "default-").Some?;
      savedFlag := SuffixId(r.filterSlug, "saved-").Some?;
      filterId, found := FilterId(r.filterSlug, filterId), page;
    }

    /** `set_bulk_actions`. */
    method SetBulkActions(isAgent: bool, caps: set<string>)
      modifies this
      ensures bulkActions == BulkActions(isAgent, caps)
      ensures "delete" in bulkActions <==> isAgent && "at-delete-access" in caps
      ensures "restore" in bulkActions <==> isAgent && "at-access" in caps
      ensures moreSettings == old(moreSettings) && userFilters == old(userFilters) && atFilters == old(atFilters)
      ensures defaultFlag == old(defaultFlag) && savedFlag == old(savedFlag) && filterId == old(filterId)
      ensures found == old(found)
    {
      var actions: seq<string> := [];
      if isAgent && "at-delete-access" in caps {
        actions := actions + ["delete"];
      }
      if isAgent && "at-access" in caps {
        actions := actions + ["restore"];
      }
      bulkActions := actions;
    }

    /** `get_pagination_str` over the loaded page. */
    function Pagination(): (c: Caption)
      reads this
      requires atFilters.Some?
      ensures c.NoCaption? <==> found.totalItems < 1
    {
      PaginationCaption(found.totalItems, moreSettings.numberOfTickets, atFilters.value.pageNo, found.totalPages)
    }

    /** `get_filter_actions` over the loaded filter. */
    function FilterActions(): (r: seq<string>)
      reads this
      requires atFilters.Some?
      ensures "reset" in r
      ensures "edit" in r <==> savedFlag || atFilters.value.filterSlug == "custom"
    {
      FilterActionsFor(savedFlag, atFilters.value.filterSlug)
    }
  }

  /** The answer of a bulk handler. */
  datatype Status = Done | Unauthorized | BadRequest

  /** `array_filter(array_map('intval', ...))`: the ticket ids other than 0, in order. */
  function NonZero(ids: seq<int>): (r: seq<int>)
    ensures forall x :: x in r <==> x in ids && x != 0
  {
    if ids == [] then []
    else (if ids[0] != 0 then [ids[0]] else []) + NonZero(ids[1..])
  }

  /** Filtering keeps every non-zero id as often as it occurs, and drops only zeros. */
  lemma {:induction false} NonZeroCounts(ids: seq<int>)
    ensures |NonZero(ids)| <= |ids|
    ensures multiset(NonZero(ids)) == multiset(ids)[0 := 0]
  {
    if ids != [] {
      assert ids == [ids[0]] + ids[1..];
      NonZeroCounts(ids[1..]);
    }
  }

  /**
   * Filtering keeps the order of the ids: the non-zero ids of a
   * concatenation are those of the first part followed by those of the second.
   */
  lemma {:induction false} NonZeroConcat(a: seq<int>, b: seq<int>)
    ensures NonZero(a + b) == NonZero(a) + NonZero(b)
  {
    if a == [] {
      assert a + b == b;
    } else {
      assert (a + b)[1..] == a[1..] + b;
      NonZeroConcat(a[1..], b);
    }
  }

  /** The id of a `saved-N` slug is N, and so is the id of a `default-N` slug. */
  lemma FilterIdOfSlug(x: string, n: string, previous: string)
    requires AllDigits(n)
    ensures FilterId(x + "saved-" + n, previous) == n
    ensures FilterId("default-" + n, previous) == n
  {
    SuffixIdFinds(x, "saved-", n, false);
    assert x + "saved-" + n + "" == x + "saved-" + n;
    SuffixIdFinds([], "default-", n, false);
    assert [] + "default-" + n + "" == "default-" + n;
    DefaultAndSavedExclusive("default-" + n);
  }

  /** The ticket store the bulk handlers act on: archived and active ticket ids. */
  class TicketStore {
    var archived: set<int>
    var active: set<int>

    constructor (archived0: set<int>, active0: set<int>)
      ensures archived == archived0 && active == active0
    {
      archived := archived0;
      active := active0;
    }

    /**
     * `bulk_delete_archive_tickets`: agents with at-delete-access delete
     * every listed archived ticket; ids of no archived ticket are skipped.
     */
    method BulkDeleteArchiveTickets(isAgent: bool, caps: set<string>, ticketIds: seq<int>) returns (status: Status)
      modifies this
      ensures !(isAgent && "at-delete-access" in caps) ==> status == Unauthorized
      ensures isAgent && "at-delete-access" in caps && NonZero(ticketIds) == [] ==> status == BadRequest
      ensures isAgent && "at-delete-access" in caps && NonZero(ticketIds) != [] ==> status == Done
      ensures status != Done ==> archived == old(archived) && active == old(active)
      ensures status == Done ==> archived == old(archived) - set x | x in NonZero(ticketIds)
      ensures active == old(active)
    {
      if !(isAgent && "at-delete-access" in caps) {
        return Unauthorized;
      }
      var ids := NonZero(ticketIds);
      if ids == [] {
        return BadRequest;
      }
      var k := 0;
      while k < |ids|
        invariant 0 <= k <= |ids|
        invariant archived == old(archived) - set x | x in ids[..k]
        invariant active == old(active)
      {
        assert ids[..k + 1] == ids[..k] + [ids[k]];
        if ids[k] in archived {
          archived := archived - {ids[k]};
        }
        k := k + 1;
      }
      assert ids[..k] == ids;
      return Done;
    }

    /**
     * `bulk_restore_archive_tickets`: for an agent holding the 'at' ticket
     * capability, every listed archived ticket becomes an active ticket
     * again; without the capability each ticket is skipped.
     */
    method BulkRestoreArchiveTickets(isAgent: bool, caps: set<string>, ticketIds: seq<int>) returns (status: Status)
      modifies this
      ensures !isAgent ==> status == Unauthorized
      ensures isAgent && NonZero(ticketIds) == [] ==> status == BadRequest
      ensures isAgent && NonZero(ticketIds) != [] ==> status == Done
      ensures status != Done || !HasTicketCap(caps, "at") ==> archived == old(archived) && active == old(active)
      ensures status == Done && HasTicketCap(caps, "at") ==>
        && archived == old(archived) - (set x | x in NonZero(ticketIds))
        && active == old(active) + (old(archived) * set x | x in NonZero(ticketIds))
    {
      if !isAgent {
        return Unauthorized;
      }
      var ids := NonZero(ticketIds);
      if ids == [] {
        return BadRequest;
      }
      var k := 0;
      while k < |ids|
        invariant 0 <= k <= |ids|
        invariant HasTicketCap(caps, "at") ==> archived == old(archived) - set x | x in ids[..k]
        invariant HasTicketCap(caps, "at") ==> active == old(active) + (old(archived) * set x | x in ids[..k])
        invariant !HasTicketCap(caps, "at") ==> archived == old(archived) && active == old(active)
      {
        assert ids[..k + 1] == ids[..k] + [ids[k]];
        if ids[k] in archived && HasTicketCap(caps, "at") {
          archived := archived - {ids[k]};
          active := active + {ids[k]};
        }
        k := k + 1;
      }
      assert ids[..k] == ids;
      return Done;
    }
  }
}

=== FILE: calendar_text.dfy ===
/**
 * Small text helpers of WPSC_Functions: day and month names and the
 * `sanitize_time` check of a "hh:mm" value. Names are shown untranslated.
 */
module CalendarText {
  import opened Wrappers
  import opened PhpText

  const DayNames: seq<string> := ["Monday", "Tuesday", "Wednesday", "Thursday", "Friday", "Saturday", "Sunday"]

  const MonthNames: seq<string> :=
    ["January", "February", "March", "April", "May", "June",
     "July", "August", "September", "October", "November", "December"]

  /** `get_day_name`: day 1 is Monday, day 7 Sunday; any other number has no name. */
  function DayName(day: int): (r: string)
    ensures r != "" <==> 1 <= day <= 7
    ensures day == 1 ==> r == "Monday"
    ensures day == 7 ==> r == "Sunday"
  {
    if 1 <= day <= 7 then DayNames[day - 1] else ""
  }

  /** `get_month_name`: month 1 is January, month 12 December; any other number has no name. */
  function MonthName(month: int): (r: string)
    ensures r != "" <==> 1 <= month <= 12
    ensures month == 1 ==> r == "January"
    ensures month == 12 ==> r == "December"
  {
    if 1 <= month <= 12 then MonthNames[month - 1] else ""
  }

  /** Different days, and different months, get different names. */
  lemma NamesAreDistinct(a: int, b: int)
    ensures 1 <= a <= 7 && 1 <= b <= 7 && a != b ==> DayName(a) != DayName(b)
    ensures 1 <= a <= 12 && 1 <= b <= 12 && a != b ==> MonthName(a) != MonthName(b)
  {
  }

  /** `\d{2}:\d{2}` starting at position i. */
  predicate ClockAt(s: string, i: nat)
  {
    i + 5 <= |s| && IsDigit(s[i]) && IsDigit(s[i + 1]) && s[i + 2] == ':' && IsDigit(s[i + 3]) && IsDigit(s[i + 4])
  }

  /** The leftmost position at or after `from` where `\d{2}:\d{2}` matches, as PCRE finds it. */
  function FirstClock(s: string, from: nat): (r: Option<nat>)
    requires from <= |s|
    ensures r.Some? ==> from <= r.value && ClockAt(s, r.value)
    ensures r.Some? ==> forall k :: from <= k < r.value ==> !ClockAt(s, k)
    ensures r.None? ==> forall k :: from <= k <= |s| ==> !ClockAt(s, k)
    decreases |s| - from
  {
    if from + 5 > |s| then None
    else if ClockAt(s, from) then Some(from)
    else FirstClock(s, from + 1)
  }

  function TwoDigits(a: char, b: char): nat
    requires IsDigit(a) && IsDigit(b)
  {
    DigitValue(a) * 10 + DigitValue(b)
  }

  /** The hour and minute the first match captures. */
  predicate ValidClockAt(s: string, i: nat)
    requires ClockAt(s, i)
  {
    TwoDigits(s[i], s[i + 1]) < 24 && TwoDigits(s[i + 3], s[i + 4]) < 60
  }

  /**
   * `sanitize_time`: a false value ("" or "0") is returned as it is; other
   * text is returned whole when its first `dd:dd` reads as an hour below 24
   * and a minute below 60, and becomes "" otherwise.
   */
  function SanitizeTime(time: string): (r: string)
    ensures r == time || r == ""
    ensures !Truthy(time) ==> r == time
    ensures Truthy(time) ==> (r == time <==>
      FirstClock(time, 0).Some? && ValidClockAt(time, FirstClock(time, 0).value))
  {
    if !Truthy(time) then time
    else
      match FirstClock(time, 0)
      case None => ""
      case Some(i) => if ValidClockAt(time, i) then time else ""
  }

  /** A plain "hh:mm" passes exactly when it is a time of day. */
  lemma PlainClock(time: string)
    requires |time| == 5 && ClockAt(time, 0)
    ensures SanitizeTime(time) == time <==>
      TwoDigits(time[0], time[1]) < 24 && TwoDigits(time[3], time[4]) < 60
  {
  }

  /** Only the first "dd:dd" is checked: a valid time later in the text does not rescue an invalid first one. */
  lemma OnlyFirstClockCounts()
    ensures SanitizeTime("12:30") == "12:30"
    ensures SanitizeTime("24:00") == ""
    ensures SanitizeTime("99:99 12:30") == ""
  {
    assert ClockAt("12:30", 0);
    assert ClockAt("24:00", 0);
    assert ClockAt("99:99 12:30", 0);
  }
}

=== FILE: client_scripts.dfy ===
/**
 * The client-side state rules of the plugin's `framework/scripts.js`: the
 * ticket-list pager, the responsive breakpoint, the draft replies kept in
 * the browser's storage, the report batches and the condition rows read
 * from a filter form.
 *
 * The global `supportcandy` object, `localStorage` and the reply editor are
 * fields of classes; the DOM rows a function reads are passed in as values;
 * the clock and the container width are parameters.
 */
module ClientScripts {
  import opened Wrappers
  import opened PhpText

  // ---------------------------------------------------------------------
  // validateNumber
  // ---------------------------------------------------------------------

  /**
   * `validateNumber`: `/^[0-9]+$/.test(number)`. Without the `m` flag a
   * JavaScript `$` matches only at the very end, so (unlike PCRE) a final
   * newline is not allowed.
   */
  function ValidateNumber(s: string): (r: bool)
    ensures r <==> |s| >= 1 && AllDigits(s)
  {
    s != [] && forall i :: 0 <= i < |s| ==> IsDigit(s[i])
  }

  /** Every natural number, written out, passes; a trailing newline or a sign does not. */
  lemma ValidateNumberExamples(n: nat)
    ensures ValidateNumber(NatToString(n))
    ensures !ValidateNumber(NatToString(n) + "\n")
    ensures !ValidateNumber("-" + NatToString(n))
  {
    var s := NatToString(n) + "\n";
    assert s[|s| - 1] == '\n';
    assert ("-" + NatToString(n))[0] == '-';
  }

  // ---------------------------------------------------------------------
  // wpsc_tl_set_page
  // ---------------------------------------------------------------------

  /** The button pressed: "first", "prev", "next", "last", or any other text. */
  datatype PageRequest = First | Prev | Next | Last | Other

  /** `supportcandy.ticketList.pagination` as the last list response left it. */
  datatype Pagination = Pagination(currentPage: int, totalPages: int, hasNextPage: bool)

  /**
   * What a press does: nothing at all, or a reload of the list, with a new
   * `page_no` or (for an unknown request) with the old one.
   */
  datatype Turn = Ignore | Fetch(pageNo: Option<int>)

  /** The `switch ( page )` of `wpsc_tl_set_page`. */
  function TurnPage(req: PageRequest, p: Pagination): (t: Turn)
    ensures t.Ignore? <==>
      || (req == First && p.currentPage == 1)
      || (req == Prev && p.currentPage < 2)
      || (req == Next && !p.hasNextPage)
      || (req == Last && p.currentPage == p.totalPages)
    ensures t.Fetch? ==> (t.pageNo.None? <==> req == Other)
  {
    match req
    case First => if p.currentPage == 1 then Ignore else Fetch(Some(1))
    case Prev => if p.currentPage < 2 then Ignore else Fetch(Some(p.currentPage - 1))
    case Next => if !p.hasNextPage then Ignore else Fetch(Some(p.currentPage + 1))
    case Last => if p.currentPage == p.totalPages then Ignore else Fetch(Some(p.totalPages))
    case Other => Fetch(None)
  }

  /**
   * A pagination with at least one page, as shown when the pager is visible:
   * the current page is a real page, and a next page exists exactly before the last one.
   */
  predicate Consistent(p: Pagination)
  {
    1 <= p.currentPage <= p.totalPages && (p.hasNextPage <==> p.currentPage < p.totalPages)
  }

  /**
   * On a consistent pagination every button that moves goes to another
   * page inside [1, total_pages]: each button is ignored exactly at its own
   * boundary.
   */
  lemma TurnStaysInRange(req: PageRequest, p: Pagination)
    requires Consistent(p)
    ensures TurnPage(req, p).Fetch? && TurnPage(req, p).pageNo.Some? ==>
      var n := TurnPage(req, p).pageNo.value;
      1 <= n <= p.totalPages && n != p.currentPage
    ensures req == First ==> (TurnPage(req, p).Ignore? <==> p.currentPage == 1)
    ensures req == Next ==> (TurnPage(req, p).Ignore? <==> p.currentPage == p.totalPages)
    ensures req == Last ==> (TurnPage(req, p).Ignore? <==> !p.hasNextPage)
  {
  }

  /** The ticket list's client state. */
  class TicketList {
    var pagination: Pagination
    /** `supportcandy.ticketList.filters.page_no`. */
    var pageNo: int
    /** How many times `wpsc_get_tickets` has been asked to reload the list. */
    var fetches: nat

    constructor (p: Pagination, pageNo0: int)
      ensures pagination == p && pageNo == pageNo0 && fetches == 0
    {
      pagination := p;
      pageNo := pageNo0;
      fetches := 0;
    }

    /** `wpsc_tl_set_page`. */
    method SetPage(req: PageRequest)
      modifies this
      ensures pagination == old(pagination)
      ensures TurnPage(req, pagination).Ignore? ==> pageNo == old(pageNo) && fetches == old(fetches)
      ensures TurnPage(req, pagination).Fetch? ==> fetches == old(fetches) + 1
      ensures TurnPage(req, pagination) == Fetch(None) ==> pageNo == old(pageNo)
      ensures TurnPage(req, pagination).Fetch? && TurnPage(req, pagination).pageNo.Some? ==>
        pageNo == TurnPage(req, pagination).pageNo.value
    {
      match req {
        case First =>
          if pagination.currentPage == 1 {
            return;
          }
          pageNo := 1;
        case Prev =>
          if pagination.currentPage < 2 {
            return;
          }
          pageNo := pagination.currentPage - 1;
        case Next =>
          if !pagination.hasNextPage {
            return;
          }
          pageNo := pagination.currentPage + 1;
        case Last =>
          if pagination.currentPage == pagination.totalPages {
            return;
          }
          pageNo := pagination.totalPages;
        case Other =>
      }
      fetches := fetches + 1;
    }
  }

  // ---------------------------------------------------------------------
  // wpsc_reset_responsive_style
  // ---------------------------------------------------------------------

  datatype Style = Xs | Sm | Md | Lg

  function StyleName(s: Style): string
  {
    match s
    case Xs => "xs"
    case Sm => "sm"
    case Md => "md"
    case Lg => "lg"
  }

  function Rank(s: Style): nat
  {
    match s
    case Xs => 0
    case Sm => 1
    case Md => 2
    case Lg => 3
  }

  /** The breakpoints: up to 768 px xs, up to 992 sm, up to 1200 md, wider lg. */
  function StyleFor(width: int): (s: Style)
    ensures s == Xs <==> width <= 768
    ensures s == Sm <==> 768 < width <= 992
    ensures s == Md <==> 992 < width <= 1200
    ensures s == Lg <==> 1200 < width
  {
    if width <= 768 then Xs
    else if width > 768 && width <= 992 then Sm
    else if width > 992 && width <= 1200 then Md
    else Lg
  }

  /** A wider container never gets a smaller style. */
  lemma StyleMonotone(a: int, b: int)
    requires a <= b
    ensures Rank(StyleFor(a)) <= Rank(StyleFor(b))
  {
  }

  /** The stylesheet link the page loads for a style. */
  function StyleSheetUrl(pluginUrl: string, s: Style, version: string): string
  {
    pluginUrl + "framework/responsive/" + StyleName(s) + ".css?version=" + version
  }

  /** The layout part of the `supportcandy` object and the responsive stylesheet in the page head. */
  class Layout {
    const pluginUrl: string
    const version: string
    /** `supportcandy.lastContainerWidth`, 0 while unset. */
    var lastContainerWidth: int
    var responsiveStyle: Option<Style>
    var styleSheet: Option<string>

    constructor (pluginUrl0: string, version0: string)
      ensures pluginUrl == pluginUrl0 && version == version0
      ensures lastContainerWidth == 0 && responsiveStyle == None && styleSheet == None
    {
      pluginUrl := pluginUrl0;
      version := version0;
      lastContainerWidth := 0;
      responsiveStyle := None;
      styleSheet := None;
    }

    /** The style and the stylesheet agree with the last width measured. */
    predicate Settled()
      reads this
    {
      responsiveStyle == Some(StyleFor(lastContainerWidth))
      && styleSheet == Some(StyleSheetUrl(pluginUrl, StyleFor(lastContainerWidth), version))
    }

    /**
     * `wpsc_reset_responsive_style`: a resize that leaves the container
     * width as it was does nothing; otherwise the width is recorded and the
     * style and stylesheet follow it.
     */
    method ResetResponsiveStyle(isWindowResize: bool, containerWidth: int)
      modifies this
      ensures isWindowResize && old(lastContainerWidth) == containerWidth ==> unchanged(this)
      ensures !(isWindowResize && old(lastContainerWidth) == containerWidth) ==>
        lastContainerWidth == containerWidth && Settled()
      ensures old(Settled()) ==> Settled()
    {
      var last := lastContainerWidth;
      if isWindowResize && last == containerWidth {
        return;
      }
      lastContainerWidth := containerWidth;
      var style := Xs;
      if containerWidth <= 768 {
        style := Xs;
      } else if containerWidth > 768 && containerWidth <= 992 {
        style := Sm;
      } else if containerWidth > 992 && containerWidth <= 1200 {
        style := Md;
      } else {
        style := Lg;
      }
      responsiveStyle := Some(style);
      styleSheet := Some(StyleSheetUrl(pluginUrl, style, version));
    }
  }

  // ---------------------------------------------------------------------
  // Draft replies: wpsc_delete_auto_draft and wpsc_clear_saved_draft_reply
  // ---------------------------------------------------------------------

  /** The sweep runs at most once an hour (in milliseconds). */
  const SweepGap: int := 3600000

  /** A draft older than a day is dropped. */
  const DraftLifetime: int := 86400000

  predicate Expired(dateUpdated: int, now: int)
  {
    now - dateUpdated > DraftLifetime
  }

  /** The drafts a sweep at `now` keeps: those updated within the last day, unchanged. */
  function Swept(drafts: map<string, int>, now: int): (r: map<string, int>)
    ensures forall k :: k in r <==> k in drafts && !Expired(drafts[k], now)
    ensures forall k :: k in r ==> r[k] == drafts[k]
  {
    map k | k in drafts && !Expired(drafts[k], now) :: drafts[k]
  }

  /** Sweeping twice at the same time is sweeping once, and a later sweep keeps no more than an earlier one. */
  lemma SweptIdempotent(drafts: map<string, int>, now: int, later: int)
    requires now <= later
    ensures Swept(Swept(drafts, now), now) == Swept(drafts, now)
    ensures Swept(drafts, later).Keys <= Swept(drafts, now).Keys
    ensures Swept(Swept(drafts, now), later) == Swept(drafts, later)
  {
  }

  /** Clearing one ticket's draft and sweeping can be done in either order. */
  lemma ClearCommutesWithSweep(drafts: map<string, int>, now: int, ticketId: string)
    ensures Swept(drafts - {ticketId}, now) == Swept(drafts, now) - {ticketId}
  {
  }

  /** The time of the last sweep as the subtraction reads it: 0 when none is stored. */
  function LastSweep(cronTime: Option<int>): int
  {
    if cronTime.Some? then cronTime.value else 0
  }

  /** The browser state the draft functions use: the two storage entries and the reply editor. */
  class Browser {
    /** `wpsc_auto_draft`: ticket id to the draft's `date_updated`, in milliseconds. */
    var drafts: map<string, int>
    /** `wpsc_draft_cron_time`. */
    var cronTime: Option<int>
    /** The reply editor's content. */
    var description: string

    constructor (drafts0: map<string, int>, cronTime0: Option<int>, description0: string)
      ensures drafts == drafts0 && cronTime == cronTime0 && description == description0
    {
      drafts := drafts0;
      cronTime := cronTime0;
      description := description0;
    }

    /**
     * `wpsc_delete_auto_draft`: within an hour of the last sweep only a
     * missing sweep time is filled in; otherwise the drafts older than a
     * day are dropped and the sweep time becomes `now`. With no stored
     * sweep time the elapsed time reads as `now` itself.
     */
    method DeleteAutoDraft(now: int)
      modifies this
      ensures description == old(description)
      ensures now - LastSweep(old(cronTime)) < SweepGap ==>
        drafts == old(drafts) && cronTime == (if old(cronTime).None? then Some(now) else old(cronTime))
      ensures now - LastSweep(old(cronTime)) >= SweepGap ==>
        drafts == Swept(old(drafts), now) && cronTime == Some(now)
    {
      var draftCronTime := cronTime;
      if draftCronTime.None? {
        cronTime := Some(now);
      }
      var diff := now - LastSweep(draftCronTime);
      if diff < SweepGap {
        return;
      }
      SweepDrafts(now);
      cronTime := Some(now);
    }

    /** The `forEach` over the stored drafts: each one older than a day is deleted. */
    method SweepDrafts(now: int)
      modifies this
      ensures drafts == Swept(old(drafts), now)
      ensures cronTime == old(cronTime) && description == old(description)
    {
      ghost var before := drafts;
      var keys := drafts.Keys;
      while keys != {}
        invariant keys <= before.Keys
        invariant drafts == map k | k in before && (k in keys || !Expired(before[k], now)) :: before[k]
        invariant cronTime == old(cronTime) && description == old(description)
        decreases |keys|
      {
        var ticketId :| ticketId in keys;
        if Expired(drafts[ticketId], now) {
          drafts := drafts - {ticketId};
        }
        keys := keys - {ticketId};
      }
    }

    /**
     * `wpsc_clear_saved_draft_reply`: the editor is emptied; the ticket's
     * draft is dropped unless the id is empty (JavaScript-false), in which
     * case the storage is left alone.
     */
    method ClearSavedDraftReply(ticketId: string)
      modifies this
      ensures description == "" && cronTime == old(cronTime)
      ensures ticketId == "" ==> drafts == old(drafts)
      ensures ticketId != "" ==> drafts == old(drafts) - {ticketId}
    {
      description := "";
      if ticketId == "" {
        return;
      }
      drafts := drafts - {ticketId};
    }
  }

  // ---------------------------------------------------------------------
  // wpsc_get_condition_json
  // ---------------------------------------------------------------------

  /** What jQuery's `.val()` gives: nothing, a text, or the choices of a multiple select. */
  datatype Val = Missing | Text(s: string) | Choices(items: seq<string>)

  /** JavaScript truthiness of a `.val()` result: an array is always true. */
  predicate JsTruthy(v: Val)
  {
    (v.Text? && v.s != "") || v.Choices?
  }

  /** One `.wpsc-form-filter-item` row of a filter form. */
  datatype Row = Row(slug: Val, operator: Val, operand1: Val, operand2: Val)

  /** One emitted condition; `operand2` is present for BETWEEN only. */
  datatype Condition = Condition(slug: Val, operator: Val, operand1: Val, operand2: Option<Val>)

  predicate IsBetween(r: Row)
  {
    r.operator == Text("BETWEEN")
  }

  /** A row is emitted when slug, operator and first operand are set, and, for BETWEEN, the second operand too. */
  predicate Complete(r: Row)
  {
    JsTruthy(r.slug) && JsTruthy(r.operator) && JsTruthy(r.operand1) && (IsBetween(r) ==> JsTruthy(r.operand2))
  }

  function AsCondition(r: Row): Condition
  {
    Condition(r.slug, r.operator, r.operand1, if IsBetween(r) then Some(r.operand2) else None)
  }

  /** The conditions of one and-item: its complete rows, in order. */
  function KeptRows(rows: seq<Row>): seq<Condition>
  {
    if rows == [] then []
    else
      var init := KeptRows(rows[..|rows| - 1]);
      var last := rows[|rows| - 1];
      if Complete(last) then init + [AsCondition(last)] else init
  }

  /** Every emitted condition has its slug, operator and operand, and a BETWEEN one also its second operand. */
  lemma {:induction false} KeptRowsSound(rows: seq<Row>)
    ensures |KeptRows(rows)| <= |rows|
    ensures forall c :: c in KeptRows(rows) ==>
      JsTruthy(c.slug) && JsTruthy(c.operator) && JsTruthy(c.operand1)
      && (c.operand2.Some? <==> c.operator == Text("BETWEEN"))
      && (c.operand2.Some? ==> JsTruthy(c.operand2.value))
  {
    if rows != [] {
      KeptRowsSound(rows[..|rows| - 1]);
    }
  }

  /** A form whose rows are all complete is emitted row for row. */
  lemma {:induction false} KeptRowsAllComplete(rows: seq<Row>)
    requires forall i :: 0 <= i < |rows| ==> Complete(rows[i])
    ensures |KeptRows(rows)| == |rows|
    ensures forall i :: 0 <= i < |rows| ==> KeptRows(rows)[i] == AsCondition(rows[i])
  {
    if rows != [] {
      KeptRowsAllComplete(rows[..|rows| - 1]);
    }
  }

  /** An and-item without a complete row gives an empty inner list (it is still emitted). */
  lemma {:induction false} KeptRowsNoneComplete(rows: seq<Row>)
    requires forall i :: 0 <= i < |rows| ==> !Complete(rows[i])
    ensures KeptRows(rows) == []
  {
    if rows != [] {
      KeptRowsNoneComplete(rows[..|rows| - 1]);
    }
  }

  /** The rows of one and-item, read as the inner `.each` callback does. */
  method AndCondition(rows: seq<Row>) returns (andCondition: seq<Condition>)
    ensures andCondition == KeptRows(rows)
  {
    andCondition := [];
    var k := 0;
    while k < |rows|
      invariant 0 <= k <= |rows|
      invariant andCondition == KeptRows(rows[..k])
    {
      assert rows[..k + 1][..k] == rows[..k];
      var row := rows[k];
      k := k + 1;
      if !JsTruthy(row.slug) {
        continue;
      }
      if !JsTruthy(row.operator) {
        continue;
      }
      if !JsTruthy(row.operand1) {
        continue;
      }
      var filter := Condition(row.slug, row.operator, row.operand1, None);
      if row.operator == Text("BETWEEN") {
        if !JsTruthy(row.operand2) {
          continue;
        }
        filter := filter.(operand2 := Some(row.operand2));
      }
      andCondition := andCondition + [filter];
    }
    assert rows[..|rows|] == rows;
  }

  /** `wpsc_get_condition_json`: one inner list per and-item, in order. */
  method ConditionJson(andItems: seq<seq<Row>>) returns (conditions: seq<seq<Condition>>)
    ensures |conditions| == |andItems|
    ensures forall i :: 0 <= i < |andItems| ==> conditions[i] == KeptRows(andItems[i])
  {
    conditions := [];
    var i := 0;
    while i < |andItems|
      invariant 0 <= i <= |andItems|
      invariant |conditions| == i
      invariant forall j :: 0 <= j < i ==> conditions[j] == KeptRows(andItems[j])
    {
      var andCondition := AndCondition(andItems[i]);
      conditions := conditions + [andCondition];
      i := i + 1;
    }
  }

  // ---------------------------------------------------------------------
  // wpsc_rp_get_baches: the one-day slots and the batches of five
  // ---------------------------------------------------------------------

  const DayInMs: int := 86400000

  /** `Math.ceil( |to - from| / day ) + 1` on millisecond timestamps. */
  function DiffDays(fromMs: int, toMs: int): (r: int)
    ensures r >= 1
    ensures r == 1 <==> fromMs == toMs
  {
    var diff := if toMs >= fromMs then toMs - fromMs else fromMs - toMs;
    (diff + DayInMs - 1) / DayInMs + 1
  }

  /** `String( i )`, padded with a leading '0' to two characters when it has one. */
  function HourText(i: nat): (r: string)
    ensures |r| >= 2 && AllDigits(r)
  {
    var hr := NatToString(i);
    if |hr| == 1 then "0" + hr else hr
  }

  /** An hour below 100 is written with exactly two digits that read back as the hour. */
  lemma HourTextRoundTrip(i: nat)
    requires i < 100
    ensures |HourText(i)| == 2 && DigitsValue(HourText(i)) == i
  {
    var hr := NatToString(i);
    NatToStringRoundTrip(i);
    if i >= 10 {
      assert |NatToString(i / 10)| == 1;
    } else {
      assert HourText(i)[..1] == "0";
    }
  }

  /** Different hours get different texts. */
  lemma HourTextInjective(a: nat, b: nat)
    requires a < 100 && b < 100 && a != b
    ensures HourText(a) != HourText(b)
  {
    HourTextRoundTrip(a);
    HourTextRoundTrip(b);
  }

  /** One report query. */
  datatype Slot = Slot(fromDate: string, toDate: string, durationType: string)

  /** The slot of hour h of `day` (a "YYYY-MM-DD" text). */
  function HourSlot(day: string, h: nat): Slot
  {
    Slot(day + " " + HourText(h) + ":00:00", day + " " + HourText(h) + ":59:59", "day")
  }

  /** The one-day branch: 24 hourly slots, hour 00 to hour 23 in order. */
  method OneDayBatchData(day: string) returns (batchData: seq<Slot>)
    ensures |batchData| == 24
    ensures forall h :: 0 <= h < 24 ==> batchData[h] == HourSlot(day, h)
  {
    batchData := [];
    for i := 0 to 24
      invariant |batchData| == i
      invariant forall h :: 0 <= h < i ==> batchData[h] == HourSlot(day, h)
    {
      var hr := NatToString(i);
      hr := if |hr| == 1 then "0" + hr else hr;
      batchData := batchData + [Slot(day + " " + hr + ":00:00", day + " " + hr + ":59:59", "day")];
    }
  }

  /** The 24 one-day slots name 24 different hours, each read back as its position. */
  lemma OneDaySlotsDistinct(day: string, a: nat, b: nat)
    requires a < 24 && b < 24 && a != b
    ensures HourSlot(day, a).fromDate != HourSlot(day, b).fromDate
    ensures DigitsValue(HourText(a)) == a
  {
    HourTextRoundTrip(a);
    HourTextRoundTrip(b);
    HourTextInjective(a, b);
    MiddleDiffers(day + " ", HourText(a), HourText(b), ":00:00");
  }

  lemma MiddleDiffers(p: string, a: string, b: string, s: string)
    requires |a| == |b| && a != b
    ensures p + a + s != p + b + s
  {
    assert (p + a + s)[|p|..|p| + |a|] == a;
    assert (p + b + s)[|p|..|p| + |b|] == b;
  }

  /** The batch size of the report loader. */
  const BatchLength: nat := 5

  function Min(a: int, b: int): int
  {
    if a <= b then a else b
  }

  /** `batchData` cut into consecutive batches of five, the last one possibly shorter. */
  function Chunks<T>(data: seq<T>): seq<seq<T>>
    decreases |data|
  {
    if data == [] then []
    else
      var n := Min(BatchLength, |data|);
      [data[..n]] + Chunks(data[n..])
  }

  function Concat<T>(parts: seq<seq<T>>): seq<T>
  {
    if parts == [] then [] else parts[0] + Concat(parts[1..])
  }

  /** Putting the batches back together gives the data. */
  lemma {:induction false} ChunksConcat<T>(data: seq<T>)
    ensures Concat(Chunks(data)) == data
    decreases |data|
  {
    if data != [] {
      var n := Min(BatchLength, |data|);
      ChunksConcat(data[n..]);
      assert Chunks(data)[1..] == Chunks(data[n..]);
      assert data[..n] + data[n..] == data;
    }
  }

  /** There are ⌈|data| / 5⌉ batches, each non-empty with at most five items, all but the last with exactly five. */
  lemma {:induction false} ChunksSizes<T>(data: seq<T>)
    ensures |Chunks(data)| == (|data| + 4) / 5
    ensures forall k :: 0 <= k < |Chunks(data)| ==> 1 <= |Chunks(data)[k]| <= 5
    ensures forall k :: 0 <= k < |Chunks(data)| - 1 ==> |Chunks(data)[k]| == 5
    decreases |data|
  {
    if data != [] {
      var n := Min(BatchLength, |data|);
      ChunksSizes(data[n..]);
      var c := Chunks(data);
      assert c[1..] == Chunks(data[n..]);
      forall k | 1 <= k < |c| ensures 1 <= |c[k]| <= 5 {
        assert c[k] == Chunks(data[n..])[k - 1];
      }
      forall k | 1 <= k < |c| - 1 ensures |c[k]| == 5 {
        assert c[k] == Chunks(data[n..])[k - 1];
      }
      if |c| > 1 {
        assert |data| > 5;
      }
    }
  }

  /** The batch starting at i, and the batches after it. */
  lemma ChunksFrom<T>(data: seq<T>, i: nat)
    requires i < |data|
    ensures Chunks(data[i..]) == [data[i..Min(i + BatchLength, |data|)]] + Chunks(data[Min(i + BatchLength, |data|)..])
  {
    var n := Min(BatchLength, |data| - i);
    assert data[i..][..n] == data[i..i + n];
    assert data[i..][n..] == data[i + n..];
  }

  /** One batch: up to five items from position i, stopping at the end of the data. */
  method NextBatch<T>(batchData: seq<T>, i: nat) returns (batch: seq<T>)
    requires i < |batchData|
    ensures batch == batchData[i..Min(i + BatchLength, |batchData|)]
  {
    var batchLength := |batchData|;
    batch := [];
    var counter := 0;
    while counter < 5
      invariant 0 <= counter <= 5 && i + counter <= batchLength
      invariant batch == batchData[i..i + counter]
      invariant counter < 5 ==> i + counter < batchLength || batch == batchData[i..Min(i + BatchLength, batchLength)]
      decreases 5 - counter
    {
      var index := i + counter;
      if index == batchLength {
        break;
      }
      batch := batch + [batchData[index]];
      counter := counter + 1;
    }
  }

  /** The batching loop of `wpsc_rp_get_baches`. */
  method Batches<T>(batchData: seq<T>) returns (batches: seq<seq<T>>)
    ensures batches == Chunks(batchData)
  {
    var batchLength := |batchData|;
    batches := [];
    var i := 0;
    while i < batchLength
      invariant 0 <= i && (i <= batchLength || batchLength < i < batchLength + 5)
      invariant batches + Chunks(batchData[Min(i, batchLength)..]) == Chunks(batchData)
      decreases batchLength - i
    {
      ChunksFrom(batchData, i);
      var batch := NextBatch(batchData, i);
      batches := batches + [batch];
      i := i + 5;
    }
  }
}

=== FILE: cron.dfy ===
/**
 * WPSC_Cron: the plugin's cron intervals, which events it puts in the
 * WordPress cron table, how it removes them, and the three lifecycle jobs
 * (auto-archive closed tickets, purge archived tickets, purge deleted
 * tickets) that each process one batch and then book their next run.
 *
 * The cron table is a sequence of pending events in the order they were
 * added; `wp_next_scheduled` is the earliest time booked for a hook. The
 * clock, the midnight timestamp and the ticket queries are parameters.
 */
module Cron {
  import opened Wrappers

  const DayInSeconds: int := 86400

  /**
   * The hooks the plugin books, and any other hook already in the table
   * (`OtherHook` names a hook that is not one of the seven).
   */
  datatype Hook =
    | FiveMinute | Daily | LicenseChecker | GarbageCollector
    | AutoArchiveJob | PurgeArchiveJob | PurgeDeletedJob
    | OtherHook(name: string)

  function HookName(h: Hook): string
  {
    match h
    case FiveMinute => "wpsc_cron_five_minute"
    case Daily => "wpsc_cron_daily"
    case LicenseChecker => "wpsc_license_checker"
    case GarbageCollector => "wpsc_attach_garbage_collector"
    case AutoArchiveJob => "wpsc_auto_archive_closed_tickets"
    case PurgeArchiveJob => "wpsc_permanently_delete_archive_tickets"
    case PurgeDeletedJob => "wpsc_permanently_delete_tickets"
    case OtherHook(name) => name
  }

  /** A cron schedule as `cron_schedules` lists it. */
  datatype Interval = Interval(seconds: int, display: string)

  /** `custom_interval`: adds (or replaces) wpsc_1min every 60 s and wpsc_5min every 300 s. */
  function CustomInterval(schedules: map<string, Interval>): (r: map<string, Interval>)
    ensures r.Keys == schedules.Keys + {"wpsc_1min", "wpsc_5min"}
    ensures r["wpsc_1min"].seconds == 60 && r["wpsc_5min"].seconds == 300
    ensures forall k :: k in schedules && k != "wpsc_1min" && k != "wpsc_5min" ==> r[k] == schedules[k]
  {
    schedules["wpsc_1min" := Interval(60, "Every one minute")]["wpsc_5min" := Interval(300, "Every five minutes")]
  }

  /** A pending event: its hook, its time, and its recurrence (None for a single event). */
  datatype Event = Event(hook: Hook, at: int, recurrence: Option<string>)

  /** How many events are booked for a hook. */
  function Count(events: seq<Event>, hook: Hook): (n: nat)
    ensures n <= |events|
  {
    if events == [] then 0
    else Count(events[..|events| - 1], hook) + (if events[|events| - 1].hook == hook then 1 else 0)
  }

  lemma CountAppend(events: seq<Event>, e: Event, hook: Hook)
    ensures Count(events + [e], hook) == Count(events, hook) + (if e.hook == hook then 1 else 0)
  {
    assert (events + [e])[..|events|] == events;
  }

  lemma {:induction false} CountPositive(events: seq<Event>, hook: Hook, i: nat)
    requires i < |events| && events[i].hook == hook
    ensures Count(events, hook) >= 1
  {
    if i < |events| - 1 {
      CountPositive(events[..|events| - 1], hook, i);
    }
  }

  /** `wp_next_scheduled`: the earliest time booked for a hook, or None (PHP false). */
  function NextScheduled(events: seq<Event>, hook: Hook): (r: Option<int>)
    ensures r.None? <==> Count(events, hook) == 0
  {
    if events == [] then None
    else
      var last := events[|events| - 1];
      var r := NextScheduled(events[..|events| - 1], hook);
      if last.hook != hook then r
      else if r.None? || last.at < r.value then Some(last.at)
      else r
  }

  /** No event of the hook is booked earlier than the time `wp_next_scheduled` reports. */
  lemma {:induction false} NextScheduledEarliest(events: seq<Event>, hook: Hook, k: nat)
    requires k < |events| && events[k].hook == hook
    ensures NextScheduled(events, hook).Some? && NextScheduled(events, hook).value <= events[k].at
  {
    CountPositive(events, hook, k);
    var init := events[..|events| - 1];
    if k < |events| - 1 {
      NextScheduledEarliest(init, hook, k);
    }
  }

  /** The time `wp_next_scheduled` reports is the time of a booked event. */
  lemma {:induction false} NextScheduledBooked(events: seq<Event>, hook: Hook)
    requires NextScheduled(events, hook).Some?
    ensures exists k :: 0 <= k < |events| && events[k].hook == hook && events[k].at == NextScheduled(events, hook).value
  {
    var init := events[..|events| - 1];
    var last := events[|events| - 1];
    if !(last.hook == hook && last.at == NextScheduled(events, hook).value) {
      NextScheduledBooked(init, hook);
      var k :| 0 <= k < |init| && init[k].hook == hook && init[k].at == NextScheduled(init, hook).value;
      assert events[k] == init[k];
    }
  }

  /** Books `e` when `want` holds and nothing is booked yet for its hook. */
  function ScheduleIfAbsent(events: seq<Event>, want: bool, e: Event): (r: seq<Event>)
  {
    if want && NextScheduled(events, e.hook).None? then events + [e] else events
  }

  /** Booking one event raises the count of its own hook by one and no other count. */
  lemma ScheduleIfAbsentCount(events: seq<Event>, want: bool, e: Event, h: Hook)
    ensures Count(ScheduleIfAbsent(events, want, e), h)
         == Count(events, h) + (if want && Count(events, e.hook) == 0 && h == e.hook then 1 else 0)
  {
    CountAppend(events, e, h);
  }

  /** The three lifecycle jobs. */
  datatype Job = AutoArchive | PurgeArchive | PurgeDeleted

  function JobHook(j: Job): Hook
  {
    match j
    case AutoArchive => AutoArchiveJob
    case PurgeArchive => PurgeArchiveJob
    case PurgeDeleted => PurgeDeletedJob
  }

  function TimeKey(j: Job): string
  {
    match j
    case AutoArchive => "auto-archive-tickets-time"
    case PurgeArchive => "permanent-archive-tickets-time"
    case PurgeDeleted => "permanent-delete-tickets-time"
  }

  function UnitKey(j: Job): string
  {
    match j
    case AutoArchive => "auto-archive-tickets-unit"
    case PurgeArchive => "permanent-archive-tickets-unit"
    case PurgeDeleted => "permanent-delete-tickets-unit"
  }

  /** A lifecycle job's configured age: a number and its unit. */
  datatype Lifecycle = Lifecycle(time: int, unit: string)

  /** The three lifecycle settings of the advanced settings. */
  datatype Advanced = Advanced(autoArchive: Lifecycle, purgeArchive: Lifecycle, purgeDeleted: Lifecycle)

  /**
   * Reading one job's settings from the stored option: the time is 0 and
   * the unit 'days' when the key is not set.
   */
  function ReadLifecycle(times: map<string, int>, units: map<string, string>, j: Job): (l: Lifecycle)
    ensures l.time == if TimeKey(j) in times then times[TimeKey(j)] else 0
    ensures l.unit == if UnitKey(j) in units then units[UnitKey(j)] else "days"
  {
    Lifecycle(if TimeKey(j) in times then times[TimeKey(j)] else 0,
              if UnitKey(j) in units then units[UnitKey(j)] else "days")
  }

  /** The three lifecycle settings, each read under its own job's keys. */
  function ReadAdvanced(times: map<string, int>, units: map<string, string>): (adv: Advanced)
    ensures forall j :: Setting(adv, j) == ReadLifecycle(times, units, j)
  {
    Advanced(ReadLifecycle(times, units, AutoArchive), ReadLifecycle(times, units, PurgeArchive),
             ReadLifecycle(times, units, PurgeDeleted))
  }

  function Setting(adv: Advanced, j: Job): Lifecycle
  {
    match j
    case AutoArchive => adv.autoArchive
    case PurgeArchive => adv.purgeArchive
    case PurgeDeleted => adv.purgeDeleted
  }

  /** The hooks `schedule_events` wants booked under the given settings. */
  predicate Wanted(adv: Advanced, h: Hook)
  {
    match h
    case FiveMinute => true
    case Daily => true
    case LicenseChecker => true
    case GarbageCollector => true
    case AutoArchiveJob => adv.autoArchive.time > 0
    case PurgeArchiveJob => adv.purgeArchive.time > 0
    case PurgeDeletedJob => adv.purgeDeleted.time > 0
    case OtherHook(_) => false
  }

  /** One guarded booking of `schedule_events`: book `event` when `want` holds and its hook is free. */
  datatype Booking = Booking(want: bool, event: Event)

  /**
   * The bookings of `schedule_events`, in order: five-minute, daily and
   * license events, then each lifecycle job whose time is above 0 as a
   * single event at `now`, then the hourly attachment collector.
   */
  function Bookings(now: int, midnight: int, adv: Advanced): (bs: seq<Booking>)
    ensures |bs| == 7
  {
    [Booking(true, Event(FiveMinute, now, Some("wpsc_5min"))),
     Booking(true, Event(Daily, midnight, Some("daily"))),
     Booking(true, Event(LicenseChecker, midnight, Some("daily"))),
     Booking(adv.autoArchive.time > 0, Event(AutoArchiveJob, now, None)),
     Booking(adv.purgeArchive.time > 0, Event(PurgeArchiveJob, now, None)),
     Booking(adv.purgeDeleted.time > 0, Event(PurgeDeletedJob, now, None)),
     Booking(true, Event(GarbageCollector, now, Some("hourly")))]
  }

  /** The table after the bookings `bs`, taken in order. */
  function BookAll(events: seq<Event>, bs: seq<Booking>): seq<Event>
    decreases |bs|
  {
    if bs == [] then events
    else BookAll(ScheduleIfAbsent(events, bs[0].want, bs[0].event), bs[1..])
  }

  /** The table after `schedule_events`. */
  function ScheduleAll(events: seq<Event>, now: int, midnight: int, adv: Advanced): seq<Event>
  {
    BookAll(events, Bookings(now, midnight, adv))
  }

  /** Taking the booking at position i moves the fold one step along. */
  lemma BookAllStep(events: seq<Event>, bs: seq<Booking>, i: nat)
    requires i < |bs|
    ensures BookAll(events, bs[i..]) == BookAll(ScheduleIfAbsent(events, bs[i].want, bs[i].event), bs[i + 1..])
  {
    assert bs[i..][0] == bs[i];
    assert bs[i..][1..] == bs[i + 1..];
  }

  predicate DistinctHooks(bs: seq<Booking>)
  {
    forall i, j :: 0 <= i < j < |bs| ==> bs[i].event.hook != bs[j].event.hook
  }

  predicate WantsHook(bs: seq<Booking>, h: Hook)
  {
    exists k :: 0 <= k < |bs| && bs[k].want && bs[k].event.hook == h
  }

  /** With one booking per hook, a hook gains one event exactly when it is wanted and free. */
  lemma {:induction false} BookAllCount(events: seq<Event>, bs: seq<Booking>, h: Hook)
    requires DistinctHooks(bs)
    decreases |bs|
    ensures Count(BookAll(events, bs), h)
         == Count(events, h) + (if WantsHook(bs, h) && Count(events, h) == 0 then 1 else 0)
  {
    if bs != [] {
      var b := bs[0];
      var rest := bs[1..];
      var e1 := ScheduleIfAbsent(events, b.want, b.event);
      ScheduleIfAbsentCount(events, b.want, b.event, h);
      assert DistinctHooks(rest) by {
        forall i, j | 0 <= i < j < |rest| ensures rest[i].event.hook != rest[j].event.hook {
          assert rest[i] == bs[i + 1] && rest[j] == bs[j + 1];
        }
      }
      BookAllCount(e1, rest, h);
      if WantsHook(rest, h) {
        var k :| 0 <= k < |rest| && rest[k].want && rest[k].event.hook == h;
        assert bs[k + 1] == rest[k];
        assert WantsHook(bs, h);
        assert b.event.hook != h;
      } else if WantsHook(bs, h) {
        var k :| 0 <= k < |bs| && bs[k].want && bs[k].event.hook == h;
        assert k == 0;
      } else {
        assert !(b.want && b.event.hook == h);
      }
    }
  }

  /** The bookings of `schedule_events` are one per hook, and they want exactly the `Wanted` hooks. */
  lemma BookingsWanted(now: int, midnight: int, adv: Advanced, h: Hook)
    ensures DistinctHooks(Bookings(now, midnight, adv))
    ensures WantsHook(Bookings(now, midnight, adv), h) <==> Wanted(adv, h)
  {
    var bs := Bookings(now, midnight, adv);
    if Wanted(adv, h) {
      match h {
        case FiveMinute => assert bs[0].event.hook == h;
        case Daily => assert bs[1].event.hook == h;
        case LicenseChecker => assert bs[2].event.hook == h;
        case AutoArchiveJob => assert bs[3].event.hook == h;
        case PurgeArchiveJob => assert bs[4].event.hook == h;
        case PurgeDeletedJob => assert bs[5].event.hook == h;
        case GarbageCollector => assert bs[6].event.hook == h;
      }
    }
  }

  /**
   * `schedule_events` books one event for a wanted hook that has none, and
   * nothing for any other hook.
   */
  lemma ScheduleAllCount(events: seq<Event>, now: int, midnight: int, adv: Advanced, h: Hook)
    ensures Count(ScheduleAll(events, now, midnight, adv), h)
         == Count(events, h) + (if Wanted(adv, h) && Count(events, h) == 0 then 1 else 0)
  {
    BookingsWanted(now, midnight, adv, h);
    BookAllCount(events, Bookings(now, midnight, adv), h);
  }

  /** Bookings whose hooks are all taken change nothing. */
  lemma {:induction false} BookAllTaken(events: seq<Event>, bs: seq<Booking>)
    requires forall k :: 0 <= k < |bs| && bs[k].want ==> Count(events, bs[k].event.hook) > 0
    ensures BookAll(events, bs) == events
  {
    if bs != [] {
      assert bs[0].want ==> Count(events, bs[0].event.hook) > 0;
      forall k | 0 <= k < |bs[1..]| && bs[1..][k].want ensures Count(events, bs[1..][k].event.hook) > 0 {
        assert bs[1..][k] == bs[k + 1];
      }
      BookAllTaken(events, bs[1..]);
    }
  }

  /** Calling `schedule_events` a second time (at any time) adds nothing. */
  lemma ScheduleAllIdempotent(events: seq<Event>, now: int, midnight: int, now2: int, midnight2: int, adv: Advanced)
    ensures var once := ScheduleAll(events, now, midnight, adv);
      ScheduleAll(once, now2, midnight2, adv) == once
  {
    var once := ScheduleAll(events, now, midnight, adv);
    var again := Bookings(now2, midnight2, adv);
    forall k | 0 <= k < |again| && again[k].want ensures Count(once, again[k].event.hook) > 0 {
      var h := again[k].event.hook;
      assert WantsHook(again, h);
      BookingsWanted(now2, midnight2, adv, h);
      ScheduleAllCount(events, now, midnight, adv, h);
    }
    BookAllTaken(once, again);
  }

  /** Every booked event has a non-zero time. */
  predicate AllTimed(events: seq<Event>)
  {
    forall k :: 0 <= k < |events| ==> events[k].at != 0
  }

  /** The events other than those of `hook` at time `at`, in the same order. */
  function Remove(events: seq<Event>, hook: Hook, at: int): (r: seq<Event>)
  {
    if events == [] then []
    else
      var init := Remove(events[..|events| - 1], hook, at);
      var last := events[|events| - 1];
      if last.hook == hook && last.at == at then init else init + [last]
  }

  /** Removing the events of one hook leaves every other hook's count alone. */
  lemma {:induction false} RemoveKeepsOthers(events: seq<Event>, hook: Hook, at: int, h: Hook)
    requires h != hook
    ensures Count(Remove(events, hook, at), h) == Count(events, h)
  {
    if events != [] {
      var init := events[..|events| - 1];
      RemoveKeepsOthers(init, hook, at, h);
      CountAppend(Remove(init, hook, at), events[|events| - 1], h);
    }
  }

  /** Removing never adds an event of the removed hook. */
  lemma {:induction false} RemoveShrinks(events: seq<Event>, hook: Hook, at: int)
    ensures Count(Remove(events, hook, at), hook) <= Count(events, hook)
  {
    if events != [] {
      var init := events[..|events| - 1];
      RemoveShrinks(init, hook, at);
      CountAppend(Remove(init, hook, at), events[|events| - 1], hook);
    }
  }

  /** Removing keeps every time non-zero. */
  lemma {:induction false} RemoveTimed(events: seq<Event>, hook: Hook, at: int)
    requires AllTimed(events)
    ensures AllTimed(Remove(events, hook, at))
  {
    if events != [] {
      var init := events[..|events| - 1];
      assert AllTimed(init) by {
        forall k | 0 <= k < |init| ensures init[k].at != 0 {
          assert init[k] == events[k];
        }
      }
      RemoveTimed(init, hook, at);
    }
  }

  /** Removing the hook's earliest booked time removes at least one of its events. */
  lemma {:induction false} RemoveNext(events: seq<Event>, hook: Hook)
    requires NextScheduled(events, hook).Some?
    ensures Count(Remove(events, hook, NextScheduled(events, hook).value), hook) < Count(events, hook)
  {
    var at := NextScheduled(events, hook).value;
    var init := events[..|events| - 1];
    var last := events[|events| - 1];
    RemoveShrinks(init, hook, at);
    CountAppend(Remove(init, hook, at), last, hook);
    if !(last.hook == hook && last.at == at) {
      assert NextScheduled(init, hook) == Some(at);
      RemoveNext(init, hook);
    }
  }

  /**
   * `wp_unschedule_event(wp_next_scheduled(hook), hook)` as
   * `unschedule_events` guards it: only a booked hook with a non-zero time
   * is touched.
   */
  function UnscheduleHook(events: seq<Event>, hook: Hook): seq<Event>
  {
    match NextScheduled(events, hook)
    case None => events
    case Some(t) => if t != 0 then Remove(events, hook, t) else events
  }

  /**
   * Unscheduling a hook changes nothing when it is not booked, removes at
   * least one of its events when it is (with a non-zero time), and leaves
   * every other hook's count as it was.
   */
  lemma UnscheduleHookEffect(events: seq<Event>, hook: Hook, h: Hook)
    ensures NextScheduled(events, hook).None? ==> UnscheduleHook(events, hook) == events
    ensures h != hook ==> Count(UnscheduleHook(events, hook), h) == Count(events, h)
    ensures AllTimed(events) && Count(events, hook) > 0 ==>
      Count(UnscheduleHook(events, hook), hook) < Count(events, hook)
    ensures AllTimed(events) ==> AllTimed(UnscheduleHook(events, hook))
  {
    var next := NextScheduled(events, hook);
    if next.Some? {
      if h != hook {
        RemoveKeepsOthers(events, hook, next.value, h);
      }
      if AllTimed(events) {
        RemoveTimed(events, hook, next.value);
      }
      RemoveNext(events, hook);
      NextScheduledBooked(events, hook);
    }
  }

  /** `unschedule_events` removes the five-minute and then the daily event. */
  function UnscheduleAll(events: seq<Event>): seq<Event>
  {
    UnscheduleHook(UnscheduleHook(events, FiveMinute), Daily)
  }

  /**
   * With at most one five-minute and one daily event booked (at non-zero
   * times), `unschedule_events` clears both hooks and keeps every other
   * booking.
   */
  lemma UnscheduleClears(events: seq<Event>, h: Hook)
    requires AllTimed(events) && Count(events, FiveMinute) <= 1 && Count(events, Daily) <= 1
    ensures Count(UnscheduleAll(events), FiveMinute) == 0 && Count(UnscheduleAll(events), Daily) == 0
    ensures h != FiveMinute && h != Daily ==> Count(UnscheduleAll(events), h) == Count(events, h)
  {
    var mid := UnscheduleHook(events, FiveMinute);
    UnscheduleHookEffect(events, FiveMinute, h);
    UnscheduleHookEffect(events, FiveMinute, Daily);
    UnscheduleHookEffect(mid, Daily, h);
    UnscheduleHookEffect(mid, Daily, FiveMinute);
  }

  /** Bookings at non-zero times keep every time in the table non-zero. */
  lemma {:induction false} BookAllTimed(events: seq<Event>, bs: seq<Booking>)
    requires AllTimed(events) && forall k :: 0 <= k < |bs| ==> bs[k].event.at != 0
    ensures AllTimed(BookAll(events, bs))
    decreases |bs|
  {
    if bs != [] {
      forall k | 0 <= k < |bs[1..]| ensures bs[1..][k].event.at != 0 {
        assert bs[1..][k] == bs[k + 1];
      }
      BookAllTimed(ScheduleIfAbsent(events, bs[0].want, bs[0].event), bs[1..]);
    }
  }

  /** Booking from a table whose times are non-zero, at non-zero times, keeps every time non-zero. */
  lemma ScheduleAllTimed(events: seq<Event>, now: int, midnight: int, adv: Advanced)
    requires AllTimed(events) && now != 0 && midnight != 0
    ensures AllTimed(ScheduleAll(events, now, midnight, adv))
  {
    BookAllTimed(events, Bookings(now, midnight, adv));
  }

  /** After `schedule_events` on an empty table, `unschedule_events` leaves no five-minute and no daily event. */
  lemma UnscheduleAfterSchedule(now: int, midnight: int, adv: Advanced, h: Hook)
    requires now != 0 && midnight != 0
    ensures var booked := ScheduleAll([], now, midnight, adv);
      && Count(UnscheduleAll(booked), FiveMinute) == 0
      && Count(UnscheduleAll(booked), Daily) == 0
      && (h != FiveMinute && h != Daily ==> Count(UnscheduleAll(booked), h) == Count(booked, h))
  {
    ScheduleAllCount([], now, midnight, adv, FiveMinute);
    ScheduleAllCount([], now, midnight, adv, Daily);
    ScheduleAllTimed([], now, midnight, adv);
    UnscheduleClears(ScheduleAll([], now, midnight, adv), h);
  }

  /** How far back the cutoff lies: `time` days, months or years, or not at all for any other unit. */
  datatype Period = Days(n: int) | Months(n: int) | Years(n: int) | NoShift

  /** The `switch ( $unit )` of the lifecycle jobs. */
  function CutoffPeriod(time: int, unit: string): (p: Period)
    ensures p.NoShift? <==> unit != "days" && unit != "month" && unit != "year"
    ensures !p.NoShift? ==> p.n == time
    ensures unit == "days" ==> p.Days?
    ensures unit == "month" ==> p.Months?
    ensures unit == "year" ==> p.Years?
  {
    match unit
    case "days" => Days(time)
    case "month" => Months(time)
    case "year" => Years(time)
    case _ => NoShift
  }

  /** The tickets one batch query returns: the ids and whether another page follows. */
  datatype Batch = Batch(results: seq<int>, totalItems: int, hasNextPage: bool)

  /** The `items_per_page` of each job's query. */
  function BatchSize(j: Job): (n: nat)
    ensures n > 0
  {
    match j
    case AutoArchive => 20
    case PurgeArchive => 25
    case PurgeDeleted => 2
  }

  /** When the follow-up run is booked: right away when more tickets wait, else a day later. */
  function FollowUpAt(now: int, hasNextPage: bool): (t: int)
    ensures hasNextPage ==> t == now
    ensures !hasNextPage ==> t == now + DayInSeconds
  {
    if hasNextPage then now else now + DayInSeconds
  }

  function Elems(s: seq<int>): set<int>
  {
    set x | x in s
  }

  /** The cron table and the two ticket tables the jobs work on. */
  class Site {
    var events: seq<Event>
    var tickets: set<int>
    var archived: set<int>

    constructor (events0: seq<Event>, tickets0: set<int>, archived0: set<int>)
      ensures events == events0 && tickets == tickets0 && archived == archived0
    {
      events := events0;
      tickets := tickets0;
      archived := archived0;
    }

    /** `schedule_events`. */
    method ScheduleEvents(now: int, midnight: int, adv: Advanced)
      modifies this
      ensures events == ScheduleAll(old(events), now, midnight, adv)
      ensures tickets == old(tickets) && archived == old(archived)
    {
      ghost var bs := Bookings(now, midnight, adv);
      assert bs[0..] == bs;
      BookAllStep(events, bs, 0);
      Book(true, Event(FiveMinute, now, Some("wpsc_5min")));
      BookAllStep(events, bs, 1);
      Book(true, Event(Daily, midnight, Some("daily")));
      BookAllStep(events, bs, 2);
      Book(true, Event(LicenseChecker, midnight, Some("daily")));
      BookAllStep(events, bs, 3);
      Book(adv.autoArchive.time > 0, Event(AutoArchiveJob, now, None));
      BookAllStep(events, bs, 4);
      Book(adv.purgeArchive.time > 0, Event(PurgeArchiveJob, now, None));
      BookAllStep(events, bs, 5);
      Book(adv.purgeDeleted.time > 0, Event(PurgeDeletedJob, now, None));
      BookAllStep(events, bs, 6);
      Book(true, Event(GarbageCollector, now, Some("hourly")));
      assert bs[7..] == [];
    }

    /** One guarded `wp_schedule_event` / `wp_schedule_single_event` call of `schedule_events`. */
    method Book(want: bool, e: Event)
      modifies this
      ensures events == ScheduleIfAbsent(old(events), want, e)
      ensures tickets == old(tickets) && archived == old(archived)
    {
      if want && NextScheduled(events, e.hook).None? {
        events := events + [e];
      }
    }

    /** `unschedule_events`. */
    method UnscheduleEvents()
      modifies this
      ensures events == UnscheduleAll(old(events))
      ensures tickets == old(tickets) && archived == old(archived)
    {
      var timestamp := NextScheduled(events, FiveMinute);
      if timestamp.Some? && timestamp.value != 0 {
        events := Remove(events, FiveMinute, timestamp.value);
      }
      timestamp := NextScheduled(events, Daily);
      if timestamp.Some? && timestamp.value != 0 {
        events := Remove(events, Daily, timestamp.value);
      }
    }

    /**
     * One run of a lifecycle job: nothing at all when its time is 0;
     * otherwise the batch found for the cutoff, queried BatchSize(j) per
     * page, is processed (archived, or deleted for good) and exactly one
     * follow-up run is booked.
     */
    method RunJob(j: Job, now: int, adv: Advanced, find: (Job, Period, nat) -> Batch)
      modifies this
      ensures Setting(adv, j).time == 0 ==> unchanged(this)
      ensures Setting(adv, j).time != 0 ==>
        var b := find(j, CutoffPeriod(Setting(adv, j).time, Setting(adv, j).unit), BatchSize(j));
        var done := if b.totalItems > 0 then Elems(b.results) else {};
        && events == old(events) + [Event(JobHook(j), FollowUpAt(now, b.hasNextPage), None)]
        && (j == AutoArchive ==> tickets == old(tickets) - done && archived == old(archived) + done)
        && (j == PurgeArchive ==> tickets == old(tickets) && archived == old(archived) - done)
        && (j == PurgeDeleted ==> tickets == old(tickets) - done && archived == old(archived))
    {
      var time := Setting(adv, j).time;
      if time == 0 {
        return;
      }
      var b := find(j, CutoffPeriod(time, Setting(adv, j).unit), BatchSize(j));
      if b.totalItems > 0 {
        var k := 0;
        while k < |b.results|
          invariant 0 <= k <= |b.results|
          invariant events == old(events)
          invariant j == AutoArchive ==>
            tickets == old(tickets) - Elems(b.results[..k]) && archived == old(archived) + Elems(b.results[..k])
          invariant j == PurgeArchive ==> tickets == old(tickets) && archived == old(archived) - Elems(b.results[..k])
          invariant j == PurgeDeleted ==> tickets == old(tickets) - Elems(b.results[..k]) && archived == old(archived)
        {
          assert Elems(b.results[..k + 1]) == Elems(b.results[..k]) + {b.results[k]} by {
            assert b.results[..k + 1] == b.results[..k] + [b.results[k]];
          }
          var id := b.results[k];
          match j {
            case AutoArchive =>
              tickets := tickets - {id};
              archived := archived + {id};
            case PurgeArchive =>
              archived := archived - {id};
            case PurgeDeleted =>
              tickets := tickets - {id};
          }
          k := k + 1;
        }
        assert b.results[..|b.results|] == b.results;
      }
      events := events + [Event(JobHook(j), FollowUpAt(now, b.hasNextPage), None)];
    }
  }

  /** A run books exactly one more event for its own hook and none for any other. */
  lemma OneFollowUp(before: seq<Event>, j: Job, now: int, hasNextPage: bool)
    ensures var after := before + [Event(JobHook(j), FollowUpAt(now, hasNextPage), None)];
      && Count(after, JobHook(j)) == Count(before, JobHook(j)) + 1
      && (forall h :: h != JobHook(j) ==> Count(after, h) == Count(before, h))
  {
    forall h {
      CountAppend(before, Event(JobHook(j), FollowUpAt(now, hasNextPage), None), h);
    }
  }
}

=== FILE: durations.dfy ===
/**
 * The duration helpers of WPSC_Functions. A PHP DateInterval is shown in
 * two text forms: ISO 8601 duration text with designators ("P2DT3H4M",
 * section 4.4.3.2 of ISO 8601:2004) and the compact form the user
 * interface shows and accepts ("2d 3h 4m").
 */
module Durations {
  import opened Wrappers
  import opened PhpText

  /**
   * The fields of a DateInterval that the helpers read. `days` is the total
   * day count, which PHP fills in only for intervals that come from a date
   * difference (None stands for PHP's `false`).
   */
  datatype Interval = Interval(y: nat, m: nat, d: nat, h: nat, i: nat, s: nat, days: Option<nat>)

  /** The day figure the helpers print: the total day count when set and non-zero, else the day field when non-zero. */
  function DayCount(x: Interval): (r: Option<nat>)
    ensures r.Some? ==> r.value != 0
    ensures r.None? <==> (x.days.None? || x.days.value == 0) && x.d == 0
  {
    if x.days.Some? && x.days.value != 0 then Some(x.days.value)
    else if x.d != 0 then Some(x.d)
    else None
  }

  /** A number followed by its unit letter, as `%dD` or `%dd` prints it. */
  function Designated(n: nat, unit: char): (r: string)
    ensures |r| >= 2 && r[|r| - 1] == unit
    ensures r[..|r| - 1] == NatToString(n)
  {
    NatToString(n) + [unit]
  }

  lemma DesignatedLacks(n: nat, unit: char, c: char)
    requires c != unit && !IsDigit(c)
    ensures c !in Designated(n, unit)
  {
  }

  // ---------------------------------------------------------------------
  // date_interval_to_string

  function DatePart(x: Interval): string
  {
    if DayCount(x).Some? then Designated(DayCount(x).value, 'D') else ""
  }

  function TimePart(x: Interval): (r: string)
    ensures r != "" <==> x.h != 0 || x.i != 0
    ensures r != "" ==> r[0] == 'T'
  {
    if x.h != 0 || x.i != 0 then
      "T" + (if x.h != 0 then Designated(x.h, 'H') else "") + (if x.i != 0 then Designated(x.i, 'M') else "")
    else ""
  }

  /** `date_interval_to_string`: ISO 8601 text with days, hours and minutes; seconds, months and years are not shown. */
  function IntervalToString(x: Interval): (r: string)
    ensures StartsWith(r, "P")
    ensures 'T' in r <==> x.h != 0 || x.i != 0 || DayCount(x).None?
    ensures DayCount(x).None? && x.h == 0 && x.i == 0 ==> r == "PT0M"
  {
    var str := "P" + DatePart(x) + TimePart(x);
    assert 'T' !in DatePart(x) by {
      if DayCount(x).Some? {
        DesignatedLacks(DayCount(x).value, 'D', 'T');
      }
    }
    assert TimePart(x) != "" ==> 'T' in TimePart(x);
    if str == "P" then "PT0M" else str
  }

  /** `date_interval_to_string`, building the text piece by piece as the source does. */
  method DateIntervalToString(diff: Interval) returns (str: string)
    ensures str == IntervalToString(diff)
  {
    str := "P";
    if diff.days.Some? && diff.days.value != 0 {
      str := str + Designated(diff.days.value, 'D');
    } else if diff.d != 0 {
      str := str + Designated(diff.d, 'D');
    }
    var date := str;
    if diff.h != 0 || diff.i != 0 {
      var hours := if diff.h != 0 then Designated(diff.h, 'H') else "";
      var minutes := if diff.i != 0 then Designated(diff.i, 'M') else "";
      str := str + "T";
      str := str + hours;
      str := str + minutes;
      Regroup4(date, "T", hours, minutes);
    }
    TimePartAppended(diff, date, str);
    if str == "P" {
      str := "PT0M";
    }
  }

  /** The text after the date part is the time part. */
  lemma TimePartAppended(x: Interval, date: string, str: string)
    requires date == "P" + DatePart(x)
    requires x.h != 0 || x.i != 0 ==> str == date + ("T" + (if x.h != 0 then Designated(x.h, 'H') else "")
                                                          + (if x.i != 0 then Designated(x.i, 'M') else ""))
    requires !(x.h != 0 || x.i != 0) ==> str == date
    ensures str == "P" + DatePart(x) + TimePart(x)
  {
    if !(x.h != 0 || x.i != 0) {
      assert date + "" == date;
    }
  }

  // ---------------------------------------------------------------------
  // date_interval_to_readable

  /** The figures the readable form shows, each "" when it is not shown. */
  function DayText(x: Interval): string
  {
    if DayCount(x).Some? then Designated(DayCount(x).value, 'd') else ""
  }

  function HourText(x: Interval): string
  {
    if x.h != 0 then Designated(x.h, 'h') else ""
  }

  function MinuteText(x: Interval): string
  {
    if x.i != 0 then Designated(x.i, 'm') else ""
  }

  /** A figure as a list of shown figures: itself when it is shown, nothing otherwise. */
  function Keep(a: string): seq<string>
  {
    if a != "" then [a] else []
  }

  /** The non-empty figures among three, in order. */
  function Present(a: string, b: string, c: string): seq<string>
  {
    Keep(a) + Keep(b) + Keep(c)
  }

  function ReadableParts(x: Interval): seq<string>
  {
    Present(DayText(x), HourText(x), MinuteText(x))
  }

  /** `date_interval_to_readable`: the non-zero day, hour and minute figures joined by spaces, or "0m". */
  function IntervalToReadable(x: Interval): (r: string)
    ensures r != ""
  {
    var parts := ReadableParts(x);
    if parts == [] then "0m" else Join(" ", parts)
  }

  /** What every shown figure is like: at least a digit and a letter, no space, never "0m". */
  predicate ShownFigure(p: string)
  {
    |p| >= 2 && p != "0m" && forall j :: 0 <= j < |p| ==> p[j] != ' '
  }

  lemma DesignatedShown(n: nat, unit: char)
    requires n != 0 && unit != ' '
    ensures ShownFigure(Designated(n, unit))
  {
    var r := Designated(n, unit);
    forall j | 0 <= j < |r|
      ensures r[j] != ' '
    {
      if j < |r| - 1 {
        assert r[j] == NatToString(n)[j];
      }
    }
  }

  lemma PartsShown(x: Interval)
    ensures forall p :: p in ReadableParts(x) ==> ShownFigure(p)
  {
    forall p | p in ReadableParts(x)
      ensures ShownFigure(p)
    {
      PresentMember(DayText(x), HourText(x), MinuteText(x), p);
      if p == DayText(x) {
        DesignatedShown(DayCount(x).value, 'd');
      } else if p == HourText(x) {
        DesignatedShown(x.h, 'h');
      } else {
        DesignatedShown(x.i, 'm');
      }
    }
  }

  lemma PresentMember(a: string, b: string, c: string, p: string)
    requires p in Present(a, b, c)
    ensures p != "" && (p == a || p == b || p == c)
  {
  }

  /** The readable form is "0m" exactly when the interval has no days, hours or minutes. */
  lemma ReadableZeroIff(x: Interval)
    ensures IntervalToReadable(x) == "0m" <==> DayCount(x).None? && x.h == 0 && x.i == 0
  {
    var parts := ReadableParts(x);
    PartsShown(x);
    if |parts| == 1 {
      assert ShownFigure(parts[0]);
    } else if |parts| >= 2 {
      JoinLength(parts);
    }
  }

  lemma {:induction false} JoinLength(parts: seq<string>)
    requires |parts| >= 2
    requires forall k :: 0 <= k < |parts| ==> ShownFigure(parts[k])
    ensures |Join(" ", parts)| >= 3
  {
    if |parts| > 2 {
      JoinLength(parts[..|parts| - 1]);
    }
  }

  // ---------------------------------------------------------------------
  // readable_to_date_interval

  datatype Split = Split(group: string, rest: string)

  /**
   * One optional group `(\d*u)?` at the front of s (`(\d+u)?` when
   * minDigits is 1), taken greedily: the digits must run up to the unit
   * letter, so there is at most one way to take it.
   */
  function TakeGroup(s: string, unit: char, minDigits: nat): (r: Split)
    ensures r.group + r.rest == s
    ensures r.group != "" ==> |r.group| >= minDigits + 1 && r.group[|r.group| - 1] == unit
  {
    var k := LeadingDigits(s);
    if k < |s| && s[k] == unit && k >= minDigits then
      assert s[..k + 1] + s[k + 1..] == s;
      Split(s[..k + 1], s[k + 1..])
    else Split("", s)
  }

  /** The three capture groups of the readable pattern. */
  datatype Groups = Groups(days: string, hours: string, minutes: string)

  /**
   * Whole-string match of `(\d*d)?(\d*h)?(\d*m)?` (digits required when
   * minDigits is 1); with `newlineEnd`, one final newline may follow, as
   * PCRE's `$` allows.
   */
  function MatchReadable(s: string, minDigits: nat, newlineEnd: bool): (r: Option<Groups>)
    ensures r == Some(Groups("", "", "")) ==> s == "" || (newlineEnd && s == "\n")
  {
    var g1 := TakeGroup(s, 'd', minDigits);
    var g2 := TakeGroup(g1.rest, 'h', minDigits);
    var g3 := TakeGroup(g2.rest, 'm', minDigits);
    if g3.rest == "" || (newlineEnd && g3.rest == "\n") then Some(Groups(g1.group, g2.group, g3.group)) else None
  }

  /** `$m ? strtoupper($m) : ''` for one capture group. */
  function UpperIfSet(group: string): string
  {
    if Truthy(group) then ToUpper(group) else ""
  }

  /** The ISO text the source builds from the groups. */
  function BuildIso(g: Groups): string
  {
    "P" + UpperIfSet(g.days)
    + (if Truthy(g.hours) || Truthy(g.minutes) then "T" + UpperIfSet(g.hours) + UpperIfSet(g.minutes) else "")
  }

  /**
   * Whether `new DateInterval` accepts the built text: it needs at least one
   * designator, and a number in front of each.
   */
  predicate DateIntervalAccepts(g: Groups)
  {
    && (g.days != "" || g.hours != "" || g.minutes != "")
    && (g.days != "" ==> |g.days| >= 2)
    && (g.hours != "" ==> |g.hours| >= 2)
    && (g.minutes != "" ==> |g.minutes| >= 2)
  }

  /** What `readable_to_date_interval` produces: false, a DateInterval built from ISO text, or an exception thrown by the constructor. */
  datatype Readable = NotValid | Duration(iso: string) | Throws(iso: string)

  function ReadableWith(str: string, minDigits: nat, newlineEnd: bool): Readable
  {
    var s := RemoveSpaces(str);
    if !Truthy(s) then NotValid
    else
      match MatchReadable(s, minDigits, newlineEnd)
      case None => NotValid
      case Some(g) => if DateIntervalAccepts(g) then Duration(BuildIso(g)) else Throws(BuildIso(g))
  }

  /** `readable_to_date_interval` as written: `\d*` lets a bare unit letter through, and `$` lets a final newline through. */
  function ReadableToIntervalAsWritten(str: string): (r: Readable)
    ensures r.NotValid? ==> !Truthy(RemoveSpaces(str)) || MatchReadable(RemoveSpaces(str), 0, true).None?
  {
    ReadableWith(str, 0, true)
  }

  /** A bare unit letter passes the written pattern and reaches DateInterval as "PD", which it rejects. */
  lemma ReadableAsWrittenThrows()
    ensures ReadableToIntervalAsWritten("d") == Throws("PD")
    ensures ReadableToIntervalAsWritten("\n") == Throws("P")
  {
    BareLetterMatches();
    LoneNewlineMatches();
  }

  lemma BareLetterMatches()
    ensures RemoveSpaces("d") == "d"
    ensures MatchReadable("d", 0, true) == Some(Groups("d", "", ""))
    ensures BuildIso(Groups("d", "", "")) == "PD"
  {
    assert RemoveSpaces("d") == "d" + RemoveSpaces("");
    assert LeadingDigits("d") == 0;
    assert TakeGroup("d", 'd', 0) == Split("d", "");
    assert ToUpper("d") == "D";
  }

  lemma LoneNewlineMatches()
    ensures RemoveSpaces("\n") == "\n"
    ensures MatchReadable("\n", 0, true) == Some(Groups("", "", ""))
  {
    assert RemoveSpaces("\n") == "\n" + RemoveSpaces("");
    assert LeadingDigits("\n") == 0;
  }

  /** The corrected reading refuses both texts. */
  lemma ReadableRefusesBareLetter()
    ensures ReadableToInterval("d") == NotValid
    ensures ReadableToInterval("\n") == NotValid
  {
    assert RemoveSpaces("d") == "d" + RemoveSpaces("");
    assert RemoveSpaces("\n") == "\n" + RemoveSpaces("");
    assert LeadingDigits("d") == 0;
    assert LeadingDigits("\n") == 0;
  }

  /**
   * `readable_to_date_interval` with digits required before each unit and
   * the pattern anchored at the true end: false for empty or malformed
   * text, otherwise ISO text that DateInterval accepts, never an exception.
   */
  function ReadableToInterval(str: string): (r: Readable)
    ensures !r.Throws?
    ensures r.NotValid? <==> !Truthy(RemoveSpaces(str)) || MatchReadable(RemoveSpaces(str), 1, false).None?
    ensures r.Duration? ==> StartsWith(r.iso, "P")
  {
    var s := RemoveSpaces(str);
    if Truthy(s) && MatchReadable(s, 1, false).Some? then
      StrictMatchAccepted(s);
      ReadableOfMatch(str, 1, false, MatchReadable(s, 1, false).value);
      ReadableWith(str, 1, false)
    else ReadableWith(str, 1, false)
  }

  /** With digits required and no newline allowed, every match names a designator with a number. */
  lemma StrictMatchAccepted(s: string)
    requires Truthy(s) && MatchReadable(s, 1, false).Some?
    ensures DateIntervalAccepts(MatchReadable(s, 1, false).value)
  {
    var g1 := TakeGroup(s, 'd', 1);
    var g2 := TakeGroup(g1.rest, 'h', 1);
    var g3 := TakeGroup(g2.rest, 'm', 1);
    assert MatchReadable(s, 1, false).value == Groups(g1.group, g2.group, g3.group);
  }

  /** What `readable_to_date_interval` makes of a text that matches with groups g. */
  lemma ReadableOfMatch(str: string, minDigits: nat, newlineEnd: bool, g: Groups)
    requires Truthy(RemoveSpaces(str)) && MatchReadable(RemoveSpaces(str), minDigits, newlineEnd) == Some(g)
    ensures ReadableWith(str, minDigits, newlineEnd) == if DateIntervalAccepts(g) then Duration(BuildIso(g)) else Throws(BuildIso(g))
    ensures StartsWith(BuildIso(g), "P")
  {
    BuildIsoStartsWithP(g);
  }

  lemma BuildIsoStartsWithP(g: Groups)
    ensures StartsWith(BuildIso(g), "P")
  {
    var tail := BuildIso(g)[1..];
    assert BuildIso(g) == "P" + tail;
  }

  /** `readable_to_date_interval`, building the ISO text piece by piece as the source does. */
  method ReadableToDateInterval(input: string) returns (r: Readable)
    ensures r == ReadableToInterval(input)
  {
    var str := RemoveSpaces(input);
    if !Truthy(str) {
      return NotValid;
    }
    var matches := MatchReadable(str, 1, false);
    if matches.None? {
      return NotValid;
    }
    var g := matches.value;
    str := "P";
    str := str + UpperIfSet(g.days);
    var prefix := str;
    if Truthy(g.hours) || Truthy(g.minutes) {
      var hours, minutes := UpperIfSet(g.hours), UpperIfSet(g.minutes);
      str := str + "T";
      str := str + hours;
      str := str + minutes;
      Regroup4(prefix, "T", hours, minutes);
    } else {
      assert str == prefix + "";
    }
    assert str == BuildIso(g);
    r := if DateIntervalAccepts(g) then Duration(str) else Throws(str);
  }

  // ---------------------------------------------------------------------
  // Round trip

  function Concat(parts: seq<string>): string
  {
    if parts == [] then "" else Concat(parts[..|parts| - 1]) + parts[|parts| - 1]
  }

  lemma {:induction false} RemoveSpacesJoin(parts: seq<string>)
    requires forall k :: 0 <= k < |parts| ==> ShownFigure(parts[k])
    ensures RemoveSpaces(Join(" ", parts)) == Concat(parts)
  {
    if |parts| == 1 {
      RemoveSpacesNoSpace(parts[0]);
      assert parts[..0] == [];
    } else if |parts| >= 2 {
      var init := parts[..|parts| - 1];
      RemoveSpacesJoin(init);
      RemoveSpacesConcat(Join(" ", init) + " ", parts[|parts| - 1]);
      RemoveSpacesConcat(Join(" ", init), " ");
      RemoveSpacesNoSpace(parts[|parts| - 1]);
      assert RemoveSpaces(" ") == "";
    }
  }

  /** The groups the readable form of x falls into. */
  function CompactGroups(x: Interval): Groups
  {
    if ReadableParts(x) == [] then Groups("", "", "0m") else Groups(DayText(x), HourText(x), MinuteText(x))
  }

  function GroupsText(g: Groups): string
  {
    g.days + g.hours + g.minutes
  }

  lemma {:induction false} ConcatAppend(p: seq<string>, q: seq<string>)
    ensures Concat(p + q) == Concat(p) + Concat(q)
    decreases |q|
  {
    if q == [] {
      assert p + q == p;
    } else {
      assert (p + q)[..|p + q| - 1] == p + q[..|q| - 1];
      ConcatAppend(p, q[..|q| - 1]);
      Regroup3(Concat(p), Concat(q[..|q| - 1]), q[|q| - 1]);
    }
  }

  lemma ConcatKeep(a: string)
    ensures Concat(Keep(a)) == a
  {
    if a != "" {
      assert [a][..0] == [];
    }
  }

  lemma ConcatPresent(a: string, b: string, c: string)
    ensures Concat(Present(a, b, c)) == a + b + c
  {
    ConcatAppend(Keep(a) + Keep(b), Keep(c));
    ConcatAppend(Keep(a), Keep(b));
    ConcatKeep(a);
    ConcatKeep(b);
    ConcatKeep(c);
  }

  lemma CompactReadable(x: Interval)
    ensures RemoveSpaces(IntervalToReadable(x)) == GroupsText(CompactGroups(x))
  {
    var parts := ReadableParts(x);
    if parts == [] {
      RemoveSpacesNoSpace("0m");
    } else {
      PartsShown(x);
      RemoveSpacesJoin(parts);
      ConcatPresent(DayText(x), HourText(x), MinuteText(x));
    }
  }

  lemma {:induction false} LeadingDigitsOf(ds: string, c: char, rest: string)
    requires AllDigits(ds) && !IsDigit(c)
    ensures LeadingDigits(ds + [c] + rest) == |ds|
  {
    if ds != [] {
      assert (ds + [c] + rest)[1..] == ds[1..] + [c] + rest;
      LeadingDigitsOf(ds[1..], c, rest);
    }
  }

  /** A figure of the unit a group looks for is taken whole. */
  lemma TakeDesignated(n: nat, unit: char, rest: string, minDigits: nat)
    requires minDigits <= 1 && !IsDigit(unit)
    ensures TakeGroup(Designated(n, unit) + rest, unit, minDigits) == Split(Designated(n, unit), rest)
  {
    var s := Designated(n, unit) + rest;
    assert s == NatToString(n) + [unit] + rest;
    LeadingDigitsOf(NatToString(n), unit, rest);
    assert s[..|NatToString(n)| + 1] == Designated(n, unit);
  }

  /** A figure of another unit is left for a later group. */
  lemma TakeOther(n: nat, other: char, unit: char, rest: string, minDigits: nat)
    requires other != unit && !IsDigit(other)
    ensures TakeGroup(Designated(n, other) + rest, unit, minDigits) == Split("", Designated(n, other) + rest)
  {
    var s := Designated(n, other) + rest;
    assert s == NatToString(n) + [other] + rest;
    LeadingDigitsOf(NatToString(n), other, rest);
  }

  /** The hour and minute figures that follow the day group. */
  function AfterDays(g: Groups): string
  {
    g.hours + g.minutes
  }

  /** A text that a group looking for `unit` skips: its leading digits are not followed by `unit`. */
  predicate SkippedBy(s: string, unit: char)
  {
    var k := LeadingDigits(s);
    !(k < |s| && s[k] == unit)
  }

  lemma OtherSkipped(n: nat, other: char, unit: char, rest: string)
    requires other != unit && !IsDigit(other)
    ensures SkippedBy(Designated(n, other) + rest, unit)
  {
    TakeOther(n, other, unit, rest, 0);
  }

  /** Taking a group that is either the figure itself or absent. */
  lemma TakeFigure(fig: string, n: nat, unit: char, rest: string, minDigits: nat)
    requires minDigits <= 1 && !IsDigit(unit)
    requires fig == "" || fig == Designated(n, unit)
    requires fig == "" ==> SkippedBy(rest, unit)
    ensures TakeGroup(fig + rest, unit, minDigits) == Split(fig, rest)
  {
    if fig == "" {
      assert fig + rest == rest;
    } else {
      TakeDesignated(n, unit, rest, minDigits);
    }
  }

  /** The shape of each compact group: absent, or one designated figure. */
  predicate FigureShape(fig: string, n: nat, unit: char)
  {
    fig == "" || fig == Designated(n, unit)
  }

  lemma CompactShapes(x: Interval)
    ensures FigureShape(CompactGroups(x).days, if DayCount(x).Some? then DayCount(x).value else 0, 'd')
    ensures FigureShape(CompactGroups(x).hours, x.h, 'h')
    ensures FigureShape(CompactGroups(x).minutes, if ReadableParts(x) == [] then 0 else x.i, 'm')
  {
  }

  /** A figure of one unit, or nothing, is skipped by a group looking for a different unit. */
  lemma ShapeSkipped(fig: string, n: nat, other: char, unit: char)
    requires FigureShape(fig, n, other) && other != unit && !IsDigit(other)
    ensures SkippedBy(fig, unit)
  {
    if fig != "" {
      assert fig == Designated(n, other) + "";
      OtherSkipped(n, other, unit, "");
    }
  }

  lemma TakeMinutes(m: string, mn: nat, minDigits: nat)
    requires minDigits <= 1 && FigureShape(m, mn, 'm')
    ensures TakeGroup(m, 'm', minDigits) == Split(m, "")
  {
    assert SkippedBy("", 'm');
    TakeFigure(m, mn, 'm', "", minDigits);
    assert m + "" == m;
  }

  lemma TakeHours(h: string, hn: nat, m: string, mn: nat, minDigits: nat)
    requires minDigits <= 1 && FigureShape(h, hn, 'h') && FigureShape(m, mn, 'm')
    ensures TakeGroup(h + m, 'h', minDigits) == Split(h, m)
  {
    ShapeSkipped(m, mn, 'm', 'h');
    TakeFigure(h, hn, 'h', m, minDigits);
  }

  lemma TakeDays(dd: string, dn: nat, h: string, hn: nat, m: string, mn: nat, minDigits: nat)
    requires minDigits <= 1 && FigureShape(dd, dn, 'd') && FigureShape(h, hn, 'h') && FigureShape(m, mn, 'm')
    ensures TakeGroup(dd + (h + m), 'd', minDigits) == Split(dd, h + m)
  {
    if h != "" {
      OtherSkipped(hn, 'h', 'd', m);
    } else {
      assert h + m == m;
      ShapeSkipped(m, mn, 'm', 'd');
    }
    TakeFigure(dd, dn, 'd', h + m, minDigits);
  }

  lemma MatchCompact(x: Interval, minDigits: nat, newlineEnd: bool)
    requires minDigits <= 1
    ensures MatchReadable(GroupsText(CompactGroups(x)), minDigits, newlineEnd) == Some(CompactGroups(x))
  {
    var g := CompactGroups(x);
    var dn := if DayCount(x).Some? then DayCount(x).value else 0;
    var mn := if ReadableParts(x) == [] then 0 else x.i;
    CompactShapes(x);
    TakeMinutes(g.minutes, mn, minDigits);
    TakeHours(g.hours, x.h, g.minutes, mn, minDigits);
    TakeDays(g.days, dn, g.hours, x.h, g.minutes, mn, minDigits);
    Regroup3(g.days, g.hours, g.minutes);
  }

  lemma ToUpperDesignated(n: nat, unit: char)
    ensures ToUpper(Designated(n, unit)) == Designated(n, UpperChar(unit))
  {
    var r := ToUpper(Designated(n, unit));
    assert forall k :: 0 <= k < |r| - 1 ==> r[k] == Designated(n, unit)[k];
  }

  /** Upper-casing a figure that may be absent. */
  lemma UpperFigure(n: nat, unit: char, shown: bool)
    ensures UpperIfSet(if shown then Designated(n, unit) else "") == (if shown then Designated(n, UpperChar(unit)) else "")
  {
    if shown {
      ToUpperDesignated(n, unit);
    }
  }

  lemma BuildCompactZero(x: Interval)
    requires ReadableParts(x) == []
    ensures BuildIso(CompactGroups(x)) == IntervalToString(x)
  {
    assert ToUpper("0m") == "0M";
  }

  lemma BuildCompactShown(x: Interval)
    requires ReadableParts(x) != []
    ensures BuildIso(CompactGroups(x)) == IntervalToString(x)
  {
    var g := CompactGroups(x);
    UpperFigure(if DayCount(x).Some? then DayCount(x).value else 0, 'd', DayCount(x).Some?);
    UpperFigure(x.h, 'h', x.h != 0);
    UpperFigure(x.i, 'm', x.i != 0);
    assert UpperIfSet(g.days) == DatePart(x);
    assert Truthy(g.hours) || Truthy(g.minutes) <==> x.h != 0 || x.i != 0;
    assert |"P" + DatePart(x) + TimePart(x)| > 1;
  }

  lemma BuildCompact(x: Interval)
    ensures BuildIso(CompactGroups(x)) == IntervalToString(x)
    ensures DateIntervalAccepts(CompactGroups(x))
  {
    if ReadableParts(x) == [] {
      BuildCompactZero(x);
    } else {
      BuildCompactShown(x);
    }
  }

  /**
   * Reading back the readable form of an interval builds the same ISO text
   * that `date_interval_to_string` gives for it, under the written pattern
   * and the corrected one alike.
   */
  lemma ReadableRoundTrip(x: Interval)
    ensures ReadableToInterval(IntervalToReadable(x)) == Duration(IntervalToString(x))
    ensures ReadableToIntervalAsWritten(IntervalToReadable(x)) == Duration(IntervalToString(x))
  {
    var g := CompactGroups(x);
    CompactReadable(x);
    MatchCompact(x, 1, false);
    MatchCompact(x, 0, true);
    BuildCompact(x);
    assert |GroupsText(g)| >= 2;
    ReadableOfMatch(IntervalToReadable(x), 1, false, g);
    ReadableOfMatch(IntervalToReadable(x), 0, true, g);
  }

  // ---------------------------------------------------------------------
  // date_interval_highest_unit_ago

  datatype Unit = Years | Months | Days | Hours | Minutes | Seconds

  /** Larger units rank higher. */
  function Rank(u: Unit): nat
  {
    match u
    case Years => 5
    case Months => 4
    case Days => 3
    case Hours => 2
    case Minutes => 1
    case Seconds => 0
  }

  /** The figure of an interval in one unit, days read as the helper reads them. */
  function UnitValue(x: Interval, u: Unit): nat
  {
    match u
    case Years => x.y
    case Months => x.m
    case Days => if DayCount(x).Some? then DayCount(x).value else 0
    case Hours => x.h
    case Minutes => x.i
    case Seconds => x.s
  }

  datatype Ago = Ago(count: nat, unit: Unit) | JustNow

  lemma UnitsAllZero(x: Interval)
    ensures (forall u: Unit :: UnitValue(x, u) == 0)
        <==> x.y == 0 && x.m == 0 && DayCount(x).None? && x.h == 0 && x.i == 0 && x.s == 0
  {
    if x.y == 0 && x.m == 0 && DayCount(x).None? && x.h == 0 && x.i == 0 && x.s == 0 {
      forall u: Unit
        ensures UnitValue(x, u) == 0
      {
        match u
        case Years =>
        case Months =>
        case Days =>
        case Hours =>
        case Minutes =>
        case Seconds =>
      }
    } else {
      assert UnitValue(x, Years) != 0 || UnitValue(x, Months) != 0 || UnitValue(x, Days) != 0
          || UnitValue(x, Hours) != 0 || UnitValue(x, Minutes) != 0 || UnitValue(x, Seconds) != 0;
    }
  }

  /** `date_interval_highest_unit_ago`: the largest unit with a non-zero figure, or "Just now". */
  function HighestUnitAgo(x: Interval): (r: Ago)
    ensures r.JustNow? <==> forall u: Unit :: UnitValue(x, u) == 0
    ensures r.Ago? ==> r.count == UnitValue(x, r.unit) && r.count != 0
    ensures r.Ago? ==> forall u: Unit :: Rank(u) > Rank(r.unit) ==> UnitValue(x, u) == 0
  {
    UnitsAllZero(x);
    if x.y != 0 then Ago(x.y, Years)
    else if x.m != 0 then Ago(x.m, Months)
    else if DayCount(x).Some? then Ago(DayCount(x).value, Days)
    else if x.h != 0 then Ago(x.h, Hours)
    else if x.i != 0 then Ago(x.i, Minutes)
    else if x.s != 0 then Ago(x.s, Seconds)
    else JustNow
  }

  /** The words after the figure, one phrase per unit. */
  function UnitPhrase(u: Unit): (r: string)
    ensures |r| > 4 && r[0] == ' ' && r[|r| - 4..] == " ago"
  {
    match u
    case Years => " years ago"
    case Months => " months ago"
    case Days => " days ago"
    case Hours => " hours ago"
    case Minutes => " minutes ago"
    case Seconds => " seconds ago"
  }

  /** Different units are told apart by their phrases. */
  lemma UnitPhraseInjective(u: Unit, v: Unit)
    ensures UnitPhrase(u) == UnitPhrase(v) ==> u == v
  {
  }

  /** The text shown for an `Ago` value: "Just now", or the figure followed by the unit's " … ago" phrase. */
  function AgoText(a: Ago): (r: string)
    ensures r == "Just now" <==> a.JustNow?
    ensures a.Ago? ==> |r| > 4 && r[|r| - 4..] == " ago"
  {
    match a
    case JustNow => "Just now"
    case Ago(n, u) =>
      var d := NatToString(n);
      assert (d + UnitPhrase(u))[0] == d[0];
      assert (d + UnitPhrase(u))[|d + UnitPhrase(u)| - 4..] == UnitPhrase(u)[|UnitPhrase(u)| - 4..];
      d + UnitPhrase(u)
  }

  /** In a figure followed by a phrase, the first space is where the phrase begins. */
  lemma FirstSpaceAt(d: string, p: string)
    requires AllDigits(d) && |p| > 0 && p[0] == ' '
    ensures (d + p)[|d|] == ' '
    ensures forall i :: 0 <= i < |d| ==> (d + p)[i] != ' '
  {
  }

  /** The figure of an `Ago` text ends where its phrase begins. */
  lemma FigureEndsAtPhrase(d1: string, p1: string, d2: string, p2: string)
    requires AllDigits(d1) && AllDigits(d2) && |p1| > 0 && |p2| > 0 && p1[0] == ' ' && p2[0] == ' '
    requires d1 + p1 == d2 + p2
    ensures d1 == d2 && p1 == p2
  {
    FirstSpaceAt(d1, p1);
    FirstSpaceAt(d2, p2);
    assert |d1| == |d2|;
    assert d1 == (d1 + p1)[..|d1|];
    assert d2 == (d2 + p2)[..|d2|];
    assert p1 == (d1 + p1)[|d1|..];
    assert p2 == (d2 + p2)[|d2|..];
  }

  /** Different `Ago` values give different texts, so the text tells the figure and the unit back. */
  lemma AgoTextInjective(a: Ago, b: Ago)
    ensures AgoText(a) == AgoText(b) ==> a == b
  {
    if AgoText(a) == AgoText(b) && a.Ago? && b.Ago? {
      FigureEndsAtPhrase(NatToString(a.count), UnitPhrase(a.unit), NatToString(b.count), UnitPhrase(b.unit));
      NatToStringRoundTrip(a.count);
      NatToStringRoundTrip(b.count);
      UnitPhraseInjective(a.unit, b.unit);
    }
  }

  /** `date_interval_highest_unit_ago` says "Just now" exactly for an interval with no non-zero unit. */
  lemma AgoTextJustNowIff(x: Interval)
    ensures AgoText(HighestUnitAgo(x)) == "Just now" <==> forall u: Unit :: UnitValue(x, u) == 0
  {
  }
}

=== FILE: individual_archive_ticket.dfy ===
/**
 * WPSC_Individual_Archive_Ticket: who may open one archived ticket, which
 * threads are fetched for it, which of them are printed and in what order,
 * and which actions its action bar offers.
 *
 * The current user and the archived-ticket table are parameters; the
 * `wpsc_*` filter hooks are taken to return the value they are given.
 */
module IndividualArchiveTicket {
  import opened Wrappers
  import opened PhpText
  import ArchiveTicketList

  /** An archived ticket: its id, URL auth code, assigned agent ids (`agents`) and customer id. */
  datatype Ticket = Ticket(id: int, authCode: string, agents: seq<int>, customer: int)

  /** The current user as WPSC_Current_User describes it. */
  datatype User = User(isAgent: bool, isCustomer: bool, isGuest: bool,
                       agentId: int, caps: set<string>, customerId: int)

  /** Which of the three capability variants a ticket calls for. */
  datatype CapCase = Unassigned | AssignedMe | AssignedOthers

  /** The case a ticket falls into for a given agent. */
  function CapCaseOf(t: Ticket, agentId: int): (c: CapCase)
    ensures c == Unassigned <==> t.agents == []
    ensures c == AssignedMe <==> agentId in t.agents
    ensures c == AssignedOthers <==> t.agents != [] && agentId !in t.agents
  {
    if t.agents == [] then Unassigned
    else if agentId in t.agents then AssignedMe
    else AssignedOthers
  }

  function CapSuffix(c: CapCase): string
  {
    match c
    case Unassigned => "-unassigned"
    case AssignedMe => "-assigned-me"
    case AssignedOthers => "-assigned-others"
  }

  /**
   * `has_ticket_cap`, as the disjunction the source writes: an unassigned
   * ticket needs cap-unassigned, a ticket assigned to the agent
   * cap-assigned-me, a ticket assigned only to others cap-assigned-others.
   */
  function HasTicketCap(t: Ticket, u: User, cap: string): (r: bool)
    ensures r ==> cap + "-unassigned" in u.caps || cap + "-assigned-me" in u.caps || cap + "-assigned-others" in u.caps
    ensures u.agentId in t.agents ==> (r <==> cap + "-assigned-me" in u.caps)
    ensures t.agents == [] ==> (r <==> cap + "-unassigned" in u.caps)
  {
    || (t.agents == [] && cap + "-unassigned" in u.caps)
    || (u.agentId in t.agents && cap + "-assigned-me" in u.caps)
    || (t.agents != [] && u.agentId !in t.agents && cap + "-assigned-others" in u.caps)
  }

  /** Exactly one case applies to a ticket, and the check asks for that case's capability alone. */
  lemma ExactlyOneCapCase(t: Ticket, u: User, cap: string)
    ensures HasTicketCap(t, u, cap) <==> cap + CapSuffix(CapCaseOf(t, u.agentId)) in u.caps
    ensures CapCaseOf(t, u.agentId) == Unassigned ==>
      (HasTicketCap(t, u, cap) <==> cap + "-unassigned" in u.caps)
    ensures CapCaseOf(t, u.agentId) == AssignedMe ==>
      (HasTicketCap(t, u, cap) <==> cap + "-assigned-me" in u.caps)
    ensures CapCaseOf(t, u.agentId) == AssignedOthers ==>
      (HasTicketCap(t, u, cap) <==> cap + "-assigned-others" in u.caps)
  {
    assert u.agentId in t.agents ==> t.agents != [];
  }

  /**
   * The list's `has_ticket_cap` holds exactly when this check passes for
   * some ticket: it asks whether the agent holds the capability for any
   * kind of ticket.
   */
  lemma ListCapIsSomeTicketCap(u: User, cap: string)
    ensures (exists t: Ticket :: HasTicketCap(t, u, cap)) <==> ArchiveTicketList.HasTicketCap(u.caps, cap)
  {
    if ArchiveTicketList.HasTicketCap(u.caps, cap) {
      var mine := Ticket(0, "", [u.agentId], 0);
      var others := Ticket(0, "", [u.agentId + 1], 0);
      if cap + "-unassigned" in u.caps {
        assert HasTicketCap(Ticket(0, "", [], 0), u, cap);
      } else if cap + "-assigned-me" in u.caps {
        assert HasTicketCap(mine, u, cap);
      } else {
        assert u.agentId !in others.agents;
        assert HasTicketCap(others, u, cap);
      }
    }
  }

  /** The view profile: none yet, customer or agent. */
  datatype Profile = NoProfile | Customer | Agent

  /** The code `load_current_ticket` compares: 'auth-code' when it is non-empty, else 'auth_code', else "". */
  function AuthCode(authDash: Option<string>, authUnderscore: Option<string>): (r: string)
    ensures authDash.Some? && Truthy(authDash.value) ==> r == authDash.value
    ensures !(authDash.Some? && Truthy(authDash.value)) ==>
      r == (if authUnderscore.Some? then authUnderscore.value else "")
  {
    var code := if authDash.Some? then authDash.value else "";
    if Truthy(code) then code
    else if authUnderscore.Some? then authUnderscore.value else ""
  }

  /** URL authentication succeeds only for a non-empty code equal to the ticket's. */
  predicate UrlAuthMatches(t: Ticket, code: string)
  {
    Truthy(code) && t.authCode == code
  }

  /**
   * `is_customer`: in public mode any customer who is not an agent, and
   * otherwise only the ticket's own customer.
   */
  predicate IsTicketCustomer(t: Ticket, u: User, publicMode: bool): (r: bool)
    ensures r ==> u.isCustomer
    ensures u.isCustomer && publicMode && !u.isAgent ==> r
    ensures !publicMode || u.isAgent ==> (r <==> u.isCustomer && u.customerId == t.customer)
  {
    u.isCustomer && ((publicMode && !u.isAgent) || u.customerId == t.customer)
  }

  /**
   * The profile `load_current_ticket` settles on: customer when `is_customer`
   * holds (the ticket's own customer, or any non-agent customer in public
   * mode) or for an authenticated guest, then agent for an agent holding the
   * 'at' capability on this ticket, whatever was decided before.
   */
  function ViewProfile(prev: Profile, t: Ticket, u: User, publicMode: bool, urlAuth: bool): (p: Profile)
    ensures u.isAgent && HasTicketCap(t, u, "at") ==> p == Agent
    ensures !(u.isAgent && HasTicketCap(t, u, "at")) ==>
      p == (if IsTicketCustomer(t, u, publicMode) || (u.isGuest && !u.isCustomer && urlAuth) then Customer else prev)
  {
    var p := if IsTicketCustomer(t, u, publicMode) || (u.isGuest && !u.isCustomer && urlAuth) then Customer else prev;
    if u.isAgent && HasTicketCap(t, u, "at") then Agent else p
  }

  /**
   * The ticket's own customer views it as a customer, unless the user is
   * also an agent holding the 'at' capability for it, who views it as an agent.
   */
  lemma AgentOverridesCustomer(t: Ticket, u: User, publicMode: bool, urlAuth: bool)
    requires IsTicketCustomer(t, u, publicMode)
    ensures ViewProfile(NoProfile, t, u, publicMode, urlAuth) == (if u.isAgent && HasTicketCap(t, u, "at") then Agent else Customer)
  {
  }

  /** How a request ends. */
  datatype Outcome = Loaded | Failed(code: string, status: int) | Died

  /** A thread of an archived ticket. */
  datatype Thread = Thread(id: int, ticket: int, kind: string, isActive: bool)

  /** The static state of the class during one request. */
  class View {
    var ticket: Option<Ticket>
    var urlAuth: bool
    var viewProfile: Profile
    var actions: seq<string>
    var threadActions: seq<string>

    /** The class defaults: no ticket, no URL authentication, no profile, no thread actions. */
    constructor ()
      ensures ticket == None && !urlAuth && viewProfile == NoProfile && threadActions == []
    {
      ticket := None;
      urlAuth := false;
      viewProfile := NoProfile;
      actions := [];
      threadActions := [];
    }

    /**
     * `load_current_ticket`: an id of 0 fails with 001/401 and an unknown id
     * with 002/400; otherwise the ticket is stored, URL authentication
     * recorded, the profile chosen, and the request dies without a profile
     * and fails with 003/401 for any profile but agent.
     */
    method LoadCurrentTicket(u: User, ticketId: Option<string>, tickets: map<int, Ticket>,
                             authDash: Option<string>, authUnderscore: Option<string>, publicMode: bool)
      returns (o: Outcome)
      modifies this
      ensures var id := if ticketId.Some? then IntVal(ticketId.value) else 0;
        && (id == 0 ==> o == Failed("001", 401) && unchanged(this))
        && (id != 0 && id !in tickets ==> o == Failed("002", 400) && unchanged(this))
        && (id != 0 && id in tickets ==>
              var t := tickets[id];
              && ticket == Some(t)
              && urlAuth == (old(urlAuth) || UrlAuthMatches(t, AuthCode(authDash, authUnderscore)))
              && viewProfile == ViewProfile(old(viewProfile), t, u, publicMode, urlAuth)
              && o == (if viewProfile == NoProfile then Died
                       else if viewProfile == Agent then Loaded
                       else Failed("003", 401)))
      ensures o == Loaded ==> viewProfile == Agent && ticket.Some?
      ensures actions == old(actions) && threadActions == old(threadActions)
    {
      var id := if ticketId.Some? then IntVal(ticketId.value) else 0;
      if id == 0 {
        return Failed("001", 401);
      }
      if id !in tickets {
        return Failed("002", 400);
      }
      var t := tickets[id];
      ticket := Some(t);
      var code := AuthCode(authDash, authUnderscore);
      if Truthy(code) && t.authCode == code {
        urlAuth := true;
      }
      if IsTicketCustomer(t, u, publicMode) || (u.isGuest && !u.isCustomer && urlAuth) {
        viewProfile := Customer;
      }
      if u.isAgent && HasTicketCap(t, u, "at") {
        viewProfile := Agent;
      }
      if viewProfile == NoProfile {
        return Died;
      }
      if viewProfile != Agent {
        return Failed("003", 401);
      }
      return Loaded;
    }

    /**
     * `load_actions`: refresh always; restore-archived for an agent with the
     * 'at' capability on this ticket; delete-permanently for an agent with
     * at-delete-access. The agent profile also gets the 'info' thread action.
     */
    method LoadActions(u: User)
      requires ticket.Some?
      modifies this
      ensures ticket == old(ticket) && urlAuth == old(urlAuth) && viewProfile == old(viewProfile)
      ensures actions == TicketActions(ticket.value, u)
      ensures threadActions == if viewProfile == Agent then ["info"] else old(threadActions)
    {
      var a := ["refresh"];
      if u.isAgent && HasTicketCap(ticket.value, u, "at") {
        a := a + ["restore-archived"];
      }
      if u.isAgent && "at-delete-access" in u.caps {
        a := a + ["delete-permanently"];
      }
      actions := a;
      if viewProfile == Agent {
        threadActions := ["info"];
      }
    }
  }

  /** The keys of the action bar, in the order `load_actions` adds them. */
  function TicketActions(t: Ticket, u: User): (r: seq<string>)
    ensures |r| >= 1 && r[0] == "refresh"
    ensures "restore-archived" in r <==> u.isAgent && HasTicketCap(t, u, "at")
    ensures "delete-permanently" in r <==> u.isAgent && "at-delete-access" in u.caps
    ensures forall k :: 0 <= k < |r| ==> r[k] in {"refresh", "restore-archived", "delete-permanently"}
  {
    ["refresh"]
    + (if u.isAgent && HasTicketCap(t, u, "at") then ["restore-archived"] else [])
    + (if u.isAgent && "at-delete-access" in u.caps then ["delete-permanently"] else [])
  }

  /**
   * The `type IN (...)` values of the thread query: report and reply always,
   * note for an agent with 'pn', log for an agent with 'vl'.
   */
  method ThreadTypes(profile: Profile, t: Ticket, u: User) returns (types: seq<string>)
    ensures |types| >= 2 && types[0] == "report" && types[1] == "reply"
    ensures "note" in types <==> profile == Agent && HasTicketCap(t, u, "pn")
    ensures "log" in types <==> profile == Agent && HasTicketCap(t, u, "vl")
    ensures forall k :: 0 <= k < |types| ==> types[k] in {"report", "reply", "note", "log"}
  {
    types := ["report", "reply"];
    if profile == Agent && HasTicketCap(t, u, "pn") {
      types := types + ["note"];
    }
    if profile == Agent && HasTicketCap(t, u, "vl") {
      types := types + ["log"];
    }
  }

  /** The thread query: this ticket's threads of the given types, below `before` when paging back, newest first. */
  datatype ThreadQuery = ThreadQuery(ticket: int, before: Option<int>, types: seq<string>)

  /** Whether the query selects a thread. */
  predicate Selects(q: ThreadQuery, th: Thread)
  {
    th.ticket == q.ticket && th.kind in q.types && (q.before.None? || th.id < q.before.value)
  }

  /**
   * `load_older_threads` after the ticket is loaded: a missing or zero
   * `last_thread` fails with 004/401; otherwise the query asks only for
   * threads with a smaller id.
   */
  function OlderThreadsQuery(t: Ticket, lastThread: Option<string>, types: seq<string>): (r: Option<ThreadQuery>)
    ensures r.None? <==> lastThread.None? || IntVal(lastThread.value) == 0
    ensures r.Some? ==> r.value.before == Some(IntVal(lastThread.value)) && r.value.ticket == t.id && r.value.types == types
    ensures r.Some? ==> forall th :: Selects(r.value, th) ==> th.id < IntVal(lastThread.value)
  {
    var last := if lastThread.Some? then IntVal(lastThread.value) else 0;
    if last == 0 then None else Some(ThreadQuery(t.id, Some(last), types))
  }

  /** The first page of threads asks for every thread of the ticket with the allowed types. */
  function ThreadSectionQuery(t: Ticket, types: seq<string>): (r: ThreadQuery)
    ensures forall th :: Selects(r, th) <==> th.ticket == t.id && th.kind in types
  {
    ThreadQuery(t.id, None, types)
  }

  /**
   * Whether a fetched thread is printed: a log only for an agent with 'vl';
   * any other thread unless it is a note and the user is not an agent with
   * 'pn', or it is inactive and the user is not an agent with 'vl'.
   */
  function ThreadVisible(th: Thread, profile: Profile, t: Ticket, u: User): (r: bool)
    ensures th.kind == "log" ==> (r <==> PrintLogAllowed(profile, t, u))
    ensures th.isActive && th.kind != "log" && th.kind != "note" ==> r
    ensures r && th.kind == "note" ==> profile == Agent
  {
    if th.kind == "log" then PrintLogAllowed(profile, t, u)
    else (th.kind == "note" ==> profile == Agent && HasTicketCap(t, u, "pn"))
         && (!th.isActive ==> profile == Agent && HasTicketCap(t, u, "vl"))
  }

  /** `print_log`'s gate. */
  function PrintLogAllowed(profile: Profile, t: Ticket, u: User): (r: bool)
    ensures r ==> profile == Agent
    ensures profile == Agent && u.agentId in t.agents ==> (r <==> "vl-assigned-me" in u.caps)
  {
    assert "vl" + "-assigned-me" == "vl-assigned-me";
    profile == Agent && HasTicketCap(t, u, "vl")
  }

  /** The gates never hide anything from an agent holding both 'pn' and 'vl'. */
  lemma FullAgentSeesEverything(th: Thread, t: Ticket, u: User)
    requires HasTicketCap(t, u, "pn") && HasTicketCap(t, u, "vl")
    ensures ThreadVisible(th, Agent, t, u)
  {
  }

  /** Without the agent profile, notes, logs and inactive threads stay hidden. */
  lemma NonAgentSeesOnlyActiveConversation(th: Thread, profile: Profile, t: Ticket, u: User)
    requires profile != Agent
    ensures ThreadVisible(th, profile, t, u) <==> th.isActive && th.kind != "log" && th.kind != "note"
  {
  }

  /** The threads of a sequence that pass the gates, in the same order. */
  function Visible(ths: seq<Thread>, profile: Profile, t: Ticket, u: User): (r: seq<Thread>)
    ensures |r| <= |ths|
  {
    if ths == [] then []
    else
      var last := ths[|ths| - 1];
      Visible(ths[..|ths| - 1], profile, t, u) + (if ThreadVisible(last, profile, t, u) then [last] else [])
  }

  /** The printed threads are exactly the fetched threads that pass the gates. */
  lemma {:induction false} VisibleMembers(ths: seq<Thread>, profile: Profile, t: Ticket, u: User)
    ensures forall th :: th in Visible(ths, profile, t, u) <==> th in ths && ThreadVisible(th, profile, t, u)
  {
    if ths != [] {
      var init := ths[..|ths| - 1];
      VisibleMembers(init, profile, t, u);
      assert ths == init + [ths[|ths| - 1]];
    }
  }

  /** A sequence backwards. */
  function Reverse<T>(s: seq<T>): (r: seq<T>)
    ensures |r| == |s|
    ensures forall k :: 0 <= k < |s| ==> r[k] == s[|s| - 1 - k]
  {
    if s == [] then [] else Reverse(s[1..]) + [s[0]]
  }

  lemma {:induction false} VisibleConcat(a: seq<Thread>, b: seq<Thread>, profile: Profile, t: Ticket, u: User)
    ensures Visible(a + b, profile, t, u) == Visible(a, profile, t, u) + Visible(b, profile, t, u)
    decreases |b|
  {
    if b == [] {
      assert a + b == a;
    } else {
      var init := b[..|b| - 1];
      assert (a + b)[..|a + b| - 1] == a + init;
      VisibleConcat(a, init, profile, t, u);
    }
  }

  /** Filtering commutes with reversal, so the bottom layout prints exactly the top layout backwards. */
  lemma {:induction false} VisibleReverse(ths: seq<Thread>, profile: Profile, t: Ticket, u: User)
    ensures Visible(Reverse(ths), profile, t, u) == Reverse(Visible(ths, profile, t, u))
  {
    if ths != [] {
      var h, tl := ths[0], ths[1..];
      VisibleReverse(tl, profile, t, u);
      assert ths == [h] + tl;
      VisibleConcat([h], tl, profile, t, u);
      VisibleConcat(Reverse(tl), [h], profile, t, u);
      var v := Visible([h], profile, t, u);
      assert v == [] || v == [h] by {
        assert [h][..0] == [];
      }
      assert Reverse(v) == v by {
        if v == [h] {
          assert v[1..] == [];
        }
      }
      ReverseConcat(v, Visible(tl, profile, t, u));
    }
  }

  lemma {:induction false} ReverseConcat<T>(a: seq<T>, b: seq<T>)
    ensures Reverse(a + b) == Reverse(b) + Reverse(a)
  {
    if a == [] {
      assert a + b == b;
    } else {
      assert (a + b)[0] == a[0] && (a + b)[1..] == a[1..] + b;
      ReverseConcat(a[1..], b);
    }
  }

  lemma ReverseStep<T>(s: seq<T>, i: nat)
    requires i < |s|
    ensures Reverse(s[i..]) == Reverse(s[i + 1..]) + [s[i]]
  {
    assert s[i..][1..] == s[i + 1..];
  }

  /**
   * The loops of `get_thread_section` and `load_older_threads` that print
   * the fetched threads (newest first): in that order when the reply form is
   * at the top, from the last one back to the first otherwise, skipping the
   * threads the print gates hide.
   */
  method PrintedThreads(results: seq<Thread>, replyFormPosition: string, profile: Profile, t: Ticket, u: User)
    returns (printed: seq<Thread>)
    ensures replyFormPosition == "top" ==> printed == Visible(results, profile, t, u)
    ensures replyFormPosition != "top" ==> printed == Visible(Reverse(results), profile, t, u)
    ensures replyFormPosition != "top" ==> printed == Reverse(Visible(results, profile, t, u))
  {
    if replyFormPosition == "top" {
      printed := PrintForward(results, profile, t, u);
    } else {
      printed := PrintBackward(results, profile, t, u);
      VisibleReverse(results, profile, t, u);
    }
  }

  /** The `foreach` over the results. */
  method PrintForward(results: seq<Thread>, profile: Profile, t: Ticket, u: User) returns (printed: seq<Thread>)
    ensures printed == Visible(results, profile, t, u)
  {
    printed := [];
    var k := 0;
    while k < |results|
      invariant 0 <= k <= |results|
      invariant printed == Visible(results[..k], profile, t, u)
    {
      assert results[..k + 1][..k] == results[..k];
      if ThreadVisible(results[k], profile, t, u) {
        printed := printed + [results[k]];
      }
      k := k + 1;
    }
    assert results[..|results|] == results;
  }

  /** The `for` loop from the last result down to the first. */
  method PrintBackward(results: seq<Thread>, profile: Profile, t: Ticket, u: User) returns (printed: seq<Thread>)
    ensures printed == Visible(Reverse(results), profile, t, u)
  {
    printed := [];
    var i := |results| - 1;
    while i >= 0
      invariant -1 <= i < |results|
      invariant printed == Visible(Reverse(results[i + 1..]), profile, t, u)
    {
      ReverseStep(results, i);
      assert (Reverse(results[i + 1..]) + [results[i]])[..|results| - i - 1] == Reverse(results[i + 1..]);
      if ThreadVisible(results[i], profile, t, u) {
        printed := printed + [results[i]];
      }
      i := i - 1;
    }
    assert results[0..] == results;
  }
}

=== FILE: keyed_sort.dfy ===
/**
 * `WPSC_Functions::array_sort`: orders the rows of a keyed array by one
 * field, ascending for SORT_ASC and descending for SORT_DESC, keeping each
 * row's key and value.
 *
 * Sort values are compared as byte strings (PHP's rule for two non-numeric
 * strings). `asort` and `arsort` are stable, so rows with equal values keep
 * their order; the model sorts by stable insertion.
 */
module KeyedSort {
  import opened Wrappers

  /** PHP's values of the sort-order constants. */
  const SORT_ASC: int := 4
  const SORT_DESC: int := 3

  /** A row's value: a scalar, or an array of (field, value) pairs in order. */
  datatype Elem = Scalar(text: string) | Record(fields: seq<(string, string)>)

  datatype Row = Row(key: string, elem: Elem)

  /** The value of the last field called `on`; a later field overwrites an earlier one. */
  function LastField(fields: seq<(string, string)>, on: string): (r: Option<string>)
    ensures r.Some? <==> exists k :: 0 <= k < |fields| && fields[k].0 == on
  {
    if fields == [] then None
    else if fields[|fields| - 1].0 == on then Some(fields[|fields| - 1].1)
    else
      var r := LastField(fields[..|fields| - 1], on);
      assert forall k :: 0 <= k < |fields| - 1 ==> fields[..|fields| - 1][k] == fields[k];
      r
  }

  /** The value a row is sorted by: a scalar itself, or its `on` field; None when a record has no such field. */
  function SortValue(e: Elem, on: string): Option<string>
  {
    match e
    case Scalar(t) => Some(t)
    case Record(fields) => LastField(fields, on)
  }

  /** The rows that get a sort value, in input order (`$sortable_array`). */
  function Selection(rows: seq<Row>, on: string): (r: seq<Row>)
    ensures forall x :: x in r <==> x in rows && SortValue(x.elem, on).Some?
    ensures |r| <= |rows|
  {
    if rows == [] then []
    else
      var last := rows[|rows| - 1];
      var init := Selection(rows[..|rows| - 1], on);
      assert forall x :: x in rows <==> x in rows[..|rows| - 1] || x == last;
      if SortValue(last.elem, on).Some? then init + [last] else init
  }

  function Key(x: Row, on: string): string
  {
    var v := SortValue(x.elem, on);
    if v.Some? then v.value else ""
  }

  /** `strcmp(a, b) < 0`. */
  predicate StrLess(a: string, b: string)
    decreases |a|
  {
    if a == [] then b != []
    else if b == [] then false
    else if a[0] != b[0] then a[0] < b[0]
    else StrLess(a[1..], b[1..])
  }

  lemma {:induction false} StrLessIrreflexive(a: string)
    ensures !StrLess(a, a)
    decreases |a|
  {
    if a != [] {
      StrLessIrreflexive(a[1..]);
    }
  }

  lemma {:induction false} StrLessTransitive(a: string, b: string, c: string)
    requires StrLess(a, b) && StrLess(b, c)
    ensures StrLess(a, c)
    decreases |a|
  {
    if a != [] && b != [] && c != [] && a[0] == b[0] && b[0] == c[0] {
      StrLessTransitive(a[1..], b[1..], c[1..]);
    }
  }

  /** Whether row a must come before row b in the requested order; no order is imposed for other values. */
  predicate Before(order: int, on: string, a: Row, b: Row)
  {
    if order == SORT_ASC then StrLess(Key(a, on), Key(b, on))
    else if order == SORT_DESC then StrLess(Key(b, on), Key(a, on))
    else false
  }

  lemma BeforeIrreflexive(order: int, on: string, a: Row)
    ensures !Before(order, on, a, a)
  {
    StrLessIrreflexive(Key(a, on));
  }

  lemma BeforeTransitive(order: int, on: string, a: Row, b: Row, c: Row)
    requires Before(order, on, a, b) && Before(order, on, b, c)
    ensures Before(order, on, a, c)
  {
    if order == SORT_ASC {
      StrLessTransitive(Key(a, on), Key(b, on), Key(c, on));
    } else if order == SORT_DESC {
      StrLessTransitive(Key(c, on), Key(b, on), Key(a, on));
    }
  }

  predicate Sorted(order: int, on: string, s: seq<Row>)
  {
    forall i, j :: 0 <= i < j < |s| ==> !Before(order, on, s[j], s[i])
  }

  /** Stable insertion: x goes in front of the first row it must precede. */
  function Insert(order: int, on: string, x: Row, s: seq<Row>): (r: seq<Row>)
    ensures |r| == |s| + 1
  {
    if s == [] then [x]
    else if Before(order, on, x, s[0]) then [x] + s
    else [s[0]] + Insert(order, on, x, s[1..])
  }

  /** The rows sorted stably, inserting them one by one in input order. */
  function SortRows(order: int, on: string, xs: seq<Row>): (r: seq<Row>)
    ensures |r| == |xs|
  {
    if xs == [] then [] else Insert(order, on, xs[|xs| - 1], SortRows(order, on, xs[..|xs| - 1]))
  }

  /** What `array_sort` returns. */
  function ArraySortSpec(rows: seq<Row>, on: string, order: int): seq<Row>
  {
    SortRows(order, on, Selection(rows, on))
  }

  lemma {:induction false} InsertPermutes(order: int, on: string, x: Row, s: seq<Row>)
    ensures multiset(Insert(order, on, x, s)) == multiset(s) + multiset{x}
  {
    if s != [] && !Before(order, on, x, s[0]) {
      InsertPermutes(order, on, x, s[1..]);
      assert s == [s[0]] + s[1..];
    }
  }

  lemma {:induction false} InsertSorted(order: int, on: string, x: Row, s: seq<Row>)
    requires Sorted(order, on, s)
    ensures Sorted(order, on, Insert(order, on, x, s))
  {
    if s == [] {
    } else if Before(order, on, x, s[0]) {
      var r := [x] + s;
      forall i, j | 0 <= i < j < |r|
        ensures !Before(order, on, r[j], r[i])
      {
        if i == 0 {
          if Before(order, on, r[j], x) {
            BeforeTransitive(order, on, r[j], x, s[0]);
            if j == 1 {
              BeforeIrreflexive(order, on, s[0]);
            }
          }
        }
      }
    } else {
      var tail := Insert(order, on, x, s[1..]);
      InsertSorted(order, on, x, s[1..]);
      InsertPermutes(order, on, x, s[1..]);
      var r := [s[0]] + tail;
      forall i, j | 0 <= i < j < |r|
        ensures !Before(order, on, r[j], r[i])
      {
        if i == 0 {
          assert r[j] in multiset(tail);
          assert r[j] == x || r[j] in multiset(s[1..]);
          if r[j] != x {
            var k :| 0 <= k < |s[1..]| && s[1..][k] == r[j];
            assert s[k + 1] == r[j];
          }
        }
      }
    }
  }

  lemma {:induction false} SortRowsPermutes(order: int, on: string, xs: seq<Row>)
    ensures multiset(SortRows(order, on, xs)) == multiset(xs)
  {
    if xs != [] {
      var init := xs[..|xs| - 1];
      SortRowsPermutes(order, on, init);
      InsertPermutes(order, on, xs[|xs| - 1], SortRows(order, on, init));
      assert xs == init + [xs[|xs| - 1]];
    }
  }

  lemma {:induction false} SortRowsSorted(order: int, on: string, xs: seq<Row>)
    ensures Sorted(order, on, SortRows(order, on, xs))
  {
    if xs != [] {
      SortRowsSorted(order, on, xs[..|xs| - 1]);
      InsertSorted(order, on, xs[|xs| - 1], SortRows(order, on, xs[..|xs| - 1]));
    }
  }

  /**
   * `array_sort` returns the rows that carry a sort value, each exactly as
   * often as in the input, ordered by that value (ascending for SORT_ASC,
   * descending for SORT_DESC). A record without the `on` field is dropped.
   */
  lemma ArraySortIsSortedPermutation(rows: seq<Row>, on: string, order: int)
    ensures multiset(ArraySortSpec(rows, on, order)) == multiset(Selection(rows, on))
    ensures forall x :: x in ArraySortSpec(rows, on, order) <==> x in rows && SortValue(x.elem, on).Some?
    ensures order == SORT_ASC ==> forall i, j :: 0 <= i < j < |ArraySortSpec(rows, on, order)| ==>
      !StrLess(Key(ArraySortSpec(rows, on, order)[j], on), Key(ArraySortSpec(rows, on, order)[i], on))
    ensures order == SORT_DESC ==> forall i, j :: 0 <= i < j < |ArraySortSpec(rows, on, order)| ==>
      !StrLess(Key(ArraySortSpec(rows, on, order)[i], on), Key(ArraySortSpec(rows, on, order)[j], on))
  {
    var sel := Selection(rows, on);
    SortRowsPermutes(order, on, sel);
    SortRowsSorted(order, on, sel);
    var r := ArraySortSpec(rows, on, order);
    forall x
      ensures x in r <==> x in sel
    {
      assert x in r <==> x in multiset(r);
      assert x in sel <==> x in multiset(sel);
    }
  }

  lemma {:induction false} InsertUnordered(order: int, on: string, x: Row, s: seq<Row>)
    requires order != SORT_ASC && order != SORT_DESC
    ensures Insert(order, on, x, s) == s + [x]
  {
    if s != [] {
      InsertUnordered(order, on, x, s[1..]);
      assert s == [s[0]] + s[1..];
    }
  }

  /** With an order flag other than SORT_ASC or SORT_DESC nothing is sorted: the rows keep their input order. */
  lemma {:induction false} UnorderedKeepsOrder(order: int, on: string, xs: seq<Row>)
    requires order != SORT_ASC && order != SORT_DESC
    ensures SortRows(order, on, xs) == xs
  {
    if xs != [] {
      UnorderedKeepsOrder(order, on, xs[..|xs| - 1]);
      InsertUnordered(order, on, xs[|xs| - 1], xs[..|xs| - 1]);
    }
  }

  /** The position where stable insertion puts x: in front of the first row it must precede. */
  lemma {:induction false} InsertAt(order: int, on: string, x: Row, s: seq<Row>, p: nat)
    requires p <= |s|
    requires forall k :: 0 <= k < p ==> !Before(order, on, x, s[k])
    requires p == |s| || Before(order, on, x, s[p])
    ensures Insert(order, on, x, s) == s[..p] + [x] + s[p..]
  {
    if s != [] && p > 0 {
      InsertAt(order, on, x, s[1..], p - 1);
      assert s[..p] == [s[0]] + s[1..][..p - 1];
      assert s[p..] == s[1..][p - 1..];
    }
  }

  /** The inner loop of `array_sort`: the record's last field called `on`. */
  method FindField(fields: seq<(string, string)>, on: string) returns (found: Option<string>)
    ensures found == LastField(fields, on)
  {
    found := None;
    var m := 0;
    while m < |fields|
      invariant 0 <= m <= |fields|
      invariant found == LastField(fields[..m], on)
    {
      assert fields[..m + 1][..m] == fields[..m];
      if fields[m].0 == on {
        found := Some(fields[m].1);
      }
      m := m + 1;
    }
    assert fields[..m] == fields;
  }

  /** One step of the stable sort: find the insertion point, then insert. */
  method InsertRow(order: int, on: string, x: Row, s: seq<Row>) returns (r: seq<Row>)
    ensures r == Insert(order, on, x, s)
  {
    var p := 0;
    while p < |s| && !Before(order, on, x, s[p])
      invariant 0 <= p <= |s|
      invariant forall k :: 0 <= k < p ==> !Before(order, on, x, s[k])
    {
      p := p + 1;
    }
    InsertAt(order, on, x, s, p);
    r := s[..p] + [x] + s[p..];
  }

  /** `array_sort`: collect the rows that have a sort value, sort them, return them with their keys. */
  method ArraySort(rows: seq<Row>, on: string, order: int) returns (result: seq<Row>)
    ensures result == ArraySortSpec(rows, on, order)
  {
    result := [];
    if |rows| > 0 {
      var sortable: seq<Row> := [];
      var i := 0;
      while i < |rows|
        invariant 0 <= i <= |rows|
        invariant sortable == Selection(rows[..i], on)
      {
        assert rows[..i + 1][..i] == rows[..i];
        var v := rows[i];
        match v.elem {
          case Record(fields) =>
            var found := FindField(fields, on);
            if found.Some? {
              sortable := sortable + [v];
            }
          case Scalar(_) =>
            sortable := sortable + [v];
        }
        i := i + 1;
      }
      assert rows[..i] == rows;
      var j := 0;
      while j < |sortable|
        invariant 0 <= j <= |sortable|
        invariant result == SortRows(order, on, sortable[..j])
      {
        assert sortable[..j + 1][..j] == sortable[..j];
        result := InsertRow(order, on, sortable[j], result);
        j := j + 1;
      }
      assert sortable[..j] == sortable;
    }
  }
}

=== FILE: paging.dfy ===
/**
 * The offset and page arithmetic of WPSC_Functions: `parse_limit` renders
 * the LIMIT clause of a page of results and `parse_response` describes the
 * page that came back.
 *
 * Request values arrive already converted by `intval`: `itemsPerPage` is
 * None when the key is not set, `pageNo` is None when it is not set or not
 * numeric (both then take their defaults).
 */
module Paging {
  import opened Wrappers
  import opened PhpText

  /** The page number used when none (or a non-numeric one) is given. */
  function PageOrDefault(pageNo: Option<int>): int
  {
    if pageNo.Some? then pageNo.value else 1
  }

  /** The number of rows skipped before page `page` when each page holds `perPage` rows. */
  function Offset(perPage: int, page: int): int
  {
    (page - 1) * perPage
  }

  /** `parse_limit`: no LIMIT without a non-zero page size, else `LIMIT offset, size`. */
  function ParseLimit(itemsPerPage: Option<int>, pageNo: Option<int>): (r: string)
    ensures r == "" <==> itemsPerPage.None? || itemsPerPage.value == 0
    ensures r != "" ==> r == "LIMIT " + IntToString(Offset(itemsPerPage.value, PageOrDefault(pageNo)))
                             + ", " + IntToString(itemsPerPage.value)
  {
    if itemsPerPage.None? || itemsPerPage.value == 0 then ""
    else "LIMIT " + IntToString(Offset(itemsPerPage.value, PageOrDefault(pageNo))) + ", " + IntToString(itemsPerPage.value)
  }

  /** The first page is the one without an offset. */
  lemma FirstPageStartsAtZero(itemsPerPage: int)
    requires itemsPerPage != 0
    ensures ParseLimit(Some(itemsPerPage), None) == "LIMIT 0, " + IntToString(itemsPerPage)
  {
  }

  /**
   * The pages of a positive size tile the rows: row x (counted from 0) is
   * on page x / n + 1 and on no other page, and each page starts where the
   * previous one ended.
   */
  lemma PagesTileRows(n: int, x: int, p: int)
    requires n >= 1 && x >= 0 && p >= 1
    ensures Offset(n, p + 1) == Offset(n, p) + n
    ensures Offset(n, p) <= x < Offset(n, p) + n <==> p == x / n + 1
  {
    var q := x / n;
    assert x == q * n + x % n && 0 <= x % n < n;
    assert Offset(n, p + 1) == p * n == Offset(n, p) + n;
    if p <= q {
      ScaleMono(n, p, q);
    } else if p >= q + 2 {
      ScaleMono(n, q + 1, p - 1);
      assert (q + 1) * n == q * n + n;
    }
  }

  lemma ScaleMono(n: int, a: int, b: int)
    requires n >= 0 && a <= b
    ensures a * n <= b * n
  {
  }

  /**
   * PHP's `ceil(a / b)` for integer operands (b != 0): the least integer
   * that is at least the rational quotient.
   */
  function CeilDiv(a: int, b: int): (c: int)
    requires b != 0
    ensures b > 0 ==> (c - 1) * b < a <= c * b
    ensures b < 0 ==> (c - 1) * -b < -a <= c * -b
  {
    if b > 0 then
      var q := (-a) / b;
      assert -a == q * b + (-a) % b;
      -q
    else
      var q := a / -b;
      assert a == q * -b + a % -b;
      -q
  }

  /** What `parse_response` returns. */
  datatype Response<R> =
    | Unpaged(totalItems: int, results: R)
    | Paged(totalItems: int, itemsPerPage: int, currentPage: int, totalPages: int, hasNextPage: bool, results: R)

  /** `parse_response`: page facts when a non-zero page size was asked for. */
  function ParseResponse<R>(results: R, totalItems: int, itemsPerPage: Option<int>, pageNo: Option<int>): (r: Response<R>)
    ensures r.results == results && r.totalItems == totalItems
    ensures r.Unpaged? <==> itemsPerPage.None? || itemsPerPage.value == 0
    ensures r.Paged? ==> r.itemsPerPage == itemsPerPage.value && r.currentPage == PageOrDefault(pageNo)
    ensures r.Paged? && r.itemsPerPage > 0 ==>
      (r.totalPages - 1) * r.itemsPerPage < totalItems <= r.totalPages * r.itemsPerPage
    ensures r.Paged? ==> (r.hasNextPage <==> r.currentPage < r.totalPages)
  {
    if itemsPerPage.None? || itemsPerPage.value == 0 then Unpaged(totalItems, results)
    else
      var n := itemsPerPage.value;
      var page := PageOrDefault(pageNo);
      var totalPages := CeilDiv(totalItems, n);
      Paged(totalItems, n, page, totalPages, page < totalPages, results)
  }

  /**
   * With a positive page size, there is a next page exactly when the rows
   * up to the end of the current page do not exhaust the total.
   */
  lemma HasNextPageIffRowsRemain<R>(results: R, totalItems: int, n: int, pageNo: Option<int>)
    requires n > 0
    ensures var r := ParseResponse(results, totalItems, Some(n), pageNo);
      r.hasNextPage <==> r.currentPage * n < totalItems
  {
    var r := ParseResponse(results, totalItems, Some(n), pageNo);
    var c, p := r.totalPages, r.currentPage;
    if p < c {
      assert p <= c - 1;
      assert p * n <= (c - 1) * n;
    } else {
      assert p * n >= c * n;
    }
  }

  /** Every page of a non-empty listing is covered: the total page count is at least one. */
  lemma NonEmptyHasAPage<R>(results: R, totalItems: int, n: int, pageNo: Option<int>)
    requires n > 0 && totalItems > 0
    ensures ParseResponse(results, totalItems, Some(n), pageNo).totalPages >= 1
  {
  }
}

=== FILE: php_text.dfy ===
/**
 * String helpers shared by the model: PHP's boolean reading of strings,
 * decimal digits, ASCII case mapping and `implode`.
 */
module PhpText {

  /** PHP reads a string as false exactly when it is "" or "0". */
  predicate Truthy(s: string)
  {
    s != "" && s != "0"
  }

  predicate IsDigit(c: char)
  {
    '0' <= c <= '9'
  }

  predicate AllDigits(s: string)
  {
    forall i :: 0 <= i < |s| ==> IsDigit(s[i])
  }

  predicate IsLowerLetter(c: char)
  {
    'a' <= c <= 'z'
  }

  /** `strtolower` on one byte: only A-Z change. */
  function LowerChar(c: char): char
  {
    if 'A' <= c <= 'Z' then (c as int + 32) as char else c
  }

  /** `strtoupper` on one byte: only a-z change. */
  function UpperChar(c: char): char
  {
    if 'a' <= c <= 'z' then (c as int - 32) as char else c
  }

  function ToLower(s: string): (r: string)
    ensures |r| == |s|
    ensures forall i :: 0 <= i < |s| ==> r[i] == LowerChar(s[i])
  {
    if s == [] then [] else [LowerChar(s[0])] + ToLower(s[1..])
  }

  function ToUpper(s: string): (r: string)
    ensures |r| == |s|
    ensures forall i :: 0 <= i < |s| ==> r[i] == UpperChar(s[i])
  {
    if s == [] then [] else [UpperChar(s[0])] + ToUpper(s[1..])
  }

  /** Lower-casing a string that has no upper-case letter changes nothing. */
  lemma ToLowerFixed(s: string)
    requires forall i :: 0 <= i < |s| ==> !('A' <= s[i] <= 'Z')
    ensures ToLower(s) == s
  {
  }

  function DigitChar(d: nat): (c: char)
    requires d < 10
    ensures IsDigit(c)
  {
    ('0' as int + d) as char
  }

  function DigitValue(c: char): nat
    requires IsDigit(c)
  {
    c as int - '0' as int
  }

  /** Decimal text of a natural number, as PHP's `%d` and string conversion print it. */
  function NatToString(n: nat): (r: string)
    ensures |r| >= 1 && AllDigits(r)
    ensures n >= 10 ==> r[0] != '0'
  {
    if n < 10 then [DigitChar(n)] else NatToString(n / 10) + [DigitChar(n % 10)]
  }

  function IntToString(n: int): string
  {
    if n < 0 then "-" + NatToString(-n) else NatToString(n)
  }

  /** The value of a string of decimal digits ("" reads as 0). */
  function DigitsValue(s: string): nat
    requires AllDigits(s)
  {
    if s == [] then 0 else DigitsValue(s[..|s| - 1]) * 10 + DigitValue(s[|s| - 1])
  }

  /** Reading back the decimal text of n gives n. */
  lemma {:induction false} NatToStringRoundTrip(n: nat)
    ensures DigitsValue(NatToString(n)) == n
  {
    var r := NatToString(n);
    if n >= 10 {
      NatToStringRoundTrip(n / 10);
      assert r[..|r| - 1] == NatToString(n / 10);
    }
  }

  /** PHP's `implode(sep, parts)`. */
  function Join(sep: string, parts: seq<string>): string
  {
    if |parts| == 0 then ""
    else if |parts| == 1 then parts[0]
    else Join(sep, parts[..|parts| - 1]) + sep + parts[|parts| - 1]
  }

  predicate EndsWith(s: string, suffix: string)
  {
    |suffix| <= |s| && s[|s| - |suffix|..] == suffix
  }

  predicate StartsWith(s: string, prefix: string)
  {
    |prefix| <= |s| && s[..|prefix|] == prefix
  }

  /** The length of the run of decimal digits at the start of s. */
  function LeadingDigits(s: string): (k: nat)
    ensures k <= |s| && AllDigits(s[..k])
    ensures k < |s| ==> !IsDigit(s[k])
  {
    if s == [] || !IsDigit(s[0]) then 0
    else
      var k := 1 + LeadingDigits(s[1..]);
      assert s[..k] == [s[0]] + s[1..][..k - 1];
      k
  }

  /** The length of the run of decimal digits at the end of s. */
  function TrailingCount(s: string): (k: nat)
    ensures k <= |s|
    ensures forall i :: |s| - k <= i < |s| ==> IsDigit(s[i])
    ensures k < |s| ==> !IsDigit(s[|s| - k - 1])
  {
    if s == [] || !IsDigit(s[|s| - 1]) then 0 else 1 + TrailingCount(s[..|s| - 1])
  }

  /** The run of decimal digits at the end of s. */
  function TrailingDigits(s: string): (r: string)
    ensures AllDigits(r) && EndsWith(s, r)
    ensures |r| < |s| ==> !IsDigit(s[|s| - |r| - 1])
  {
    s[|s| - TrailingCount(s)..]
  }

  lemma {:induction false} TrailingCountAfter(x: string, d: string)
    requires AllDigits(d)
    requires x != [] && !IsDigit(x[|x| - 1])
    ensures TrailingCount(x + d) == |d|
    decreases |d|
  {
    if d == [] {
      assert x + d == x;
    } else {
      assert (x + d)[..|x + d| - 1] == x + d[..|d| - 1];
      TrailingCountAfter(x, d[..|d| - 1]);
    }
  }

  /** A digit run that follows a non-digit at the end of a string is its trailing digit run. */
  lemma TrailingDigitsAfter(x: string, d: string)
    requires AllDigits(d)
    requires x != [] && !IsDigit(x[|x| - 1])
    ensures TrailingDigits(x + d) == d
  {
    TrailingCountAfter(x, d);
    assert (x + d)[|x|..] == d;
  }

  /** A string ending in s + d, where s ends in `suffix`, ends in suffix + d. */
  lemma EndsWithThen(s: string, suffix: string, d: string)
    requires EndsWith(s, suffix)
    ensures EndsWith(s + d, suffix + d)
  {
    assert (s + d)[|s + d| - |suffix + d|..] == s[|s| - |suffix|..] + d;
  }

  /** A string that starts with p still starts with p after anything is appended. */
  lemma StartsWithThen(s: string, d: string, p: string)
    requires StartsWith(s, p)
    ensures StartsWith(s + d, p)
  {
    assert (s + d)[..|p|] == s[..|p|];
  }

  lemma EndsWithConcat(s: string, d: string)
    ensures EndsWith(s + d, d)
  {
    assert (s + d)[|s + d| - |d|..] == d;
  }

  predicate IsSpace(c: char)
  {
    c == ' ' || c == '\t' || c == '\n' || c == '\r' || c == '\U{000B}' || c == '\U{000C}'
  }

  /** The number of white-space characters at the start of s. */
  function LeadingSpaces(s: string): (k: nat)
    ensures k <= |s|
    ensures forall i :: 0 <= i < k ==> IsSpace(s[i])
    ensures k < |s| ==> !IsSpace(s[k])
  {
    if s == [] || !IsSpace(s[0]) then 0 else 1 + LeadingSpaces(s[1..])
  }

  /**
   * PHP's `intval` of a string: leading white space is skipped, then an
   * optional sign and the longest run of digits are read; anything else
   * reads as 0.
   */
  function IntVal(s: string): (r: int)
    ensures AllDigits(s) ==> r == DigitsValue(s)
    ensures s == [] ==> r == 0
  {
    var t := s[LeadingSpaces(s)..];
    var signed := t != [] && (t[0] == '-' || t[0] == '+');
    var u := if signed then t[1..] else t;
    var n: int := DigitsValue(u[..LeadingDigits(u)]);
    assert AllDigits(s) ==> LeadingSpaces(s) == 0 && t == s && u == s && u[..LeadingDigits(u)] == s by {
      if AllDigits(s) && s != [] {
        assert !IsSpace(s[0]);
      }
    }
    if signed && t[0] == '-' then -n else n
  }

  /** `str_replace(' ', '', s)`. */
  function RemoveSpaces(s: string): (r: string)
    ensures forall i :: 0 <= i < |r| ==> r[i] != ' '
    ensures |r| <= |s|
  {
    if s == [] then [] else (if s[0] == ' ' then [] else [s[0]]) + RemoveSpaces(s[1..])
  }

  /** Removing spaces distributes over concatenation. */
  lemma {:induction false} RemoveSpacesConcat(a: string, b: string)
    ensures RemoveSpaces(a + b) == RemoveSpaces(a) + RemoveSpaces(b)
  {
    if a != [] {
      var h := if a[0] == ' ' then [] else [a[0]];
      assert (a + b)[0] == a[0] && (a + b)[1..] == a[1..] + b;
      assert RemoveSpaces(a + b) == h + RemoveSpaces(a[1..] + b);
      RemoveSpacesConcat(a[1..], b);
    } else {
      assert a + b == b;
    }
  }

  /** A string without spaces is left as it is. */
  lemma {:induction false} RemoveSpacesNoSpace(s: string)
    requires forall i :: 0 <= i < |s| ==> s[i] != ' '
    ensures RemoveSpaces(s) == s
  {
    if s != [] {
      RemoveSpacesNoSpace(s[1..]);
    }
  }

  /** Regrouping a concatenation of four strings. */
  lemma Regroup4(a: string, b: string, c: string, d: string)
    ensures a + b + c + d == a + (b + c + d)
  {
  }

  /** Regrouping a concatenation of three strings. */
  lemma Regroup3(a: string, b: string, c: string)
    ensures a + b + c == a + (b + c)
  {
  }
}

=== FILE: query_filters.dfy ===
/**
 * The SQL WHERE-fragment builder of WPSC_Functions: `parse_user_filters`
 * walks a filter tree (a relation plus clauses and nested groups) and
 * renders it as text; `sanitize_sql_key` guards every column name that
 * reaches the text; `parse_order` renders the ORDER BY part.
 */
module QueryFilters {
  import opened Wrappers
  import opened PhpText

  /**
   * A PHP value stored under 'slug', 'compare' or 'val' of a clause.
   * A key that is not set reads exactly like a null value, so both are VNull.
   */
  datatype Val = VNull | VFalse | VStr(s: string) | VList(items: seq<string>)

  /**
   * One element of a filter array: something that is not an array, a group
   * (an array, with its 'relation' key if set, and its other elements in
   * order) or a clause (an array with slug / compare / val keys).
   */
  datatype Item =
    | NotArray
    | Group(relation: Option<string>, entries: seq<Item>)
    | Clause(slug: Val, compare: Val, val: Val)

  /** `esc_sql` and `$wpdb->esc_like`, which the model treats as opaque. */
  datatype Escapers = Escapers(sql: string -> string, like: string -> string)

  /** The model class's schema: for each column, its 'has_multiple_val' flag. */
  type Schema = map<string, bool>

  /** What one element contributes: it spoils its group, adds nothing, or adds a fragment. */
  datatype Outcome = Invalid | Skip | Fragment(text: string)

  predicate HasMultipleVal(schema: Schema, slug: string)
  {
    slug in schema && schema[slug]
  }

  /** PHP's boolean reading of a value. */
  predicate ValTruthy(v: Val)
  {
    match v
    case VNull => false
    case VFalse => false
    case VStr(s) => Truthy(s)
    case VList(xs) => |xs| > 0
  }

  // ---------------------------------------------------------------------
  // sanitize_sql_key

  predicate IsKeyChar(c: char)
  {
    IsLowerLetter(c) || IsDigit(c) || c == '_'
  }

  /** `[a-z0-9_]+` covering the whole string. */
  predicate KeyTail(s: string)
  {
    |s| >= 1 && forall i :: 0 <= i < |s| ==> IsKeyChar(s[i])
  }

  /** `([a-z]{1,2}\.)?[a-z0-9_]+` covering the whole string. */
  predicate KeyShape(s: string)
  {
    || KeyTail(s)
    || (|s| >= 2 && IsLowerLetter(s[0]) && s[1] == '.' && KeyTail(s[2..]))
    || (|s| >= 3 && IsLowerLetter(s[0]) && IsLowerLetter(s[1]) && s[2] == '.' && KeyTail(s[3..]))
  }

  /**
   * The pattern `/^([a-z]{1,2}\.)?[a-z0-9_]+$/` as PCRE runs it: without the
   * D modifier, `$` also matches just before one final newline.
   */
  predicate KeyPatternAsWritten(s: string)
  {
    KeyShape(s) || (|s| >= 1 && s[|s| - 1] == '\n' && KeyShape(s[..|s| - 1]))
  }

  /** `sanitize_sql_key` exactly as written, trailing-newline match included. */
  function SanitizeSqlKeyAsWritten(key: Val): (r: string)
    ensures r != "" ==> key.VStr? && r == ToLower(key.s)
  {
    match key
    case VStr(s) => if KeyPatternAsWritten(ToLower(s)) then ToLower(s) else ""
    case _ => ""
  }

  /** A key that ends in a newline passes the written pattern and keeps its newline. */
  lemma SanitizeSqlKeyAcceptsNewline()
    ensures SanitizeSqlKeyAsWritten(VStr("id\n")) == "id\n"
  {
    assert ToLower("id\n") == "id\n";
    assert KeyShape(ToLower("id\n")[..2]);
  }

  /**
   * `sanitize_sql_key` with the pattern anchored at the true end of the
   * string: the lower-cased key when it has the column shape, else "".
   */
  function SanitizeSqlKey(key: Val): (r: string)
    ensures r != "" <==> key.VStr? && KeyShape(ToLower(key.s))
    ensures r != "" ==> r == ToLower(key.s)
    ensures forall i :: 0 <= i < |r| ==> IsKeyChar(r[i]) || r[i] == '.'
  {
    match key
    case VStr(s) => if KeyShape(ToLower(s)) then ToLower(s) else ""
    case _ => ""
  }

  /** The corrected sanitizer never lets a newline (or any other control character) through. */
  lemma SanitizeSqlKeyRejectsNewline(s: string)
    requires |s| >= 1 && s[|s| - 1] == '\n'
    ensures SanitizeSqlKey(VStr(s)) == ""
  {
  }

  /** Sanitizing a sanitized key gives it back unchanged. */
  lemma SanitizeSqlKeyIdempotent(key: Val)
    ensures SanitizeSqlKey(VStr(SanitizeSqlKey(key))) == SanitizeSqlKey(key)
  {
    var r := SanitizeSqlKey(key);
    if r != "" {
      ToLowerFixed(r);
    }
  }

  // ---------------------------------------------------------------------
  // Clause rendering

  /** `esc_sql($val)` placed inside a string: arrays print as "Array". */
  function ScalarSql(esc: Escapers, v: Val): string
  {
    match v
    case VStr(s) => esc.sql(s)
    case VList(_) => "Array"
    case _ => esc.sql("")
  }

  /** `$val` itself converted to a string (the raw custom_query text). */
  function RawText(v: Val): string
  {
    match v
    case VStr(s) => s
    case VList(_) => "Array"
    case _ => ""
  }

  /** `$val[i]`: an array element, or one character of a string; missing reads as "". */
  function Element(v: Val, i: nat): string
  {
    match v
    case VList(xs) => if i < |xs| then xs[i] else ""
    case VStr(s) => if i < |s| then [s[i]] else ""
    case _ => ""
  }

  /** The values a `foreach ($val ...)` visits. */
  function ListItems(v: Val): seq<string>
  {
    if v.VList? then v.items else []
  }

  /** The argument handed to `esc_like`. */
  function LikeInput(v: Val): string
  {
    if v.VStr? then v.s else ""
  }

  predicate IsScalarCompare(c: string)
  {
    c == "<" || c == "=" || c == ">" || c == "<=" || c == ">="
  }

  /** One `(NOT) RLIKE '(^|[|])v($|[|])'` test on a pipe-separated column. */
  function RlikeTerm(esc: Escapers, slug: string, negate: bool, m: string): string
  {
    slug + (if negate then " NOT RLIKE " else " RLIKE ") + "'(^|[|])" + esc.sql(m) + "($|[|])'"
  }

  function RlikeTerms(esc: Escapers, slug: string, negate: bool, ms: seq<string>): (r: seq<string>)
    ensures |r| == |ms|
    ensures forall i :: 0 <= i < |ms| ==> r[i] == RlikeTerm(esc, slug, negate, ms[i])
  {
    if ms == [] then [] else RlikeTerms(esc, slug, negate, ms[..|ms| - 1]) + [RlikeTerm(esc, slug, negate, ms[|ms| - 1])]
  }

  function EscapedList(esc: Escapers, ms: seq<string>): (r: seq<string>)
    ensures |r| == |ms|
    ensures forall i :: 0 <= i < |ms| ==> r[i] == esc.sql(ms[i])
  {
    if ms == [] then [] else EscapedList(esc, ms[..|ms| - 1]) + [esc.sql(ms[|ms| - 1])]
  }

  /**
   * Which program the walk follows: the source as written (the key sanitizer
   * whose `$` matches before a final newline, and the NOT RLIKE tests of a
   * multi-valued column joined by OR) or the corrected one (the key anchored
   * at the true end, the NOT RLIKE tests joined by AND).
   */
  datatype Build = AsWritten | Corrected

  /** The key sanitizer the walk calls. */
  function SanitizeFor(b: Build, key: Val): string
  {
    match b
    case AsWritten => SanitizeSqlKeyAsWritten(key)
    case Corrected => SanitizeSqlKey(key)
  }

  /**
   * A parenthesised run of tests `slug (NOT) RLIKE '(^|[|])v($|[|])'`, one
   * per value, joined by AND when `conj` holds and by OR otherwise.
   */
  datatype RlikeGroup = RlikeGroup(conj: bool, negate: bool, vals: seq<string>)

  function RenderRlike(esc: Escapers, slug: string, g: RlikeGroup): string
  {
    "( " + Join(if g.conj then " AND " else " OR ", RlikeTerms(esc, slug, g.negate, g.vals)) + " )"
  }

  /** The run an IN (`negate` false) or NOT IN (`negate` true) clause renders on a multi-valued column. */
  function MultiGroup(b: Build, negate: bool, vals: seq<string>): RlikeGroup
  {
    RlikeGroup(negate && b == Corrected, negate, vals)
  }

  /** The fragment for one clause of `parse_user_filters`. */
  function ClauseFragment(b: Build, schema: Schema, esc: Escapers, slugV: Val, compareV: Val, val: Val): (o: Outcome)
    ensures o.Invalid? <==> !Truthy(SanitizeFor(b, slugV)) || !ValTruthy(compareV) || val == VFalse
  {
    var slug := SanitizeFor(b, slugV);
    if !Truthy(slug) || !ValTruthy(compareV) || val == VFalse then Invalid
    else if slug == "custom_query" then Fragment(RawText(val))
    else if !compareV.VStr? then Skip
    else
      var c := compareV.s;
      var multi := HasMultipleVal(schema, slug);
      if IsScalarCompare(c) then
        Fragment(if multi then "1=1" else slug + " " + c + " '" + ScalarSql(esc, val) + "'")
      else if c == "BETWEEN" then
        Fragment(slug + " BETWEEN '" + esc.sql(Element(val, 0)) + "' AND '" + esc.sql(Element(val, 1)) + "'")
      else if c == "IN" then
        Fragment(if multi then RenderRlike(esc, slug, MultiGroup(b, false, ListItems(val)))
                 else slug + " IN ( '" + Join("', '", EscapedList(esc, ListItems(val))) + "' )")
      else if c == "NOT IN" then
        Fragment(if multi then RenderRlike(esc, slug, MultiGroup(b, true, ListItems(val)))
                 else slug + " NOT IN ( '" + Join("', '", EscapedList(esc, ListItems(val))) + "' )")
      else if c == "IS" then Fragment(slug + " IS NULL")
      else if c == "IS NOT" then Fragment(slug + " IS NOT NULL")
      else if c == "LIKE" then Fragment(slug + " LIKE '%" + esc.sql(esc.like(LikeInput(val))) + "%'")
      else Skip
  }

  // ---------------------------------------------------------------------
  // What a run of RLIKE tests selects

  /**
   * What `stored RLIKE '(^|[|])v($|[|])'` means for a literal v: v is one
   * of the '|'-separated parts of the stored column value.
   */
  predicate PipeMember(stored: string, v: string)
  {
    exists i, j :: 0 <= i <= j <= |stored| && stored[i..j] == v
      && (i == 0 || stored[i - 1] == '|') && (j == |stored| || stored[j] == '|')
  }

  /** Whether the test on v selects a row whose column holds `stored`. */
  predicate TermHolds(stored: string, negate: bool, v: string)
  {
    PipeMember(stored, v) != negate
  }

  /** Whether a rendered run of tests selects a row whose column holds `stored`. */
  predicate RlikeHolds(stored: string, g: RlikeGroup)
  {
    if g.conj then forall k :: 0 <= k < |g.vals| ==> TermHolds(stored, g.negate, g.vals[k])
    else exists k :: 0 <= k < |g.vals| && TermHolds(stored, g.negate, g.vals[k])
  }

  /**
   * The corrected NOT IN fragment on a multi-valued column selects exactly
   * the rows that the IN fragment with the same values rejects: those that
   * hold none of the values.
   */
  lemma NotInIsComplementOfIn(schema: Schema, esc: Escapers, slugV: Val, val: Val, stored: string)
    requires Truthy(SanitizeSqlKey(slugV)) && val != VFalse
    requires SanitizeSqlKey(slugV) != "custom_query" && HasMultipleVal(schema, SanitizeSqlKey(slugV))
    ensures var slug := SanitizeSqlKey(slugV);
      var vals := ListItems(val);
      && ClauseFragment(Corrected, schema, esc, slugV, VStr("IN"), val)
         == Fragment(RenderRlike(esc, slug, MultiGroup(Corrected, false, vals)))
      && ClauseFragment(Corrected, schema, esc, slugV, VStr("NOT IN"), val)
         == Fragment(RenderRlike(esc, slug, MultiGroup(Corrected, true, vals)))
      && (RlikeHolds(stored, MultiGroup(Corrected, true, vals)) <==> !RlikeHolds(stored, MultiGroup(Corrected, false, vals)))
      && (RlikeHolds(stored, MultiGroup(Corrected, true, vals)) <==> forall k :: 0 <= k < |vals| ==> !PipeMember(stored, vals[k]))
  {
    MultiValueClause(Corrected, schema, esc, slugV, "IN", val);
    MultiValueClause(Corrected, schema, esc, slugV, "NOT IN", val);
  }

  /**
   * As written, NOT IN on a multi-valued column selects every row that lacks
   * one of the listed values, even when the row holds another of them; the
   * corrected fragment refuses such a row.
   */
  lemma NotInAsWrittenAdmitsHeldValue(schema: Schema, esc: Escapers, slugV: Val, val: Val, stored: string, k: nat, j: nat)
    requires Truthy(SanitizeSqlKeyAsWritten(slugV)) && val != VFalse
    requires SanitizeSqlKeyAsWritten(slugV) != "custom_query" && HasMultipleVal(schema, SanitizeSqlKeyAsWritten(slugV))
    requires k < |ListItems(val)| && j < |ListItems(val)|
    requires PipeMember(stored, ListItems(val)[k]) && !PipeMember(stored, ListItems(val)[j])
    ensures ClauseFragment(AsWritten, schema, esc, slugV, VStr("NOT IN"), val)
         == Fragment(RenderRlike(esc, SanitizeSqlKeyAsWritten(slugV), MultiGroup(AsWritten, true, ListItems(val))))
    ensures RlikeHolds(stored, MultiGroup(AsWritten, true, ListItems(val)))
    ensures !RlikeHolds(stored, MultiGroup(Corrected, true, ListItems(val)))
  {
    MultiListClause(AsWritten, schema, esc, slugV, true, val);
  }

  /** No part of the stored value "1" is "2". */
  lemma OneLacksTwo()
    ensures !PipeMember("1", "2")
  {
    forall i, j | 0 <= i <= j <= 1
      ensures "1"[i..j] != "2"
    {
      if j - i == 1 {
        assert "1"[i..j][0] == '1';
      }
    }
  }

  // ---------------------------------------------------------------------
  // parse_user_filters

  /** What one element of a group contributes. */
  function EntryOutcome(b: Build, schema: Schema, esc: Escapers, e: Item): (o: Outcome)
    ensures o.Invalid? <==>
      (|| e.NotArray?
       || (e.Group? && e.relation.None?)
       || (e.Clause? && (!Truthy(SanitizeFor(b, e.slug)) || !ValTruthy(e.compare) || e.val == VFalse)))
    decreases e, 2, 0
  {
    match e
    case NotArray => Invalid
    case Group(rel, _) => if rel.Some? then Fragment(FilterSql(b, schema, esc, e)) else Invalid
    case Clause(slug, compare, val) => ClauseFragment(b, schema, esc, slug, compare, val)
  }

  /** The fragments of the first n elements of a group, or None once one of them is invalid. */
  function FragmentsUpTo(b: Build, schema: Schema, esc: Escapers, f: Item, n: nat): Option<seq<string>>
    requires f.Group? && n <= |f.entries|
    decreases f, 0, n
  {
    if n == 0 then Some([])
    else
      match FragmentsUpTo(b, schema, esc, f, n - 1)
      case None => None
      case Some(frags) =>
        match EntryOutcome(b, schema, esc, f.entries[n - 1])
        case Invalid => None
        case Skip => Some(frags)
        case Fragment(t) => Some(frags + [t])
  }

  /** Joining a group's fragments: one stands alone, several are parenthesised, none gives PHP's null (""). */
  function Combine(relation: string, frags: seq<string>): string
  {
    if |frags| > 1 then "( " + Join(" " + relation + " ", frags) + " )"
    else if |frags| == 1 then frags[0]
    else ""
  }

  /** The text `parse_user_filters` returns for a filter tree, in the program `b`. */
  function FilterSql(b: Build, schema: Schema, esc: Escapers, f: Item): (r: string)
    ensures !(f.Group? && f.relation.Some? && |f.entries| >= 1) ==> r == "1=1"
    decreases f, 1, 0
  {
    if f.Group? && f.relation.Some? && |f.entries| >= 1 then
      match FragmentsUpTo(b, schema, esc, f, |f.entries|)
      case None => "1=1"
      case Some(frags) => Combine(f.relation.value, frags)
    else "1=1"
  }

  lemma {:induction false} InvalidPropagates(b: Build, schema: Schema, esc: Escapers, f: Item, k: nat, n: nat)
    requires f.Group? && k <= n <= |f.entries|
    requires FragmentsUpTo(b, schema, esc, f, k) == None
    ensures FragmentsUpTo(b, schema, esc, f, n) == None
    decreases n - k
  {
    if k < n {
      assert FragmentsUpTo(b, schema, esc, f, k + 1) == None;
      InvalidPropagates(b, schema, esc, f, k + 1, n);
    }
  }

  /**
   * One invalid element (not an array, an array without relation or slug,
   * a clause whose slug sanitises to a false value, whose compare is empty
   * or whose val is false) makes its whole group render as '1=1'.
   */
  lemma InvalidEntryGivesTautology(b: Build, schema: Schema, esc: Escapers, f: Item, k: nat)
    requires f.Group? && f.relation.Some? && k < |f.entries|
    requires EntryOutcome(b, schema, esc, f.entries[k]).Invalid?
    ensures FilterSql(b, schema, esc, f) == "1=1"
  {
    assert FragmentsUpTo(b, schema, esc, f, k + 1) == None;
    InvalidPropagates(b, schema, esc, f, k + 1, |f.entries|);
  }

  /** In the corrected program, a clause whose slug ends in a newline makes its whole group render as '1=1'. */
  lemma NewlineKeySpoilsGroup(schema: Schema, esc: Escapers, f: Item, k: nat, s: string)
    requires f.Group? && f.relation.Some? && k < |f.entries|
    requires f.entries[k].Clause? && f.entries[k].slug == VStr(s) && |s| >= 1 && s[|s| - 1] == '\n'
    ensures FilterSql(Corrected, schema, esc, f) == "1=1"
  {
    SanitizeSqlKeyRejectsNewline(s);
    InvalidEntryGivesTautology(Corrected, schema, esc, f, k);
  }

  /** A clause with a usable slug and compare is never rejected for a missing or null val. */
  lemma NullValAccepted(b: Build, schema: Schema, esc: Escapers, slug: Val, compare: Val)
    requires Truthy(SanitizeFor(b, slug)) && ValTruthy(compare)
    ensures !ClauseFragment(b, schema, esc, slug, compare, VNull).Invalid?
  {
  }

  /** The texts of all elements of a group whose elements each contribute a fragment. */
  function EntryTexts(b: Build, schema: Schema, esc: Escapers, entries: seq<Item>): (r: seq<string>)
    requires forall k :: 0 <= k < |entries| ==> EntryOutcome(b, schema, esc, entries[k]).Fragment?
    ensures |r| == |entries|
    ensures forall k :: 0 <= k < |entries| ==> r[k] == EntryOutcome(b, schema, esc, entries[k]).text
  {
    if entries == [] then []
    else EntryTexts(b, schema, esc, entries[..|entries| - 1]) + [EntryOutcome(b, schema, esc, entries[|entries| - 1]).text]
  }

  lemma {:induction false} FragmentsOfValidPrefix(b: Build, schema: Schema, esc: Escapers, f: Item, n: nat)
    requires f.Group? && n <= |f.entries|
    requires forall k :: 0 <= k < |f.entries| ==> EntryOutcome(b, schema, esc, f.entries[k]).Fragment?
    ensures FragmentsUpTo(b, schema, esc, f, n) == Some(EntryTexts(b, schema, esc, f.entries[..n]))
  {
    if n > 0 {
      FragmentsOfValidPrefix(b, schema, esc, f, n - 1);
      assert f.entries[..n][..n - 1] == f.entries[..n - 1];
    }
  }

  /**
   * When every element contributes a fragment, a group renders as its single
   * fragment, or as all fragments joined by " RELATION " inside "( ... )";
   * nested groups contribute their own rendering.
   */
  lemma ValidGroupJoined(b: Build, schema: Schema, esc: Escapers, f: Item)
    requires f.Group? && f.relation.Some? && |f.entries| >= 1
    requires forall k :: 0 <= k < |f.entries| ==> EntryOutcome(b, schema, esc, f.entries[k]).Fragment?
    ensures var texts := EntryTexts(b, schema, esc, f.entries);
      && (|f.entries| == 1 ==> FilterSql(b, schema, esc, f) == texts[0])
      && (|f.entries| > 1 ==> FilterSql(b, schema, esc, f) == "( " + Join(" " + f.relation.value + " ", texts) + " )")
      && (forall k :: 0 <= k < |f.entries| && f.entries[k].Group? ==> texts[k] == FilterSql(b, schema, esc, f.entries[k]))
  {
    FragmentsOfValidPrefix(b, schema, esc, f, |f.entries|);
    assert f.entries[..|f.entries|] == f.entries;
  }

  /**
   * On a multi-valued column a scalar comparison collapses to '1=1', IN
   * becomes an OR of RLIKE tests, one per value, and NOT IN the same tests
   * negated, joined by OR as written and by AND in the corrected program.
   */
  lemma MultiValueClause(b: Build, schema: Schema, esc: Escapers, slugV: Val, c: string, val: Val)
    requires Truthy(SanitizeFor(b, slugV)) && Truthy(c) && val != VFalse
    requires SanitizeFor(b, slugV) != "custom_query"
    requires HasMultipleVal(schema, SanitizeFor(b, slugV))
    ensures var slug := SanitizeFor(b, slugV);
      && (IsScalarCompare(c) ==> ClauseFragment(b, schema, esc, slugV, VStr(c), val) == Fragment("1=1"))
      && (c == "IN" ==>
            ClauseFragment(b, schema, esc, slugV, VStr(c), val)
            == Fragment("( " + Join(" OR ", RlikeTerms(esc, slug, false, ListItems(val))) + " )"))
      && (c == "NOT IN" ==>
            ClauseFragment(b, schema, esc, slugV, VStr(c), val)
            == Fragment("( " + Join(if b == AsWritten then " OR " else " AND ", RlikeTerms(esc, slug, true, ListItems(val))) + " )"))
  {
    if c == "IN" || c == "NOT IN" {
      MultiListClause(b, schema, esc, slugV, c == "NOT IN", val);
    }
  }

  /** The IN or NOT IN clause on a multi-valued column renders its run of RLIKE tests. */
  lemma MultiListClause(b: Build, schema: Schema, esc: Escapers, slugV: Val, negate: bool, val: Val)
    requires Truthy(SanitizeFor(b, slugV)) && val != VFalse
    requires SanitizeFor(b, slugV) != "custom_query"
    requires HasMultipleVal(schema, SanitizeFor(b, slugV))
    ensures ClauseFragment(b, schema, esc, slugV, VStr(if negate then "NOT IN" else "IN"), val)
         == Fragment(RenderRlike(esc, SanitizeFor(b, slugV), MultiGroup(b, negate, ListItems(val))))
  {
  }

  /**
   * As written, the filter `NOT IN ['1', '2']` on a multi-valued column
   * renders as an OR of NOT RLIKE tests, and a row whose column holds '1'
   * passes it; the corrected program refuses that row.
   */
  lemma NotInAsWrittenAdmitsExcludedRow(esc: Escapers)
    ensures FilterSql(AsWritten, map["tags" := true], esc,
                      Group(Some("AND"), [Clause(VStr("tags"), VStr("NOT IN"), VList(["1", "2"]))]))
         == "( " + RlikeTerm(esc, "tags", true, "1") + " OR " + RlikeTerm(esc, "tags", true, "2") + " )"
    ensures RlikeHolds("1", MultiGroup(AsWritten, true, ["1", "2"]))
    ensures !RlikeHolds("1", MultiGroup(Corrected, true, ["1", "2"]))
  {
    var f := Group(Some("AND"), [Clause(VStr("tags"), VStr("NOT IN"), VList(["1", "2"]))]);
    TagsNotInAsWritten(esc);
    ValidGroupJoined(AsWritten, map["tags" := true], esc, f);
    RowOneAgainstOneTwo();
  }

  /** The as-written fragment of NOT IN ['1', '2'] on the multi-valued column "tags". */
  lemma TagsNotInAsWritten(esc: Escapers)
    ensures ClauseFragment(AsWritten, map["tags" := true], esc, VStr("tags"), VStr("NOT IN"), VList(["1", "2"]))
         == Fragment("( " + RlikeTerm(esc, "tags", true, "1") + " OR " + RlikeTerm(esc, "tags", true, "2") + " )")
  {
    TagsKeyAsWritten();
    MultiValueClause(AsWritten, map["tags" := true], esc, VStr("tags"), "NOT IN", VList(["1", "2"]));
    var terms := RlikeTerms(esc, "tags", true, ["1", "2"]);
    assert terms == [RlikeTerm(esc, "tags", true, "1"), RlikeTerm(esc, "tags", true, "2")];
    assert Join(" OR ", terms) == Join(" OR ", terms[..1]) + " OR " + terms[1];
  }

  lemma TagsKeyAsWritten()
    ensures SanitizeFor(AsWritten, VStr("tags")) == "tags"
  {
    ToLowerFixed("tags");
    assert KeyTail("tags");
  }

  /** The stored value "1" holds '1' and lacks '2'. */
  lemma RowOneAgainstOneTwo()
    ensures PipeMember("1", ["1", "2"][0]) && !PipeMember("1", ["1", "2"][1])
  {
    assert "1"[0..1] == "1";
    OneLacksTwo();
  }

  /**
   * As written, a key ending in a newline reaches the SQL text with its
   * newline; the corrected program renders the group as '1=1'.
   */
  lemma NewlineKeyReachesSql(schema: Schema, esc: Escapers)
    ensures FilterSql(AsWritten, schema, esc, Group(Some("AND"), [Clause(VStr("id\n"), VStr("IS"), VNull)]))
         == "id\n IS NULL"
    ensures FilterSql(Corrected, schema, esc, Group(Some("AND"), [Clause(VStr("id\n"), VStr("IS"), VNull)]))
         == "1=1"
  {
    var f := Group(Some("AND"), [Clause(VStr("id\n"), VStr("IS"), VNull)]);
    SanitizeSqlKeyAcceptsNewline();
    ValidGroupJoined(AsWritten, schema, esc, f);
    NewlineKeySpoilsGroup(schema, esc, f, 0, "id\n");
  }

  /** The loop of `parse_user_filters` that collects one (NOT) RLIKE test per value. */
  method RlikeList(esc: Escapers, slug: string, negate: bool, matches: seq<string>) returns (rlike: seq<string>)
    ensures rlike == RlikeTerms(esc, slug, negate, matches)
  {
    rlike := [];
    var i := 0;
    while i < |matches|
      invariant 0 <= i <= |matches|
      invariant rlike == RlikeTerms(esc, slug, negate, matches[..i])
    {
      assert matches[..i + 1][..i] == matches[..i];
      rlike := rlike + [RlikeTerm(esc, slug, negate, matches[i])];
      i := i + 1;
    }
    assert matches[..i] == matches;
  }

  /**
   * The IN (`negate` false) or NOT IN (`negate` true) case on a multi-valued
   * column: the collected tests joined by OR, or for NOT IN in the corrected
   * program by AND, inside parentheses.
   */
  method RlikeRun(b: Build, esc: Escapers, slug: string, negate: bool, matches: seq<string>) returns (text: string)
    ensures text == RenderRlike(esc, slug, MultiGroup(b, negate, matches))
  {
    var rlike := RlikeList(esc, slug, negate, matches);
    var glue := if negate && b == Corrected then " AND " else " OR ";
    text := "( " + Join(glue, rlike) + " )";
  }

  /** One more element either adds its fragment, adds nothing, or spoils the group. */
  lemma FragmentsStep(b: Build, schema: Schema, esc: Escapers, f: Item, k: nat, frags: seq<string>)
    requires f.Group? && k < |f.entries|
    requires FragmentsUpTo(b, schema, esc, f, k) == Some(frags)
    ensures var o := EntryOutcome(b, schema, esc, f.entries[k]);
      FragmentsUpTo(b, schema, esc, f, k + 1)
      == (if o.Invalid? then None else if o.Skip? then Some(frags) else Some(frags + [o.text]))
  {
  }

  /** What a nested group or a clause contributes, without unfolding the clause's rendering. */
  lemma EntryOutcomeOf(b: Build, schema: Schema, esc: Escapers, e: Item)
    requires e.Clause? || (e.Group? && e.relation.Some?)
    ensures e.Group? ==> EntryOutcome(b, schema, esc, e) == Fragment(FilterSql(b, schema, esc, e))
    ensures e.Clause? ==> EntryOutcome(b, schema, esc, e) == ClauseFragment(b, schema, esc, e.slug, e.compare, e.val)
  {
  }

  /** `parse_user_filters` in the program `b`: walks the elements in order, recursing into nested groups. */
  method ParseUserFilters(b: Build, schema: Schema, esc: Escapers, filters: Item) returns (sql: string)
    ensures sql == FilterSql(b, schema, esc, filters)
    decreases filters
  {
    if !filters.Group? || filters.relation.None? || |filters.entries| < 1 {
      return "1=1";
    }
    var relation := filters.relation.value;
    var filterStr: seq<string> := [];
    var k := 0;
    while k < |filters.entries|
      invariant 0 <= k <= |filters.entries|
      invariant FragmentsUpTo(b, schema, esc, filters, k) == Some(filterStr)
    {
      var filter := filters.entries[k];
      if filter.NotArray? || (filter.Group? && filter.relation.None?) {
        InvalidEntryGivesTautology(b, schema, esc, filters, k);
        return "1=1";
      }
      var o: Outcome;
      if filter.Group? {
        var sub := ParseUserFilters(b, schema, esc, filter);
        o := Fragment(sub);
        EntryOutcomeOf(b, schema, esc, filter);
      } else {
        o := RenderClause(b, schema, esc, filter.slug, filter.compare, filter.val);
        EntryOutcomeOf(b, schema, esc, filter);
        if o.Invalid? {
          InvalidEntryGivesTautology(b, schema, esc, filters, k);
          return "1=1";
        }
      }
      FragmentsStep(b, schema, esc, filters, k, filterStr);
      if o.Fragment? {
        filterStr := filterStr + [o.text];
      }
      k := k + 1;
    }
    assert FragmentsUpTo(b, schema, esc, filters, |filters.entries|) == Some(filterStr);
    sql := Combine(relation, filterStr);
  }

  /**
   * The loop body of `parse_user_filters` for one clause: an unusable slug,
   * compare or val ends the walk (Invalid), an unknown compare adds nothing
   * (Skip), anything else adds one fragment.
   */
  method RenderClause(b: Build, schema: Schema, esc: Escapers, slugV: Val, compareV: Val, val: Val) returns (o: Outcome)
    ensures o == ClauseFragment(b, schema, esc, slugV, compareV, val)
  {
    var slug := SanitizeFor(b, slugV);
    if !Truthy(slug) || !ValTruthy(compareV) || val == VFalse {
      return Invalid;
    }
    if slug == "custom_query" {
      return Fragment(RawText(val));
    }
    if !compareV.VStr? {
      return Skip;
    }
    var compare := compareV.s;
    var multi := HasMultipleVal(schema, slug);
    if IsScalarCompare(compare) {
      if multi {
        o := Fragment("1=1");
      } else {
        o := Fragment(slug + " " + compare + " '" + ScalarSql(esc, val) + "'");
      }
    } else if compare == "BETWEEN" {
      o := Fragment(slug + " BETWEEN '" + esc.sql(Element(val, 0)) + "' AND '" + esc.sql(Element(val, 1)) + "'");
    } else if compare == "IN" {
      if multi {
        var text := RlikeRun(b, esc, slug, false, ListItems(val));
        o := Fragment(text);
      } else {
        o := Fragment(slug + " IN ( '" + Join("', '", EscapedList(esc, ListItems(val))) + "' )");
      }
    } else if compare == "NOT IN" {
      if multi {
        var text := RlikeRun(b, esc, slug, true, ListItems(val));
        o := Fragment(text);
      } else {
        o := Fragment(slug + " NOT IN ( '" + Join("', '", EscapedList(esc, ListItems(val))) + "' )");
      }
    } else if compare == "IS" {
      o := Fragment(slug + " IS NULL");
    } else if compare == "IS NOT" {
      o := Fragment(slug + " IS NOT NULL");
    } else if compare == "LIKE" {
      o := Fragment(slug + " LIKE '%" + esc.sql(esc.like(LikeInput(val))) + "%'");
    } else {
      o := Skip;
    }
  }

  // ---------------------------------------------------------------------
  // parse_order

  /** The sort direction `parse_order` uses: the given one when it is ASC or DESC, else ASC. */
  function OrderDirection(order: Option<string>): (r: string)
    ensures r == "ASC" || r == "DESC"
    ensures order.Some? && (order.value == "ASC" || order.value == "DESC") ==> r == order.value
  {
    if order.Some? && Truthy(order.value) && (order.value == "ASC" || order.value == "DESC") then order.value else "ASC"
  }

  /**
   * `parse_order`: "" without a usable orderby; otherwise ORDER BY the
   * column, cast to a signed number when the orderby_slug names a number
   * custom field (`numberFields`, the slugs whose field type is cf_number).
   */
  function ParseOrder(orderby: Option<string>, order: Option<string>, orderbySlug: Option<string>,
                      numberFields: set<string>): (r: string)
    ensures r == "" <==> !(orderby.Some? && Truthy(orderby.value))
    ensures r != "" ==> StartsWith(r, "ORDER BY ") && EndsWith(r, " " + OrderDirection(order) + " ")
    ensures r != "" ==> (StartsWith(r, CastPrefix(orderby.value)) <==>
      (orderbySlug.Some? && Truthy(orderbySlug.value) && orderbySlug.value in numberFields))
    ensures r != "" && !StartsWith(r, CastPrefix(orderby.value)) ==> StartsWith(r, "ORDER BY " + orderby.value + " ")
  {
    if !(orderby.Some? && Truthy(orderby.value)) then ""
    else
      var slug := if orderbySlug.Some? && Truthy(orderbySlug.value) then orderbySlug.value else "";
      var dir := OrderDirection(order);
      if slug in numberFields && slug != "" then
        CastOrderShape(orderby.value, dir);
        CastPrefix(orderby.value) + dir + " "
      else
        PlainOrderShape(orderby.value, dir);
        "ORDER BY " + orderby.value + " " + dir + " "
  }

  /** The start of an ORDER BY clause that sorts a column as a signed number. */
  function CastPrefix(column: string): string
  {
    "ORDER BY CAST(" + column + " AS SIGNED ) "
  }

  lemma CastOrderShape(column: string, dir: string)
    ensures StartsWith(CastPrefix(column) + dir + " ", CastPrefix(column))
    ensures StartsWith(CastPrefix(column) + dir + " ", "ORDER BY ")
    ensures EndsWith(CastPrefix(column) + dir + " ", " " + dir + " ")
  {
    var p := CastPrefix(column);
    assert StartsWith(p, p);
    StartsWithThen(p, dir, p);
    StartsWithThen(p + dir, " ", p);
    assert StartsWith("ORDER BY CAST(", "ORDER BY ");
    StartsWithThen("ORDER BY CAST(", column, "ORDER BY ");
    StartsWithThen("ORDER BY CAST(" + column, " AS SIGNED ) ", "ORDER BY ");
    StartsWithThen(p, dir, "ORDER BY ");
    StartsWithThen(p + dir, " ", "ORDER BY ");
    EndsWithConcat("ORDER BY CAST(" + column + " AS SIGNED )", " ");
    assert p == "ORDER BY CAST(" + column + " AS SIGNED )" + " ";
    EndsWithThen(p, " ", dir);
    EndsWithThen(p + dir, " " + dir, " ");
  }

  lemma PlainOrderShape(column: string, dir: string)
    requires dir == "ASC" || dir == "DESC"
    ensures !StartsWith("ORDER BY " + column + " " + dir + " ", CastPrefix(column))
    ensures StartsWith("ORDER BY " + column + " " + dir + " ", "ORDER BY " + column + " ")
    ensures StartsWith("ORDER BY " + column + " " + dir + " ", "ORDER BY ")
    ensures EndsWith("ORDER BY " + column + " " + dir + " ", " " + dir + " ")
  {
    assert StartsWith("ORDER BY ", "ORDER BY ");
    StartsWithThen("ORDER BY ", column, "ORDER BY ");
    StartsWithThen("ORDER BY " + column, " ", "ORDER BY ");
    StartsWithThen("ORDER BY " + column + " ", dir, "ORDER BY ");
    StartsWithThen("ORDER BY " + column + " " + dir, " ", "ORDER BY ");
    var head := "ORDER BY " + column + " ";
    assert StartsWith(head, head);
    StartsWithThen(head, dir, head);
    StartsWithThen(head + dir, " ", head);
    EndsWithConcat("ORDER BY " + column, " ");
    EndsWithThen("ORDER BY " + column + " ", " ", dir);
    EndsWithThen("ORDER BY " + column + " " + dir, " " + dir, " ");
  }
}

=== FILE: restrictions.dfy ===
/**
 * WPSC_Ticket_Restrictions_Manager: which actions an individual ticket
 * offers, depending on whether the ticket is active (not archived).
 *
 * An action array is a list of (slug, action) entries in display order;
 * `array_diff_key` keeps the entries whose slug is not restricted, in the
 * same order. The `wpsc_restricted_ticket_action` and `wpsc_allowed_*`
 * hooks are taken to return the value they are given.
 */
module TicketRestrictions {

  type Actions<V> = seq<(string, V)>

  /** `is_restricted`: every action on an inactive ticket is restricted; an active ticket gets the hook default, false. */
  function IsRestricted(isActive: bool, action: string): (r: bool)
    ensures r <==> !isActive
  {
    !isActive
  }

  /** `array_diff_key($actions, array_flip($restricted))`. */
  function DropKeys<V(!new)>(actions: Actions<V>, restricted: set<string>): (r: Actions<V>)
    ensures forall e :: e in r <==> e in actions && e.0 !in restricted
    ensures |r| <= |actions|
  {
    if actions == [] then []
    else
      var init := DropKeys(actions[..|actions| - 1], restricted);
      var last := actions[|actions| - 1];
      assert forall e :: e in actions <==> e in actions[..|actions| - 1] || e == last;
      if last.0 in restricted then init else init + [last]
  }

  function TicketActionsRestricted(isActive: bool): set<string>
  {
    if !isActive then {"refresh", "close", "duplicate", "copy", "archive", "delete"}
    else {"restore", "delete-permanently"}
  }

  function SubmitActionsRestricted(isActive: bool): set<string>
  {
    if !isActive then {"reply", "private-note", "reply-and-close"} else {}
  }

  function ThreadActionsRestricted(isActive: bool): set<string>
  {
    if !isActive then {"edit", "delete"} else {}
  }

  /** `individual_ticket_actions`. */
  function IndividualTicketActions<V(!new)>(actions: Actions<V>, isActive: bool): (r: Actions<V>)
    ensures !isActive ==> forall e :: e in r <==>
      (e in actions && e.0 !in {"refresh", "close", "duplicate", "copy", "archive", "delete"})
    ensures isActive ==> forall e :: e in r <==> e in actions && e.0 !in {"restore", "delete-permanently"}
  {
    DropKeys(actions, TicketActionsRestricted(isActive))
  }

  /** `it_submit_actions`. */
  function SubmitActions<V(!new)>(actions: Actions<V>, isActive: bool): (r: Actions<V>)
    ensures !isActive ==> forall e :: e in r <==> e in actions && e.0 !in {"reply", "private-note", "reply-and-close"}
  {
    DropKeys(actions, SubmitActionsRestricted(isActive))
  }

  /** `it_thread_actions`. */
  function ThreadActions<V(!new)>(actions: Actions<V>, isActive: bool): (r: Actions<V>)
    ensures !isActive ==> forall e :: e in r <==> e in actions && e.0 !in {"edit", "delete"}
  {
    DropKeys(actions, ThreadActionsRestricted(isActive))
  }

  /** Dropping nothing gives the list back unchanged. */
  lemma {:induction false} DropNothing<V(!new)>(actions: Actions<V>)
    ensures DropKeys(actions, {}) == actions
  {
    if actions != [] {
      DropNothing(actions[..|actions| - 1]);
    }
  }

  /** For an active ticket the submit and thread action lists are left exactly as they are. */
  lemma ActiveTicketKeepsSubmitAndThreadActions<V(!new)>(actions: Actions<V>)
    ensures SubmitActions(actions, true) == actions
    ensures ThreadActions(actions, true) == actions
  {
    DropNothing(actions);
  }

  /** Dropping keys works entry by entry, so the survivors keep their relative order. */
  lemma {:induction false} DropKeysConcat<V(!new)>(a: Actions<V>, b: Actions<V>, restricted: set<string>)
    ensures DropKeys(a + b, restricted) == DropKeys(a, restricted) + DropKeys(b, restricted)
    decreases |b|
  {
    if b == [] {
      assert a + b == a;
    } else {
      var init := b[..|b| - 1];
      assert (a + b)[..|a + b| - 1] == a + init;
      DropKeysConcat(a, init, restricted);
    }
  }

  /** Dropping the same keys twice drops nothing more. */
  lemma {:induction false} DropKeysIdempotent<V(!new)>(actions: Actions<V>, restricted: set<string>)
    ensures DropKeys(DropKeys(actions, restricted), restricted) == DropKeys(actions, restricted)
  {
    if actions != [] {
      var init := actions[..|actions| - 1];
      var last := actions[|actions| - 1];
      DropKeysIdempotent(init, restricted);
      if last.0 !in restricted {
        DropKeysConcat(DropKeys(init, restricted), [last], restricted);
        assert DropKeys([last], restricted) == [last] by {
          assert [last][..0] == [];
        }
      }
    }
  }

  /**
   * Each filter returns a sub-list of its input: no entry is added, a
   * surviving entry keeps its action, and filtering twice equals filtering
   * once.
   */
  lemma FiltersAreIdempotentSubLists<V(!new)>(actions: Actions<V>, isActive: bool)
    ensures forall e :: e in IndividualTicketActions(actions, isActive) ==> e in actions
    ensures forall e :: e in SubmitActions(actions, isActive) ==> e in actions
    ensures forall e :: e in ThreadActions(actions, isActive) ==> e in actions
    ensures IndividualTicketActions(IndividualTicketActions(actions, isActive), isActive)
         == IndividualTicketActions(actions, isActive)
    ensures SubmitActions(SubmitActions(actions, isActive), isActive) == SubmitActions(actions, isActive)
    ensures ThreadActions(ThreadActions(actions, isActive), isActive) == ThreadActions(actions, isActive)
  {
    DropKeysIdempotent(actions, TicketActionsRestricted(isActive));
    DropKeysIdempotent(actions, SubmitActionsRestricted(isActive));
    DropKeysIdempotent(actions, ThreadActionsRestricted(isActive));
  }
}

=== FILE: wrappers.dfy ===
/** The optional-value datatype shared by the other modules. */
module Wrappers {

  datatype Option<+T> = None | Some(value: T)
}
